=== FILE: README.md ===
# Waste-management dashboard: verified model of the business rules

The dashboard lets residents pay for garbage collection in coins, buy coin
packages, file complaints, disputes and reviews, and lets an administrator act
on them. Under the React pages and the `localStorage` plumbing sit a set of
deterministic rules, and this project models them in Dafny:

- **pricing**: a case-insensitive waste type → rate table, and a charge of
  `ceil(weight × rate)`;
- **coin catalogue**: the catalogue, its purchase ledger and its
  recommendation rule;
- **payments**: a mock processor with card validation, a fixed-priority
  decision chain, card masking, a capped transaction log and refunds;
- **record stores**: the in-memory stores behind complaints, disputes,
  feedback and bins;
- **page logic**: the validators and state transitions of the pages for
  complaints, reviews, package purchase, garbage collection, coin purchase,
  feedback, the admin dashboard and login.

Every service is modelled as a pure function from the old store to the new
store and a result. Anything the source draws from the outside world is a
parameter instead:

- clock readings (`now`, `today`, `year`);
- generated ids;
- the random gateway failure, and the random weight and fill variation of a
  bin reading;
- whether the network is up;
- what an API call answered.

Amounts, weights and rates are exact `real`s. Lower-casing and upper-casing
act on ASCII letters; trimming removes the white space and line terminators
that JavaScript's `trim` removes.

Modules, one per source file plus four shared ones:

| module | file | models |
|---|---|---|
| `Wrappers` | wrappers.dfy | `Option` and `Result` (a rejected promise is `Err(message)`) |
| `Seqs` | seqs.dfy | filter, first index, prepend-and-cap, remove-at, and the counting lemmas about them |
| `Text` | text.dfy | ASCII case mapping, white-space trimming, substring search, decimal rendering, `padStart` |
| `Tally` | tally.dfy | the `reduce` into a key → count object used by every statistics call |
| `Comments` | comments.dfy | the comment record shared by complaints and disputes |
| `Pricing` | pricing.dfy | src/services/coinCalculationService.js |
| `CoinPackages` | coin_packages.dfy | src/services/coinPackageService.js |
| `Payment` | payment.dfy | src/services/paymentService.js |
| `ComplaintService` | complaints.dfy | src/services/complaintService.js (local-store branches) |
| `DisputeService` | disputes.dfy | src/services/disputeService.js |
| `FeedbackService` | feedback.dfy | src/services/feedbackService.js |
| `BinService` | bins.dfy | src/services/binService.js |
| `ComplaintsPage` | complaints_page.dfy | src/pages/Complaints.jsx |
| `ReviewsPage` | reviews_page.dfy | src/pages/Reviews.jsx |
| `PackagesPage` | packages_page.dfy | src/pages/Packages.jsx |
| `CollectionPage` | collection_page.dfy | src/pages/collection/GarbageCollection.jsx |
| `CoinPurchasePage` | coin_purchase_page.dfy | src/pages/coins/CoinPackages.jsx |
| `FeedbackPage` | feedback_page.dfy | src/pages/feedback/FeedbackRating.jsx |
| `AdminPage` | admin_page.dfy | src/pages/admin/AdminDashboard.jsx |
| `LoginPage` | login_page.dfy | src/pages/auth/Login.jsx |

## Model

| member | source | states |
|---|---|---|
| Pricing.Ceil | src/services/coinCalculationService.js:8-41 | `Math.ceil`: the result is the least integer at or above its argument |
| Pricing.CreateStrategy | src/services/coinCalculationService.js:45-60 | the factory accepts a tag exactly when its lower-cased form is one of the five supported types, and otherwise throws "Unknown waste type: " followed by the tag |
| Pricing.SupportedTypesAccepted | src/services/coinCalculationService.js:45-64 | each of the five listed supported types is accepted by the factory, under its own strategy |
| Pricing.CalculateCoins | src/services/coinCalculationService.js:79-88 | the charge is the least integer ≥ weight × rate, where the rate is the published one for the lower-cased tag, or 2 for an unknown tag |
| Pricing.StrategyCharge | src/services/coinCalculationService.js:79-84 | a tag the factory accepts is charged at its own strategy's rate |
| Pricing.PublishedRates | src/services/coinCalculationService.js:8-41 | organic, plastic, paper, glass and metal are charged ceil(weight × 2, 3, 1.5, 2.5, 4) |
| Pricing.CaseInsensitive | src/services/coinCalculationService.js:46 | the charge for a tag equals the charge for its lower-cased form |
| Pricing.UnknownTypeFallsBack | src/services/coinCalculationService.js:57-58 | a tag outside the five does not fail; it costs ceil(weight × 2) |
| Pricing.Monotone | src/services/coinCalculationService.js:8-41 | for a fixed tag, more weight never costs less, and zero weight costs zero |
| Pricing.PositiveWeightCosts | src/services/coinCalculationService.js:79-88 | any positive weight costs at least one coin |
| Pricing.GetCalculationDetails | src/services/coinCalculationService.js:90-102 | the details echo the tag and the weight, and describe the tag as "Unknown waste type" exactly when it is unsupported |
| Pricing.DetailsAgreeWithCharge | src/services/coinCalculationService.js:66-74 | the details' `coinsRequired` is the charge, and their `ratePerKg` is the rate the strategy actually applied (2 for an unknown tag) |
| CoinPackages.GetPackageById | src/services/coinPackageService.js:61-72 | the result is the catalogue package with that id; it fails with "Package not found" exactly when no package has that id |
| CoinPackages.SmallestFirst | src/services/coinPackageService.js:144-148 | the `reduce` picks a package with the fewest coins, and the first such package in order |
| CoinPackages.Recommend | src/services/coinPackageService.js:139-148 | over any package list: a covering package with the fewest coins when one exists, else the last package; always a member of the list |
| CoinPackages.GetRecommendedPackage | src/services/coinPackageService.js:136-149 | the recommendation is a catalogue package. If some package covers 3 × the monthly collections, it is a covering package with the fewest coins; otherwise it is the last catalogue entry |
| CoinPackages.CatalogueCoinsDistinct | src/services/coinPackageService.js:4-45 | no two catalogue packages carry the same number of coins |
| CoinPackages.RecommendationFirstAmongTies | src/services/coinPackageService.js:139-148 | a covering package with as few coins as the recommendation is the recommendation, so the reduce never faces a tie |
| CoinPackages.RecordPurchase | src/services/coinPackageService.js:75-98 | the new purchase heads the ledger, which keeps the 100 newest; status 'completed' and the timestamp override the caller's data, while its id, user and package override the defaults |
| CoinPackages.GetUserPurchaseHistory | src/services/coinPackageService.js:101-110 | a ledger entry is returned exactly when it belongs to that user |
| CoinPackages.UserHistoryOrder | src/services/coinPackageService.js:104-106 | the user's purchases keep ledger order: the history of a concatenated ledger is the concatenation of the histories |
| CoinPackages.GetPackageStatistics | src/services/coinPackageService.js:113-128 | the total is the ledger length; each package's count is the number of purchases of that package; the recent list is the 10 newest |
| CoinPackages.PackageCountsSumToTotal | src/services/coinPackageService.js:117-123 | the per-package counts add up to `totalPurchases` |
| Payment.DigitsOnly | src/services/paymentService.js:103 | stripping non-digits leaves only digits, never lengthens the number, and leaves a digits-only number unchanged |
| Payment.DigitsOnlyConcat | src/services/paymentService.js:103 | stripping works piece by piece: the digits of a concatenation are the digits of the first part followed by those of the second, so their order is kept |
| Payment.IsValidCardNumber | src/services/paymentService.js:97-107 | an empty number, or one whose raw length is outside 13..19, is invalid; a raw length in 13..19 with 13..19 digits is valid |
| Payment.ValidCardIsDigitCount | src/services/paymentService.js:97-107 | with the mock accounts, a number is valid iff its raw length and its digit count both lie in 13..19: the account-key test adds nothing |
| Payment.MaskAsWritten | src/services/paymentService.js:24 | the mask the code applies keeps the length, keeps the last four characters, and only ever replaces digits by '*' |
| Payment.Mask | src/services/paymentService.js:24 | the intended mask keeps the length and the last four characters, replaces only digits, and leaves visible no digit that has four or more digits after it, while every character with fewer than four digits after it stays as it was |
| Payment.MaskAgreesOnPlainDigits | src/services/paymentService.js:24 | on a number written as bare digits, the intended mask and the code's mask agree |
| Payment.DigitsOnlyGrouped | src/services/paymentService.js:32-57 | a number written as space-separated digit groups strips down to the groups' digits, which is what the validator sees |
| Payment.MaskAsWrittenLeaksGroupedNumber | src/services/paymentService.js:24 | a number written as four space-separated groups of four digits is valid, yet the code's mask shows its first digit, which fifteen digits follow; the intended mask hides it |
| Payment.SaveTransaction | src/services/paymentService.js:115-124 | the new transaction heads the log, and the log keeps the 100 newest entries |
| Payment.Decide | src/services/paymentService.js:39-91 | the first failing check is reported, in this order: invalid card, insufficient funds, blocked account, gateway failure; with none failing, the payment succeeds |
| Payment.ProcessPaymentAsWritten | src/services/paymentService.js:16-94 | the code's processor: a success happens iff the card is valid, funds suffice, the account looked up under the card text as typed is not blocked and the gateway does not fail. Each failure gets its own message, success its own. Exactly one charge is logged, carrying the code's mask, completed iff successful, and that account is debited only on success. The entry is stamped with the call's time. Its stored error is "Invalid card number", "Insufficient funds", "Account blocked" or "Payment gateway error" for the matching decline, and none on success. The result carries the logged transaction iff the payment succeeds |
| Payment.InitialAccountsShape | src/services/paymentService.js:4-10 | every mock account is keyed by a digit string, and account 0000111122223333 is blocked |
| Payment.BlockedAccountBypassAsWritten | src/services/paymentService.js:32-57 | the blocked account paid with its number written in four groups succeeds in the code's processor; the corrected processor declines it with "Account is blocked" |
| Payment.ProcessPayment | src/services/paymentService.js:16-94 | a success happens iff the card is valid, funds suffice, the account is not blocked and the gateway does not fail. Each failure gets its own message. Exactly one transaction is logged, completed iff successful, and the mock account is debited only on success. The entry is stamped with the call's time. Its stored error is "Invalid card number", "Insufficient funds", "Account blocked" or "Payment gateway error" for the matching decline, and none on success. The result carries the logged transaction iff the payment succeeds |
| Payment.PaymentTouchesOneAccount | src/services/paymentService.js:80-83 | a payment keeps the set of mock accounts and leaves every account other than the one under the card's digits unchanged |
| Payment.GetTransaction | src/services/paymentService.js:127-138 | the result is a logged transaction with that id; it fails with "Transaction not found" exactly when none has it |
| Payment.DoubleRefundAsWritten | src/services/paymentService.js:152-193 | the code's refund accepts a second refund of a transaction it has just refunded |
| Payment.ProcessRefundAsWritten | src/services/paymentService.js:152-193 | the code's refund fails with "Transaction not found" or "Cannot refund non-completed transaction", and with nothing else. Otherwise the refund record carries the original amount and status completed, and the log is the marked original, then the refund, then the old log with the original marked in place, capped at 100 |
| Payment.ProcessRefund | src/services/paymentService.js:152-193 | the corrected refund is rejected iff the transaction is unknown, not completed, or already refunded, each with its own message. Otherwise the refund record carries the original amount and status completed, and the log is the refund followed by the old log with the original marked refunded in its place, capped at 100 |
| Payment.NoDoubleRefund | src/services/paymentService.js:155-183 | after a refund whose generated id differs from the original's, refunding the same transaction again is rejected |
| Payment.RefundCountsSaleTwiceAsWritten | src/services/paymentService.js:178-183 | in the code, refunding a sale while the log has room raises the completed count by one and the revenue by the sale's amount, because the marked sale is logged a second time |
| Payment.RefundKeepsRevenue | src/services/paymentService.js:178-183 | with the corrected bookkeeping, a refund while the log has room leaves the completed count and the revenue unchanged and adds the refunded amount to the refund total |
| Payment.GetPaymentStatistics | src/services/paymentService.js:196-216 | the total is the log length; the completed count is the number of completed non-refund entries and the failed count the number of failed ones, together never more than the total; revenue sums the completed non-refund amounts and the refund total the refund amounts; the recent list is the 10 newest |
| Payment.StatisticsPartitionLog | src/services/paymentService.js:199-208 | when every refund is logged as completed, sales, failures and refunds together account for every log entry |
| Payment.RevenueSplitsOverLog | src/services/paymentService.js:199-208 | revenue is additive over the log: the revenue of two concatenated logs is the sum of their revenues |
| ComplaintService.MapCategoryToApi | src/services/complaintService.js:78-87 | every page category maps to an API category, and an unknown one maps to 'Other Issue' |
| ComplaintService.MapCategory | src/services/complaintService.js:161-169 | every API category maps to a page category, and an unknown one maps to 'other' |
| ComplaintService.CategoryRoundTrip | src/services/complaintService.js:78-87 | the two category tables are inverse to each other on the known categories, in both directions |
| ComplaintService.MapStatus | src/services/complaintService.js:152-158 | the result is 'OPEN' or 'CLOSE', and it equals the input exactly when the input is 'OPEN' or 'CLOSE' |
| ComplaintService.MapStatusToApi | src/services/complaintService.js:303-309 | the result is 'OPEN' or 'CLOSE', and it equals the input exactly when the input is 'OPEN' or 'CLOSE' |
| ComplaintService.StatusMappingCollapses | src/services/complaintService.js:303-309 | 'resolved' and 'in_progress' go to the API as 'OPEN'; the two status maps agree, and mapping twice changes nothing |
| ComplaintService.IndexOf | src/services/complaintService.js:210 | the position of the first complaint with that id, or none when no complaint has it |
| ComplaintService.CreateComplaint | src/services/complaintService.js:61-70 | the new complaint heads the store, and status 'OPEN', a fresh id and timestamps override the draft; title, description, category, priority, user, image, preferred contact, admin response, resolution time and comments are the draft's |
| ComplaintService.CloseComplaint | src/services/complaintService.js:207-223 | an unknown id fails with "Complaint not found". Otherwise only that complaint changes: to status 'CLOSE', the fixed admin response, and updated and resolved times |
| ComplaintService.UpdateComplaintStatus | src/services/complaintService.js:230-300 | 'CLOSE' delegates to the close operation, and an unknown id fails. Otherwise only that complaint changes, taking the status and response; its resolved time is the update's time iff the status is 'resolved' or 'closed', and none otherwise. All its other fields are kept |
| ComplaintService.UpdateComplaint | src/services/complaintService.js:461-487 | the update fails iff the complaint is missing or not 'pending', each with its own message. Otherwise only that complaint changes: each patched field takes the new value and each unpatched one stays, the id, status, user, creation time, response, resolution time and comments are kept, and it is stamped as updated |
| ComplaintService.DeleteComplaint | src/services/complaintService.js:490-511 | the delete fails iff the complaint is missing or not 'pending'; otherwise exactly that complaint is removed and the rest keep their order |
| ComplaintService.CreatedComplaintIsFrozen | src/services/complaintService.js:61-70 | a complaint created by the local store has status 'OPEN', so right after it is created it can be neither updated nor deleted |
| ComplaintService.StatusUpdateDecidesEditable | src/services/complaintService.js:286-293 | after a status update the complaint can be edited or deleted iff the new status is 'pending': the admin's 'in_progress', 'resolved' and 'CLOSE' keep it frozen, and 'pending' thaws it |
| ComplaintService.AddComplaintComment | src/services/complaintService.js:403-431 | an unknown id fails with "Complaint not found"; otherwise exactly one comment is appended to that complaint, and no other complaint changes |
| ComplaintService.GetUserComplaints | src/services/complaintService.js:90-97 | a complaint is returned exactly when it belongs to that user |
| ComplaintService.GetComplaintsByStatus | src/services/complaintService.js:368-375 | a complaint is returned exactly when it has that status |
| ComplaintService.GetComplaintsByCategory | src/services/complaintService.js:378-385 | a complaint is returned exactly when it has that category |
| ComplaintService.GetHighPriorityComplaints | src/services/complaintService.js:519-528 | a complaint is returned exactly when its priority is 'high' and it is not resolved |
| ComplaintService.SearchComplaints | src/services/complaintService.js:388-400 | a complaint is returned exactly when the query occurs, ignoring case, in its title, description, category or user name |
| ComplaintService.EmptySearchKeepsAll | src/services/complaintService.js:388-400 | the empty query returns the whole store |
| ComplaintService.GetComplaintStatistics | src/services/complaintService.js:326-349 | the total is the store size; each status count is the size of that status's filter, and the four together never exceed it; the category and priority breakdowns count each key's occurrences; the recent list is the 10 newest |
| ComplaintService.BreakdownsSumToTotal | src/services/complaintService.js:333-340 | the category and the priority breakdowns each add up to the number of complaints |
| ComplaintService.CreateKeepsPendingCount | src/services/complaintService.js:61-70 | creating a complaint leaves the pending count unchanged |
| DisputeService.CreateDispute | src/services/disputeService.js:8-24 | the new dispute heads the store, and status 'pending', a fresh id and timestamps override the draft; user, transaction, amount, reason, description, admin response, resolution time and comments are the draft's |
| DisputeService.UpdateDisputeStatus | src/services/disputeService.js:46-68 | an unknown id fails with "Dispute not found". Otherwise only that dispute changes, taking the status and response, and its resolved time is the update's time iff the new status is not 'pending', and none otherwise. All its other fields are kept |
| DisputeService.GetDisputeById | src/services/disputeService.js:71-82 | the result is the first stored dispute with that id; it fails with "Dispute not found" exactly when none has it |
| DisputeService.AddDisputeComment | src/services/disputeService.js:125-153 | an unknown id fails with "Dispute not found"; otherwise exactly one comment is appended to that dispute, and no other dispute changes |
| DisputeService.GetUserDisputes | src/services/disputeService.js:27-34 | a dispute is returned exactly when it belongs to that user |
| DisputeService.GetDisputesByStatus | src/services/disputeService.js:161-168 | a dispute is returned exactly when it has that status |
| DisputeService.SearchDisputes | src/services/disputeService.js:171-182 | a dispute is returned exactly when the query occurs, ignoring case, in its transaction id, reason or description |
| DisputeService.GetDisputeStatistics | src/services/disputeService.js:85-106 | the total is the store size; each status count is the size of that status filter, and pending, approved and rejected together never exceed it; the refund total is that of the approved disputes; each reason's count is its number of occurrences |
| DisputeService.ReasonsSumToTotal | src/services/disputeService.js:97-100 | the per-reason counts add up to the number of disputes |
| DisputeService.SumAmountsConcat | src/services/disputeService.js:93-95 | the summed amount is additive over concatenation |
| DisputeService.RefundTotalConcat | src/services/disputeService.js:93-95 | the refund total is additive over a split of the store |
| DisputeService.RefundTotalAfterReplace | src/services/disputeService.js:89-95 | replacing one dispute changes the refund total by exactly the difference of that dispute's approved amounts |
| DisputeService.ApprovalAddsRefund | src/services/disputeService.js:46-68 | approving a dispute that was not approved raises the refund total by exactly its amount |
| DisputeService.RejectionRemovesRefund | src/services/disputeService.js:46-68 | rejecting an approved dispute lowers the refund total by exactly its amount |
| DisputeService.CreateKeepsRefundTotal | src/services/disputeService.js:8-24 | filing a dispute leaves the refund total unchanged |
| FeedbackService.SubmitFeedback | src/services/feedbackService.js:8-22 | the new feedback heads the store, and a fresh id and timestamp override the draft, whose other fields, including updatedAt, are kept |
| FeedbackService.UpdateFeedback | src/services/feedbackService.js:157-177 | an unknown id fails with "Feedback not found". Otherwise only that entry changes: each patched field (rating, comment, category) takes the new value and each unpatched one stays; the id, user id, user name and timestamp are kept, and it is stamped as updated |
| FeedbackService.DeleteFeedback | src/services/feedbackService.js:180-195 | an unknown id fails with "Feedback not found"; otherwise exactly that entry is removed and the rest keep their order |
| FeedbackService.SubmitThenDelete | src/services/feedbackService.js:8-22 | deleting feedback just submitted gives back the store as it was |
| FeedbackService.GetUserFeedback | src/services/feedbackService.js:25-32 | an entry is returned exactly when it belongs to that user |
| FeedbackService.GetFeedbackByCategory | src/services/feedbackService.js:44-51 | an entry is returned exactly when it has that category |
| FeedbackService.GetFeedbackByRating | src/services/feedbackService.js:100-109 | an entry is returned exactly when its rating lies between the bounds, inclusive |
| FeedbackService.SearchFeedback | src/services/feedbackService.js:112-123 | an entry is returned exactly when the query occurs, ignoring case, in its comment, category or user name |
| FeedbackService.GetRatingDistribution | src/services/feedbackService.js:81-89 | entry k counts the ratings equal to k, and when every rating lies in 1..5 the five entries add up to the number of entries |
| FeedbackService.CountRatingIsFilter | src/services/feedbackService.js:84-86 | counting the ratings equal to k gives the size of the k..k rating filter |
| FeedbackService.DistributionCoversAll | src/services/feedbackService.js:82-89 | when every rating lies in 1..5, the counts for 1 to 5 add up to the number of entries |
| FeedbackService.GetCategoryDistribution | src/services/feedbackService.js:92-97 | each category's count is its number of occurrences, and the counts add up to the number of entries |
| FeedbackService.SumRatingsBounds | src/services/feedbackService.js:73-78 | with ratings in 1..5, the rating sum lies between the count and five times the count |
| FeedbackService.CalculateAverageRating | src/services/feedbackService.js:73-78 | no feedback gives 0. Otherwise the average times the count is the rating sum, and with ratings in 1..5 the average lies in [1, 5] |
| FeedbackService.PositiveIsTopRange | src/services/feedbackService.js:58-65 | with ratings in 1..5, "rating ≥ 4" selects the same entries as the 4..5 range filter |
| FeedbackService.NegativeIsBottomRange | src/services/feedbackService.js:58-65 | with ratings in 1..5, "rating ≤ 2" selects the same number of entries as the 1..2 range filter |
| FeedbackService.NeutralIsMiddle | src/services/feedbackService.js:58-65 | "rating = 3" selects the same number of entries as the 3..3 range filter |
| FeedbackService.GetFeedbackStatistics | src/services/feedbackService.js:54-70 | positive counts the ratings ≥ 4, negative those ≤ 2 and neutral those equal to 3, and the three add up to the total; with ratings in 1..5 positive and negative are the 4..5 and 1..2 range filters' sizes; the recent list is the 10 newest. The average, the rating distribution and the category distribution are the service's own average and distributions |
| BinService.MockBins | src/services/binService.js:5-71 | the five seeded bins |
| BinService.MockBinsHaveTwoFull | src/services/binService.js:5-71 | exactly two of the seeded bins are full |
| BinService.Reading | src/services/binService.js:85-90 | a reading keeps the bin's id, location, type and sensor data. Its weight is at least 0.1 and its fill level lies in [0, 100], and each moves by the variation whenever that stays within the bounds |
| BinService.GetBinData | src/services/binService.js:78-97 | the QR code is upper-cased before the lookup; an unknown code fails with "Bin not found"; otherwise the result is a reading of that bin |
| BinService.LookupIgnoresCase | src/services/binService.js:81 | looking up a code and its upper-cased form gives the same result |
| BinService.ProcessCollection | src/services/binService.js:100-117 | the collection is returned and heads the history, which keeps the 50 newest entries |
| BinService.GetCollectionHistory | src/services/binService.js:120-129 | an entry is returned exactly when it belongs to that user |
| BinService.NewCollectionHeadsHistory | src/services/binService.js:100-129 | below the cap, a processed collection becomes the first entry of its user's history, followed by the user's earlier entries |
| BinService.UpdateBinData | src/services/binService.js:141-156 | an unknown id fails with "Bin not found". Otherwise only that bin changes: each patched field takes the new value, the others stay, and it is stamped as updated |
| BinService.GetBinStatistics | src/services/binService.js:159-176 | the total is the number of bins; full bins, those filled at least 80%, never exceed it; each waste type's count is its number of occurrences |
| BinService.AllFull | src/services/binService.js:164-166 | when every bin is filled at least 80%, every bin counts as full |
| ComplaintsPage.SelectCategory | src/pages/Complaints.jsx:88-94 | choosing a category clears the error, and any choice other than 'other' clears the custom category |
| ComplaintsPage.UploadPhoto | src/pages/Complaints.jsx:96-123 | the type is checked before the size, and each check has its own message; a photo is attached only when both pass; no file changes nothing |
| ComplaintsPage.ValidateForm | src/pages/Complaints.jsx:130-158 | the form is rejected, in this order, for no category, a blank custom category under 'other', a blank description, or a description over 500 characters; otherwise it is accepted |
| ComplaintsPage.CheckForDuplicates | src/pages/Complaints.jsx:160-177 | it reports an open or in-progress ticket of the same category whose description contains the first word of the new one, and it is the FIRST qualifying ticket in list order, as `find` returns; nothing exactly when no ticket qualifies |
| ComplaintsPage.LeadingSpaceMatchesAnyOpenTicket | src/pages/Complaints.jsx:170-172 | a description starting with a space has an empty first word, so every open ticket of that category counts as its duplicate |
| ComplaintsPage.TicketId | src/pages/Complaints.jsx:218-220 | a ticket id starts with "TKT-" |
| ComplaintsPage.SerialReadsBack | src/pages/Complaints.jsx:218-220 | the zero-padded serial has at least three digits and denotes count + 1 |
| ComplaintsPage.TicketIdReadsBack | src/pages/Complaints.jsx:218-220 | the id reads back as "TKT-", the year, '-', and a serial of at least three digits whose value is count + 1 |
| ComplaintsPage.TicketIdsDistinct | src/pages/Complaints.jsx:218-220 | different counts in the same year give different ticket ids |
| ComplaintsPage.Sla | src/pages/Complaints.jsx:227-229 | the SLA is "48 hours" exactly for a missed pickup, and "72 hours" otherwise |
| ComplaintsPage.SubmitComplaint | src/pages/Complaints.jsx:209-287 | the new ticket heads the list, with the next ticket id, the category name and the description. It is synced iff the network is up and any link has a duplicate to point to; a linked ticket points at the duplicate; an unsynced ticket is 'Open', 'Pending Sync' and "72 hours" |
| ComplaintsPage.HandleSubmit | src/pages/Complaints.jsx:193-207 | an invalid form is rejected with the validator's message; a valid form is answered with a duplicate exactly when the duplicate check finds one, and it is that ticket; otherwise, exactly when no duplicate exists, one unlinked 'Open' ticket is prepended |
| ComplaintsPage.ResetForm | src/pages/Complaints.jsx:289-297 | the reset form is empty, and validating it asks for a category |
| ComplaintsPage.FilteredComplaints | src/pages/Complaints.jsx:319-324 | a ticket is shown exactly when the query occurs, ignoring case, in its id, category or description |
| ComplaintsPage.SearchProperties | src/pages/Complaints.jsx:319-324 | the empty query shows every ticket, and a query's upper-case and lower-case forms show the same tickets |
| ReviewsPage.SelectCollection | src/pages/Reviews.jsx:77-85 | opening the form for a collection selects it and resets the rating to 0 and the comment to empty, so the form does not validate yet |
| ReviewsPage.ClickCollection | src/pages/Reviews.jsx:310-313 | a click on a reviewed collection changes nothing; a click on any other opens the form for it |
| ReviewsPage.GeneralFeedback | src/pages/Reviews.jsx:87-95 | opening the form for general feedback clears the selection and resets the rating to 0 and the comment to empty |
| ReviewsPage.ValidateSubmission | src/pages/Reviews.jsx:97-114 | a rating outside 1..5 is rejected before a comment over 500 characters; anything else is accepted |
| ReviewsPage.OrDefault | src/pages/Reviews.jsx:131 | `s \|\| d`: the string itself, or the default when it is empty |
| ReviewsPage.BuildRequest | src/pages/Reviews.jsx:128-132 | the request carries the rating and today's date; an empty comment is sent as "Great service, would recommend!" |
| ReviewsPage.CollectionId | src/pages/Reviews.jsx:142 | with no collection selected, the id is "GENERAL" |
| ReviewsPage.CollectionType | src/pages/Reviews.jsx:146 | with no collection selected, the type is "General Feedback" |
| ReviewsPage.HandleSubmit | src/pages/Reviews.jsx:117-199 | an invalid form is rejected with the validator's message; otherwise exactly one review is prepended. It is 'Synced' and built from the answer iff the status code is "02"; otherwise it is the 'Pending Sync' review built locally. A collection becomes reviewed iff it already was, or the review is synced and its id is the selected collection's; nothing else about the collections changes |
| ReviewsPage.MarkReviewed | src/pages/Reviews.jsx:155-157 | only the entries with the selected id become reviewed, and every other field is kept |
| ReviewsPage.SyncedReviewLocksCollection | src/pages/Reviews.jsx:155-157 | after a synced review the collection ignores clicks; after a pending-sync review an unreviewed collection can still be selected |
| ReviewsPage.EmptyCommentDefaults | src/pages/Reviews.jsx:131-182 | an empty comment is sent as praise but kept as "No comment provided" when the call fails |
| PackagesPage.SelectPackage | src/pages/Packages.jsx:67-72 | selecting a package opens the confirmation and clears the status and the error, without touching the balance |
| PackagesPage.CancelPurchase | src/pages/Packages.jsx:74-78 | cancel clears the selection and resets the method to credit card, without touching the balance |
| PackagesPage.ConfirmPayment | src/pages/Packages.jsx:90-137 | success happens iff the payment is authorised with a package selected: the balance grows by the package's coins and the receipt matches the package and the new balance. A decline or an exception leaves the balance and the receipt alone and sets its own status and message |
| PackagesPage.RetryPayment | src/pages/Packages.jsx:139-142 | retry clears the status and the error, without touching the balance, the selection or the receipt |
| PackagesPage.BuyAnother | src/pages/Packages.jsx:144-149 | "buy another" clears the receipt and the selection, without touching the balance |
| PackagesPage.FailedAttemptThenRetry | src/pages/Packages.jsx:121-142 | a failed attempt followed by a retry is the same as retrying straight away |
| PackagesPage.TwoPurchasesAddUp | src/pages/Packages.jsx:90-149 | buying the same package twice raises the balance by twice its coins |
| CollectionPage.HandleQrScan | src/pages/collection/GarbageCollection.jsx:26-46 | a blank code is rejected before any lookup; otherwise the bin data is loaded, or cleared with an error; the balance and history are untouched |
| CollectionPage.HandleCollection | src/pages/collection/GarbageCollection.jsx:48-104 | no bin data means no change. Too few coins sets a message only. Otherwise the balance drops by exactly the charge, a record with that charge heads both histories, and the code and bin data are cleared; so the balance never goes negative |
| CollectionPage.ScannedCollectionCosts | src/pages/collection/GarbageCollection.jsx:26-104 | after a successful scan, a collection either costs at least one coin and leaves a non-negative balance, or leaves the balance and the history as they were |
| CoinPurchasePage.PaymentRequestFor | src/pages/coins/CoinPackages.jsx:44-49 | the amount charged is the selected package's price |
| CoinPurchasePage.HandlePayment | src/pages/coins/CoinPackages.jsx:38-79 | with no selection nothing changes. Success credits exactly the package's coins and clears the panel and the selection. A failure or an exception leaves the balance alone and shows the result's message, 'Payment failed', or the exception message |
| CoinPurchasePage.CreditIffPaymentAccepted | src/pages/coins/CoinPackages.jsx:44-70 | paying through the processor as written (Payment.ProcessPaymentAsWritten, which the page calls), the selection is cleared and the package's coins credited exactly when the card is valid, the balance covers the price, the account looked up under the card text as typed is not blocked and the gateway holds |
| CoinPurchasePage.CreditIffCorrectedPaymentAccepted | src/pages/coins/CoinPackages.jsx:44-70 | paying through the corrected processor (Payment.ProcessPayment), the same holds with the account looked up under the card's digits |
| CoinPurchasePage.BlockedGroupedCardCreditedAsWritten | src/pages/coins/CoinPackages.jsx:44-57 | as written, the page credits the coins of a purchase paid with a blocked account whose number is typed in four groups |
| FeedbackPage.RatingClick | src/pages/feedback/FeedbackRating.jsx:28-30 | a click sets the rating and changes nothing else |
| FeedbackPage.HandleSubmit | src/pages/feedback/FeedbackRating.jsx:32-59 | a rating of 0 is rejected before the service is called. Otherwise the page prepends its record, with the user's id and name, the page's own id and clock reading, and no update time. It resets the form, and the service prepends the same record under its own id and timestamp |
| FeedbackPage.NoDoubleSubmit | src/pages/feedback/FeedbackRating.jsx:32-59 | submitting again right after a submit is rejected, because the form was reset |
| FeedbackPage.RenderStars | src/pages/feedback/FeedbackRating.jsx:61-72 | there are five stars, and star i is filled iff i < rating |
| FeedbackPage.StarsFilled | src/pages/feedback/FeedbackRating.jsx:61-72 | of n stars, the number filled is the rating clamped to [0, n] |
| FeedbackPage.FilledStarCount | src/pages/feedback/FeedbackRating.jsx:61-72 | exactly `rating` of the five stars are filled when the rating is in 0..5 |
| FeedbackPage.GetRatingText | src/pages/feedback/FeedbackRating.jsx:75-84 | a label is shown exactly for ratings 1..5 |
| FeedbackPage.RatingTextDistinct | src/pages/feedback/FeedbackRating.jsx:75-84 | the five labels are distinct |
| FeedbackPage.PositiveCount | src/pages/feedback/FeedbackRating.jsx:242 | the positive count is the number of entries rated 4 or more, which with ratings in 1..5 is the 4..5 range filter's size |
| FeedbackPage.PositiveCountMatchesService | src/pages/feedback/FeedbackRating.jsx:242 | the page's positive count equals the service statistics' positive count |
| AdminPage.LoadAdminStats | src/pages/admin/AdminDashboard.jsx:22-42 | the pending counts are the numbers of pending disputes and complaints, each bounded by its list |
| AdminPage.PendingCountsMatchServices | src/pages/admin/AdminDashboard.jsx:33-38 | the dashboard's pending counts agree with the services' statistics |
| AdminPage.MarkDisputes | src/pages/admin/AdminDashboard.jsx:49-53 | every dispute with that id takes the status and response, and every other dispute is unchanged |
| AdminPage.HandleDisputeAction | src/pages/admin/AdminDashboard.jsx:44-59 | when the service rejects, both lists are unchanged; otherwise the service updates its store, and only disputes with that id change in the page's list |
| AdminPage.MarkComplaints | src/pages/admin/AdminDashboard.jsx:66-70 | every complaint with that id takes the status, response and update time, and every other complaint is unchanged |
| AdminPage.HandleComplaintAction | src/pages/admin/AdminDashboard.jsx:61-76 | when the service rejects, both lists are unchanged; otherwise the service updates its store at its own time, and only complaints with that id change in the page's list, stamped with the page's later clock reading |
| AdminPage.DisputeActionKeepsMirror | src/pages/admin/AdminDashboard.jsx:44-59 | when ids are unique, the page's list and the service's store agree on the acted-on dispute's status and response |
| AdminPage.ComplaintActionKeepsMirror | src/pages/admin/AdminDashboard.jsx:61-78 | when ids are unique, after a complaint action the page's list and the service's store agree on the status and differ on the acted-on complaint only in its update time (the service's clock vs. the page's) and its resolved time; only 'CLOSE' stores the service's fixed response instead of the admin's |
| AdminPage.Insert | src/pages/admin/AdminDashboard.jsx:159 | inserting into a newest-first list keeps it newest-first and adds exactly that item |
| AdminPage.SortNewestFirst | src/pages/admin/AdminDashboard.jsx:159 | the sort returns a newest-first permutation of its input |
| AdminPage.Take | src/pages/admin/AdminDashboard.jsx:158-160 | `slice(0, n)`: a prefix of length min(n, length) |
| AdminPage.Candidates | src/pages/admin/AdminDashboard.jsx:158 | the candidates are the first three disputes and the first three complaints |
| AdminPage.RecentActivity | src/pages/admin/AdminDashboard.jsx:158-160 | recent activity shows at most five items, newest first, all drawn from the first three disputes and the first three complaints |
| AdminPage.RecentActivityKeepsNewest | src/pages/admin/AdminDashboard.jsx:158-160 | no candidate left out is newer than the last one shown |
| LoginPage.HandleSubmit | src/pages/auth/Login.jsx:12-41 | an empty field is rejected first. A login succeeds iff the name is 'user' or 'admin' with password 'password', producing the fixed record for that name; anything else gives "Invalid username or password" |
| LoginPage.SignedInUserShape | src/pages/auth/Login.jsx:28-34 | a signed-in admin is 'admin-1' with 0 coins, a signed-in user has 100 coins, and the credentials were the listed ones |

## Left out

- Network I/O: the HTTP branches of the complaint service (`createComplaint`, `closeComplaint` and `updateComplaintStatus` when the API answers, `getAllComplaints`), src/services/api.js, and the API probe components. The model follows the local-store fallback of each call; the API's answer is an input only where a page branches on it.
- Persistence: `localStorage` and the JSON round trip. Each store is a sequence passed in and returned.
- Timing: `setTimeout` latency, promises and the receipt and message timers. A service call is a function that returns a `Result`.
- Nondeterminism: `Math.random`, `Date.now` and `new Date()` are parameters. Clock readings taken within one synchronous step (such as `updatedAt` and `resolvedAt` of one status update, or `createdAt` and `updatedAt` of one new record) share one `now`, so the model states them equal where the source may differ by a millisecond. Readings on either side of an `await`, such as the service's and the admin page's complaint stamps, are separate parameters. Dates are plain integers or strings; `toISOString` and `toLocaleDateString` formatting are not modelled.
- Floating point: amounts, weights and rates are exact rationals, so IEEE rounding of `weight × 1.5` at a boundary, `toFixed` and `parseFloat` are not modelled.
- Derived statistics: `successRate`, `averageResolutionTime`, `getComplaintTrends`, `getFeedbackTrends`, `getOverdueComplaints`, `getTopRatedCategories`, `getPackageValue`, and the bins' average fill and total weight. They are floating-point or date arithmetic with no rule beyond it.
- Copies: the `getAllX` accessors, which only copy the store.
- Text: case mapping is ASCII only; Unicode case folding is not modelled.
- String length: JavaScript's `length` counts UTF-16 code units, while the model's `|s|` counts characters, so a text holding characters outside the Basic Multilingual Plane is shorter in the model. This touches the 500-character description limit of src/pages/Complaints.jsx:149 and the 13..19 card-length test of src/services/paymentService.js:98.
- Pages not modelled: src/pages/complaints/ComplaintTracking.jsx and src/pages/coins/PaymentDisputes.jsx (form glue over the service creates already modelled), plus rendering, routing and CSS helpers.
- JavaScript object quirks: a key such as `__proto__`, `constructor`, `toString` or `valueOf` reads an inherited member of a plain object, and the model treats it as an ordinary key. This covers the tally keys and the lookups below.
- ComplaintService.MapCategoryToApi: for an inherited key such as "constructor" the source's `table[k] || default` returns the inherited member, not 'Other Issue'; the model returns the default.
- ComplaintService.MapCategory: for an inherited key the source returns the inherited member, not 'other'; the model returns the default.
- ComplaintService.MapStatus: for an inherited key the source returns the inherited member, so the result can leave 'OPEN'/'CLOSE'; the model maps it to 'OPEN'.
- ComplaintService.MapStatusToApi: for an inherited key the source returns the inherited member, so the result can leave 'OPEN'/'CLOSE'; the model maps it to 'OPEN'.
- BinService.UpdateBinData: `this.mockBins[binId]` is truthy for an inherited key such as "constructor", so the source "updates" that entry where the model answers "Bin not found". The patch also covers location, waste type, weight, fill level and sensor data only: an `id` in the update object, which the spread would copy, is not modelled, so the model keeps the bin's id.
- FeedbackService.UpdateFeedback: the patch covers rating, comment and category only; an `id`, `userId` or `timestamp` in the update object, which the spread would copy, is not modelled, and the contract states that they are kept.
- AdminPage.SortNewestFirst: the order among items of equal date, which `Array.prototype.sort` keeps from its input, is not stated.
- Aliasing: the source's refund logs the same original object twice, so a later in-place change to one entry changes the other. The model's log holds values, which no later operation mutates in place.
- The catch branches of `processCollection` and `submitFeedback`, which nothing in the local-store code can trigger.
- FeedbackService.CalculateAverageRating: states the exact mean before `toFixed(1)` rounding, which is floating-point presentation.
- FeedbackService.GetRatingDistribution: for a rating outside 1..5 the source's object gains an extra key whose count is NaN; the model states only the five counts for 1..5.
- CoinPackages.GetPackageStatistics: `totalRevenue` is left out (a floating-point sum); the counts and the recent list are modelled.
- ComplaintService.UpdateComplaint: the patch covers the editable fields only; a caller-supplied `id`, `status` or `comments` in the update object, which the spread would also copy, is not modelled.
- Payment.GetPaymentStatistics: `successRate` is left out (a floating-point ratio, NaN on an empty log); the counts, the sums and the recent list are stated.
- Payment.NoDoubleRefund: assumes the refund's generated id differs from the original's, as `generateTransactionId` is meant to ensure; with equal ids the refund record itself would be found first.
- ComplaintsPage.TicketId: its own contract fixes only the prefix; the layout of year and serial is proved in ComplaintsPage.TicketIdReadsBack.

## Findings

| source | as written | input that shows it | evidently intended | confidence | as-written member | corrected member |
|---|---|---|---|---|---|---|
| src/services/paymentService.js:24 | the mask replaces a digit only when four DIGITS follow it directly, so separators stop it | card number "1234 5678 9012 3456", which validates, is logged as "1234 5678 9012 3456" with nothing hidden | hide every digit but the last four, whatever the separators | high, not executed | Payment.MaskAsWrittenLeaksGroupedNumber | Payment.Mask |
| src/services/paymentService.js:32-57 | validation strips non-digits, but the blocked-account lookup uses the raw text | "0000 1111 2222 3333", the blocked account written in groups, with enough funds and no gateway failure, is charged successfully | look the account up under the digits the validator accepted, so a blocked account is declined however it is written | high, not executed | Payment.BlockedAccountBypassAsWritten | Payment.ProcessPayment |
| src/services/paymentService.js:155-183 | a refund checks only that the transaction exists and is completed, never its `refunded` flag | refunding a completed transaction twice succeeds both times and logs two refunds of the full amount | reject a refund of a transaction already refunded | high, not executed | Payment.DoubleRefundAsWritten | Payment.ProcessRefund |
| src/services/paymentService.js:178-183 | after marking the original in place, the refund logs the same original again at the head of the log | a log holding one completed sale of amount 10: after its refund the statistics report 2 completed transactions and revenue 20 | mark the original where it stands and log only the refund, so revenue and the completed count stay put | medium, not executed | Payment.RefundCountsSaleTwiceAsWritten | Payment.RefundKeepsRevenue |

Other behaviour the model exhibits, kept as written because it is plausible
as intended:

- A description that starts with a space makes every open ticket of that
  category a duplicate; see ComplaintsPage.LeadingSpaceMatchesAnyOpenTicket.
- The feedback page keeps its own id for a record that the service stores
  under another; see FeedbackPage.HandleSubmit.
- The admin page updates every local record carrying the id, while the
  service updates only the first; see AdminPage.MarkDisputes.

=== FILE: admin_page.dfy ===
/** The admin dashboard: pending counts, the admin's status actions on
    disputes and complaints, and the recent-activity panel. */
module AdminPage {
  import opened Wrappers
  import DisputeService
  import ComplaintService

  datatype AdminStats = AdminStats(totalUsers: nat, pendingDisputes: nat, pendingComplaints: nat, totalRevenue: nat)

  /** The stats `loadAdminData` computes; users and revenue are fixed
      figures. */
  function LoadAdminStats(disputes: seq<DisputeService.Dispute>, complaints: seq<ComplaintService.Complaint>)
    : (s: AdminStats)
    ensures s.pendingDisputes == |DisputeService.GetDisputesByStatus(disputes, "pending")|
    ensures s.pendingComplaints == |ComplaintService.GetComplaintsByStatus(complaints, "pending")|
    ensures s.pendingDisputes <= |disputes| && s.pendingComplaints <= |complaints|
    ensures s.totalUsers == 150 && s.totalRevenue == 12500
  {
    AdminStats(150,
      |DisputeService.GetDisputesByStatus(disputes, "pending")|,
      |ComplaintService.GetComplaintsByStatus(complaints, "pending")|,
      12500)
  }

  /** The dashboard's pending figures agree with the services' own
      statistics. */
  lemma PendingCountsMatchServices(disputes: seq<DisputeService.Dispute>, complaints: seq<ComplaintService.Complaint>)
    ensures LoadAdminStats(disputes, complaints).pendingDisputes
      == DisputeService.GetDisputeStatistics(disputes).pendingDisputes
    ensures LoadAdminStats(disputes, complaints).pendingComplaints
      == ComplaintService.GetComplaintStatistics(complaints).pendingComplaints
  {
  }

  /** The local copy after a dispute action: every dispute with that id
      gets the action as status and the response. */
  function MarkDisputes(disputes: seq<DisputeService.Dispute>, id: string, action: string, response: string)
    : (r: seq<DisputeService.Dispute>)
    ensures |r| == |disputes|
    ensures forall i :: 0 <= i < |disputes| ==>
      r[i] == if disputes[i].id == id then disputes[i].(status := action, adminResponse := Some(response))
              else disputes[i]
  {
    seq(|disputes|, i requires 0 <= i < |disputes| =>
      if disputes[i].id == id then disputes[i].(status := action, adminResponse := Some(response)) else disputes[i])
  }

  /** `handleDisputeAction`: the service is updated first; only when it
      succeeds is the local list changed. */
  function HandleDisputeAction(local: seq<DisputeService.Dispute>, store: seq<DisputeService.Dispute>,
                               id: string, action: string, response: string, now: int)
    : (r: (seq<DisputeService.Dispute>, seq<DisputeService.Dispute>))
    ensures DisputeService.IndexOf(store, id).None? ==> r == (local, store)
    ensures DisputeService.IndexOf(store, id).Some? ==>
      && r.1 == DisputeService.UpdateDisputeStatus(store, id, action, response, now).value.0
      && |r.0| == |local|
      && forall i :: 0 <= i < |local| ==>
           (local[i].id != id ==> r.0[i] == local[i])
           && (local[i].id == id ==> r.0[i].status == action && r.0[i].adminResponse == Some(response)
                                     && r.0[i].amount == local[i].amount && r.0[i].userId == local[i].userId)
  {
    match DisputeService.UpdateDisputeStatus(store, id, action, response, now)
    case Err(_) => (local, store)
    case Ok((store', _)) => (MarkDisputes(local, id, action, response), store')
  }

  function MarkComplaints(complaints: seq<ComplaintService.Complaint>, id: string, action: string,
                          response: string, now: int): (r: seq<ComplaintService.Complaint>)
    ensures |r| == |complaints|
    ensures forall i :: 0 <= i < |complaints| ==>
      r[i] == if complaints[i].id == id
              then complaints[i].(status := action, adminResponse := Some(response), updatedAt := now)
              else complaints[i]
  {
    seq(|complaints|, i requires 0 <= i < |complaints| =>
      if complaints[i].id == id
      then complaints[i].(status := action, adminResponse := Some(response), updatedAt := now)
      else complaints[i])
  }

  /** `handleComplaintAction`. The service stamps the store at `now`; the
      page reads its own clock after the await, `pageNow`, for its copy. */
  function HandleComplaintAction(local: seq<ComplaintService.Complaint>, store: seq<ComplaintService.Complaint>,
                                 id: string, action: string, response: string, now: int, pageNow: int)
    : (r: (seq<ComplaintService.Complaint>, seq<ComplaintService.Complaint>))
    ensures ComplaintService.IndexOf(store, id).None? ==> r == (local, store)
    ensures ComplaintService.IndexOf(store, id).Some? ==>
      && r.1 == ComplaintService.UpdateComplaintStatus(store, id, action, response, now).value.0
      && |r.0| == |local|
      && forall i :: 0 <= i < |local| ==>
           (local[i].id != id ==> r.0[i] == local[i])
           && (local[i].id == id ==> r.0[i].status == action && r.0[i].adminResponse == Some(response)
                                     && r.0[i].updatedAt == pageNow && r.0[i].comments == local[i].comments)
  {
    match ComplaintService.UpdateComplaintStatus(store, id, action, response, now)
    case Err(_) => (local, store)
    case Ok((store', _)) => (MarkComplaints(local, id, action, response, pageNow), store')
  }

  /** When the local list mirrors the store and ids are unique, an accepted
      dispute action keeps the two in step on status and response. */
  lemma DisputeActionKeepsMirror(disputes: seq<DisputeService.Dispute>, id: string, action: string,
                                 response: string, now: int, i: nat)
    requires i < |disputes| && disputes[i].id == id
    requires forall a, b :: 0 <= a < b < |disputes| ==> disputes[a].id != disputes[b].id
    ensures var (local', store') := HandleDisputeAction(disputes, disputes, id, action, response, now);
      && store'[i].status == local'[i].status == action
      && store'[i].adminResponse == local'[i].adminResponse == Some(response)
  {
    assert DisputeService.IndexOf(disputes, id) == Some(i);
  }

  /** The complaint twin: when the local list mirrors the store and ids are
      unique, an accepted complaint action leaves the two lists equal except
      for the acted-on complaint's update time (each side reads its own
      clock) and its resolved time, which only the store sets. 'CLOSE' is
      the one action whose stored response is the service's fixed text
      rather than the admin's. */
  lemma ComplaintActionKeepsMirror(complaints: seq<ComplaintService.Complaint>, id: string, action: string,
                                   response: string, now: int, pageNow: int, i: nat)
    requires i < |complaints| && complaints[i].id == id
    requires forall a, b :: 0 <= a < b < |complaints| ==> complaints[a].id != complaints[b].id
    ensures var (local', store') := HandleComplaintAction(complaints, complaints, id, action, response, now, pageNow);
      && |store'| == |local'| == |complaints|
      && store'[i].status == local'[i].status == action
      && store'[i].updatedAt == now && local'[i].updatedAt == pageNow
      && (action != "CLOSE" ==>
            store'[i] == local'[i].(updatedAt := store'[i].updatedAt, resolvedAt := store'[i].resolvedAt))
      && (action == "CLOSE" ==> store'[i].adminResponse == Some("Complaint has been closed"))
      && forall j :: 0 <= j < |complaints| && j != i ==> store'[j] == local'[j]
  {
    assert ComplaintService.IndexOf(complaints, id) == Some(i);
  }

  // ---- Recent activity ----

  datatype Activity = DisputeActivity(dispute: DisputeService.Dispute) | ComplaintActivity(complaint: ComplaintService.Complaint)

  function CreatedAt(a: Activity): int {
    match a
    case DisputeActivity(d) => d.createdAt
    case ComplaintActivity(c) => c.createdAt
  }

  predicate SortedNewestFirst(s: seq<Activity>) {
    forall i, j :: 0 <= i < j < |s| ==> CreatedAt(s[i]) >= CreatedAt(s[j])
  }

  /** Prepending an item no older than the head keeps the order. */
  lemma SortedCons(y: Activity, t: seq<Activity>)
    requires SortedNewestFirst(t)
    requires |t| == 0 || CreatedAt(y) >= CreatedAt(t[0])
    ensures SortedNewestFirst([y] + t)
  {
    var r := [y] + t;
    forall i, j | 0 <= i < j < |r|
      ensures CreatedAt(r[i]) >= CreatedAt(r[j])
    {
      if i == 0 {
        assert CreatedAt(t[0]) >= CreatedAt(t[j - 1]);
      }
    }
  }

  /** Inserts `x` before the first strictly older item, so it stays ahead of
      items of equal date that follow it. */
  function Insert(x: Activity, s: seq<Activity>): (r: seq<Activity>)
    requires SortedNewestFirst(s)
    ensures |r| == |s| + 1
    ensures multiset(r) == multiset(s) + multiset{x}
    ensures r[0] == x || (|s| > 0 && r[0] == s[0])
    ensures SortedNewestFirst(r)
  {
    if |s| == 0 then [x]
    else if CreatedAt(x) >= CreatedAt(s[0]) then
      SortedCons(x, s);
      [x] + s
    else
      var t := Insert(x, s[1..]);
      assert s == [s[0]] + s[1..];
      assert CreatedAt(s[0]) >= CreatedAt(t[0]);
      SortedCons(s[0], t);
      [s[0]] + t
  }

  /** The newest-first sort of `Array.prototype.sort`: a sorted permutation.
      The order it gives items of equal date is not stated. */
  function SortNewestFirst(s: seq<Activity>): (r: seq<Activity>)
    ensures SortedNewestFirst(r)
    ensures multiset(r) == multiset(s)
    ensures |r| == |s|
  {
    if |s| == 0 then []
    else
      assert s == [s[0]] + s[1..];
      Insert(s[0], SortNewestFirst(s[1..]))
  }

  function Take<T>(s: seq<T>, n: nat): (r: seq<T>)
    ensures |r| == if |s| < n then |s| else n
    ensures r == s[..|r|]
  {
    if |s| < n then s else s[..n]
  }

  predicate FromFirstThree(a: Activity, disputes: seq<DisputeService.Dispute>,
                           complaints: seq<ComplaintService.Complaint>) {
    && (a.DisputeActivity? ==> a.dispute in Take(disputes, 3))
    && (a.ComplaintActivity? ==> a.complaint in Take(complaints, 3))
  }

  /** The items the panel chooses from. */
  function Candidates(disputes: seq<DisputeService.Dispute>, complaints: seq<ComplaintService.Complaint>)
    : (r: seq<Activity>)
    ensures |r| == |Take(disputes, 3)| + |Take(complaints, 3)|
    ensures forall a :: a in r ==> FromFirstThree(a, disputes, complaints)
  {
    var ds := Take(disputes, 3);
    var cs := Take(complaints, 3);
    seq(|ds|, i requires 0 <= i < |ds| => DisputeActivity(ds[i]))
    + seq(|cs|, i requires 0 <= i < |cs| => ComplaintActivity(cs[i]))
  }

  /** The recent-activity panel: the first three disputes and the first
      three complaints, newest first, at most five. */
  function RecentActivity(disputes: seq<DisputeService.Dispute>, complaints: seq<ComplaintService.Complaint>)
    : (r: seq<Activity>)
    ensures |r| <= 5
    ensures |r| == if |Candidates(disputes, complaints)| < 5 then |Candidates(disputes, complaints)| else 5
    ensures SortedNewestFirst(r)
    ensures forall a :: a in r ==> a in Candidates(disputes, complaints)
    ensures forall a :: a in r ==> FromFirstThree(a, disputes, complaints)
  {
    var c := Candidates(disputes, complaints);
    var sorted := SortNewestFirst(c);
    var r := Take(sorted, 5);
    forall a | a in r
      ensures a in c
    {
      assert a in multiset(sorted);
    }
    r
  }

  /** Nothing newer than the shown items is left out: every candidate not
      shown is no newer than the last one shown. */
  lemma RecentActivityKeepsNewest(disputes: seq<DisputeService.Dispute>, complaints: seq<ComplaintService.Complaint>)
    requires |Candidates(disputes, complaints)| > 5
    ensures var sorted := SortNewestFirst(Candidates(disputes, complaints));
      var r := RecentActivity(disputes, complaints);
      forall j :: 5 <= j < |sorted| ==> CreatedAt(sorted[j]) <= CreatedAt(r[4])
  {
  }
}

=== FILE: bins.dfy ===
/** Bin sensor service (binService): five mock bins keyed by id and a
    collection history of at most 50 entries, newest first. The random
    sensor jitter and the clock are parameters. */
module BinService {
  import opened Wrappers
  import Seqs
  import Text
  import Tally

  datatype SensorData = SensorData(temperature: int, humidity: int, gasLevel: string)

  datatype Bin = Bin(
    id: string,
    location: string,
    wasteType: string,
    weight: real,
    fillLevel: int,
    lastUpdated: int,
    sensorData: SensorData)

  /** The bins in key order; each bin is stored under its own id. */
  function MockBins(now: int): (bins: seq<Bin>)
    ensures |bins| == 5
  {
    [Bin("BIN001", "Main Street, Block A", "organic", 2.5, 75, now, SensorData(22, 65, "normal")),
     Bin("BIN002", "Park Avenue, Block B", "plastic", 1.8, 60, now, SensorData(25, 58, "low")),
     Bin("BIN003", "Shopping Center, Block C", "paper", 3.2, 90, now, SensorData(20, 70, "normal")),
     Bin("BIN004", "Residential Area, Block D", "glass", 4.1, 45, now, SensorData(18, 55, "low")),
     Bin("BIN005", "Industrial Zone, Block E", "metal", 2.8, 85, now, SensorData(24, 62, "high"))]
  }

  function IndexOf(bins: seq<Bin>, id: string): (r: Option<nat>)
    ensures r.Some? ==> r.value < |bins| && bins[r.value].id == id
    ensures r.None? <==> forall j :: 0 <= j < |bins| ==> bins[j].id != id
  {
    Seqs.FindIndex(bins, (b: Bin) => b.id == id)
  }

  function MaxReal(a: real, b: real): real { if a >= b then a else b }
  function MinInt(a: int, b: int): int { if a <= b then a else b }
  function MaxInt(a: int, b: int): int { if a >= b then a else b }

  /** A sensor reading of a stored bin: the weight moves by `variation`
      but not below 0.1, and the fill level moves by `fillDelta` (the
      already floored random step) clamped to [0, 100]. */
  function Reading(b: Bin, variation: real, fillDelta: int, now: int): (r: Bin)
    ensures r.id == b.id && r.location == b.location && r.wasteType == b.wasteType
      && r.sensorData == b.sensorData && r.lastUpdated == now
    ensures r.weight >= 0.1 && (b.weight + variation >= 0.1 ==> r.weight == b.weight + variation)
    ensures 0 <= r.fillLevel <= 100
    ensures 0 <= b.fillLevel + fillDelta <= 100 ==> r.fillLevel == b.fillLevel + fillDelta
  {
    b.(weight := MaxReal(0.1, b.weight + variation),
       fillLevel := MinInt(100, MaxInt(0, b.fillLevel + fillDelta)),
       lastUpdated := now)
  }

  /** `getBinData`: the QR code is upper-cased before the lookup. */
  function GetBinData(bins: seq<Bin>, qrCode: string, variation: real, fillDelta: int, now: int): (r: Result<Bin>)
    ensures r.Err? <==> IndexOf(bins, Text.Upper(qrCode)).None?
    ensures r.Err? ==> r.error == "Bin not found"
    ensures r.Ok? ==> r.value == Reading(bins[IndexOf(bins, Text.Upper(qrCode)).value], variation, fillDelta, now)
    ensures r.Ok? ==> r.value.id == Text.Upper(qrCode) && r.value.weight >= 0.1 && 0 <= r.value.fillLevel <= 100
  {
    match IndexOf(bins, Text.Upper(qrCode))
    case None => Err("Bin not found")
    case Some(i) => Ok(Reading(bins[i], variation, fillDelta, now))
  }

  /** The lookup ignores letter case: a code and its upper-cased form read
      the same bin. */
  lemma LookupIgnoresCase(bins: seq<Bin>, qrCode: string, variation: real, fillDelta: int, now: int)
    ensures GetBinData(bins, qrCode, variation, fillDelta, now) == GetBinData(bins, Text.Upper(qrCode), variation, fillDelta, now)
  {
    Text.UpperIdempotent(qrCode);
  }

  /** A collection entry as `handleCollection` builds it. */
  datatype Collection = Collection(
    id: string,
    binId: string,
    userId: string,
    wasteType: string,
    weight: real,
    coinsDeducted: int,
    timestamp: int,
    location: string)

  const HistoryCap: nat := 50

  /** `processCollection`: prepends and keeps the newest 50. */
  function ProcessCollection(history: seq<Collection>, c: Collection): (r: (seq<Collection>, Collection))
    ensures r.1 == c
    ensures |r.0| == if |history| < HistoryCap then |history| + 1 else HistoryCap
    ensures r.0[0] == c
    ensures forall i :: 1 <= i < |r.0| ==> r.0[i] == history[i - 1]
  {
    (Seqs.PrependCapped(history, c, HistoryCap), c)
  }

  /** `getCollectionHistory`. */
  function GetCollectionHistory(history: seq<Collection>, userId: string): (r: seq<Collection>)
    ensures forall i :: 0 <= i < |r| ==> r[i].userId == userId && r[i] in history
    ensures forall i :: 0 <= i < |history| ==> (history[i] in r <==> history[i].userId == userId)
  {
    Seqs.Filter(history, (c: Collection) => c.userId == userId)
  }

  /** Below the cap, a user's new collection heads that user's history
      and nothing of theirs is lost. */
  lemma {:induction false} NewCollectionHeadsHistory(history: seq<Collection>, c: Collection)
    requires |history| < HistoryCap
    ensures var h := ProcessCollection(history, c).0;
      GetCollectionHistory(h, c.userId) == [c] + GetCollectionHistory(history, c.userId)
  {
    var h := ProcessCollection(history, c).0;
    assert h == [c] + history;
    Seqs.FilterConcat([c], history, (x: Collection) => x.userId == c.userId);
  }

  /** Fields an admin update (`...updates`) may carry. */
  datatype BinPatch = BinPatch(
    location: Option<string>,
    wasteType: Option<string>,
    weight: Option<real>,
    fillLevel: Option<int>,
    sensorData: Option<SensorData>)

  /** `updateBinData`: exact id lookup; the patch is merged into that bin
      only and lastUpdated is stamped. */
  function UpdateBinData(bins: seq<Bin>, binId: string, patch: BinPatch, now: int): (r: Result<(seq<Bin>, Bin)>)
    ensures r.Err? <==> IndexOf(bins, binId).None?
    ensures r.Err? ==> r.error == "Bin not found"
    ensures r.Ok? ==> var i := IndexOf(bins, binId).value;
      && |r.value.0| == |bins|
      && r.value.0[i] == r.value.1
      && r.value.1.id == binId && r.value.1.lastUpdated == now
      && r.value.1.location == (if patch.location.Some? then patch.location.value else bins[i].location)
      && r.value.1.wasteType == (if patch.wasteType.Some? then patch.wasteType.value else bins[i].wasteType)
      && r.value.1.weight == (if patch.weight.Some? then patch.weight.value else bins[i].weight)
      && r.value.1.fillLevel == (if patch.fillLevel.Some? then patch.fillLevel.value else bins[i].fillLevel)
      && r.value.1.sensorData == (if patch.sensorData.Some? then patch.sensorData.value else bins[i].sensorData)
      && forall j :: 0 <= j < |bins| && j != i ==> r.value.0[j] == bins[j]
  {
    match IndexOf(bins, binId)
    case None => Err("Bin not found")
    case Some(i) =>
      var b := bins[i].(location := patch.location.GetOr(bins[i].location),
                        wasteType := patch.wasteType.GetOr(bins[i].wasteType),
                        weight := patch.weight.GetOr(bins[i].weight),
                        fillLevel := patch.fillLevel.GetOr(bins[i].fillLevel),
                        sensorData := patch.sensorData.GetOr(bins[i].sensorData),
                        lastUpdated := now);
      Ok((bins[i := b], b))
  }

  datatype BinStatistics = BinStatistics(
    totalBins: nat,
    fullBins: nat,
    wasteTypeDistribution: Tally.Counts<string>)

  function WasteTypes(bins: seq<Bin>): (r: seq<string>)
    ensures |r| == |bins| && forall i :: 0 <= i < |bins| ==> r[i] == bins[i].wasteType
  {
    seq(|bins|, i requires 0 <= i < |bins| => bins[i].wasteType)
  }

  function FullBins(bins: seq<Bin>): (r: seq<Bin>)
    ensures forall i :: 0 <= i < |r| ==> r[i].fillLevel >= 80
    ensures forall i :: 0 <= i < |bins| ==> (bins[i] in r <==> bins[i].fillLevel >= 80)
  {
    Seqs.Filter(bins, (b: Bin) => b.fillLevel >= 80)
  }

  /** `getBinStatistics` without the floating-point average and total. */
  function GetBinStatistics(bins: seq<Bin>): (s: BinStatistics)
    ensures s.totalBins == |bins|
    ensures s.fullBins <= s.totalBins
    ensures s.fullBins == |FullBins(bins)|
    ensures Tally.Distinct(s.wasteTypeDistribution)
    ensures forall k :: Tally.Lookup(s.wasteTypeDistribution, k) == multiset(WasteTypes(bins))[k]
  {
    BinStatistics(|bins|, |FullBins(bins)|, Tally.Tally(WasteTypes(bins)))
  }

  /** When every bin is at least 80% full, every bin counts as full. */
  lemma AllFull(bins: seq<Bin>)
    requires forall i :: 0 <= i < |bins| ==> bins[i].fillLevel >= 80
    ensures GetBinStatistics(bins).fullBins == |bins|
  {
    Seqs.FilterAll(bins, (b: Bin) => b.fillLevel >= 80);
  }

  /** Of the five mock bins, BIN003 (90) and BIN005 (85) are full. */
  lemma MockBinsHaveTwoFull(now: int)
    ensures GetBinStatistics(MockBins(now)).fullBins == 2
  {
    var bins := MockBins(now);
    var p := (b: Bin) => b.fillLevel >= 80;
    assert bins[5..] == [];
    Seqs.FilterStep(bins, 4, p);
    Seqs.FilterStep(bins, 3, p);
    Seqs.FilterStep(bins, 2, p);
    Seqs.FilterStep(bins, 1, p);
    Seqs.FilterStep(bins, 0, p);
    assert bins[0..] == bins;
  }
}

=== FILE: coin_packages.dfy ===
/** Coin catalogue and purchase ledger (coinPackageService). */
module CoinPackages {
  import opened Wrappers
  import Seqs
  import Tally

  datatype CoinPackage = CoinPackage(
    id: string,
    name: string,
    coins: nat,
    price: real,
    description: string,
    popular: bool)

  /** The fixed catalogue, smallest first. */
  const Catalogue: seq<CoinPackage> := [
    CoinPackage("starter", "Starter Pack", 50, 9.99, "Perfect for occasional waste collection", false),
    CoinPackage("standard", "Standard Pack", 120, 19.99, "Great value for regular users", true),
    CoinPackage("premium", "Premium Pack", 250, 34.99, "Best value for heavy users", false),
    CoinPackage("family", "Family Pack", 500, 59.99, "Ideal for large families", false),
    CoinPackage("business", "Business Pack", 1000, 99.99, "For small businesses and offices", false)
  ]

  /** `getPackageById`: the first catalogue entry with that id, or a
      rejection. */
  function GetPackageById(packageId: string): (r: Result<CoinPackage>)
    ensures r.Ok? ==> r.value in Catalogue && r.value.id == packageId
    ensures r.Err? <==> forall i :: 0 <= i < |Catalogue| ==> Catalogue[i].id != packageId
    ensures r.Err? ==> r.error == "Package not found"
  {
    match Seqs.FindIndex(Catalogue, (p: CoinPackage) => p.id == packageId)
    case Some(i) => Ok(Catalogue[i])
    case None => Err("Package not found")
  }

  /** Coins assumed per collection when estimating a monthly need. */
  const CoinsPerCollection: int := 3

  /** `reduce((best, cur) => cur.coins < best.coins ? cur : best)`: the first
      entry among those with the fewest coins. */
  function SmallestFirst(ps: seq<CoinPackage>): (r: CoinPackage)
    requires |ps| > 0
    ensures r in ps
    ensures forall i :: 0 <= i < |ps| ==> r.coins <= ps[i].coins
    ensures exists k :: 0 <= k < |ps| && ps[k] == r && forall j :: 0 <= j < k ==> ps[j].coins > r.coins
  {
    if |ps| == 1 then ps[0]
    else
      var best := SmallestFirst(ps[..|ps| - 1]);
      var cur := ps[|ps| - 1];
      if cur.coins < best.coins then cur else best
  }

  /** The recommendation rule over any non-empty list: the first of the
      fewest-coin packages that cover `need`, or the last package if none
      does. */
  function Recommend(ps: seq<CoinPackage>, need: int): (r: CoinPackage)
    requires |ps| > 0
    ensures r in ps
    ensures (exists i :: 0 <= i < |ps| && ps[i].coins >= need) ==>
      r.coins >= need && forall i :: 0 <= i < |ps| && ps[i].coins >= need ==> r.coins <= ps[i].coins
    ensures (forall i :: 0 <= i < |ps| ==> ps[i].coins < need) ==> r == ps[|ps| - 1]
  {
    var suitable := Seqs.Filter(ps, (p: CoinPackage) => p.coins >= need);
    if |suitable| == 0 then ps[|ps| - 1] else SmallestFirst(suitable)
  }

  /** `getRecommendedPackage`: the smallest package covering three coins per
      monthly collection, or the last (largest) package if none does. */
  function GetRecommendedPackage(monthlyCollections: int): (r: CoinPackage)
    ensures r in Catalogue
    ensures (exists i :: 0 <= i < |Catalogue| && Catalogue[i].coins >= CoinsPerCollection * monthlyCollections) ==>
      r.coins >= CoinsPerCollection * monthlyCollections
      && forall i :: 0 <= i < |Catalogue| && Catalogue[i].coins >= CoinsPerCollection * monthlyCollections ==>
           r.coins <= Catalogue[i].coins
    ensures (forall i :: 0 <= i < |Catalogue| ==> Catalogue[i].coins < CoinsPerCollection * monthlyCollections) ==>
      r == Catalogue[|Catalogue| - 1]
  {
    Recommend(Catalogue, monthlyCollections * CoinsPerCollection)
  }

  /** No two catalogue packages carry the same number of coins. */
  lemma CatalogueCoinsDistinct(i: nat, j: nat)
    requires i < |Catalogue| && j < |Catalogue|
    requires Catalogue[i].coins == Catalogue[j].coins
    ensures i == j
  {
  }

  /** A sufficient package with as few coins as the recommendation is the
      recommendation: the catalogue's coin counts are distinct, so the
      reduce never has a tie to break. */
  lemma RecommendationFirstAmongTies(monthlyCollections: int, i: nat)
    requires i < |Catalogue|
    requires Catalogue[i].coins >= CoinsPerCollection * monthlyCollections
    requires Catalogue[i].coins == GetRecommendedPackage(monthlyCollections).coins
    ensures GetRecommendedPackage(monthlyCollections) == Catalogue[i]
  {
    var r := GetRecommendedPackage(monthlyCollections);
    var j :| 0 <= j < |Catalogue| && Catalogue[j] == r;
    CatalogueCoinsDistinct(i, j);
  }

  /** The optional fields a caller's `transactionData` may carry. They are
      spread after `id`, `userId` and `packageId`, so they override those,
      and before `timestamp` and `status`, which override them. */
  datatype TransactionData = TransactionData(
    id: Option<string>,
    userId: Option<string>,
    packageId: Option<string>,
    amount: Option<real>,
    timestamp: Option<int>,
    status: Option<string>)

  datatype Purchase = Purchase(
    id: string,
    userId: string,
    packageId: string,
    amount: Option<real>,
    timestamp: int,
    status: string)

  /** Purchases kept in the ledger. */
  const HistoryCap: nat := 100

  /** `recordPurchase`: build the record, prepend it, keep the 100 newest.
      `purchaseId` is `Date.now().toString()` and `now` is `new Date()`. */
  function RecordPurchase(history: seq<Purchase>, userId: string, packageId: string,
                          data: TransactionData, purchaseId: string, now: int)
    : (r: (seq<Purchase>, Purchase))
    ensures r.1.status == "completed" && r.1.timestamp == now
    ensures r.1.id == data.id.GetOr(purchaseId)
    ensures r.1.userId == data.userId.GetOr(userId)
    ensures r.1.packageId == data.packageId.GetOr(packageId)
    ensures r.1.amount == data.amount
    ensures |r.0| == if |history| < HistoryCap then |history| + 1 else HistoryCap
    ensures r.0[0] == r.1
    ensures forall i :: 1 <= i < |r.0| ==> r.0[i] == history[i - 1]
  {
    var purchase := Purchase(
      data.id.GetOr(purchaseId),
      data.userId.GetOr(userId),
      data.packageId.GetOr(packageId),
      data.amount,
      now,
      "completed");
    (Seqs.PrependCapped(history, purchase, HistoryCap), purchase)
  }

  /** `getUserPurchaseHistory`. */
  function GetUserPurchaseHistory(history: seq<Purchase>, userId: string): (r: seq<Purchase>)
    ensures forall i :: 0 <= i < |r| ==> r[i].userId == userId && r[i] in history
    ensures forall i :: 0 <= i < |history| ==> (history[i] in r <==> history[i].userId == userId)
  {
    Seqs.Filter(history, (p: Purchase) => p.userId == userId)
  }

  /** The user's purchases keep their ledger order: a ledger split in two
      filters to the two filtered halves. */
  lemma UserHistoryOrder(a: seq<Purchase>, b: seq<Purchase>, userId: string)
    ensures GetUserPurchaseHistory(a + b, userId) == GetUserPurchaseHistory(a, userId) + GetUserPurchaseHistory(b, userId)
  {
    Seqs.FilterConcat(a, b, (p: Purchase) => p.userId == userId);
  }

  datatype PackageStatistics = PackageStatistics(
    totalPurchases: nat,
    popularPackages: Tally.Counts<string>,
    recentPurchases: seq<Purchase>)

  function PackageIds(history: seq<Purchase>): (ids: seq<string>)
    ensures |ids| == |history|
    ensures forall i :: 0 <= i < |history| ==> ids[i] == history[i].packageId
  {
    seq(|history|, i requires 0 <= i < |history| => history[i].packageId)
  }

  /** `getPackageStatistics`, counts only: the per-package breakdown counts
      every purchase of a package, and the ten newest are shown. */
  function GetPackageStatistics(history: seq<Purchase>): (s: PackageStatistics)
    ensures s.totalPurchases == |history|
    ensures forall id :: Tally.Lookup(s.popularPackages, id) == multiset(PackageIds(history))[id]
    ensures Tally.Distinct(s.popularPackages)
    ensures s.recentPurchases == history[..if |history| < 10 then |history| else 10]
  {
    PackageStatistics(|history|, Tally.Tally(PackageIds(history)),
      history[..if |history| < 10 then |history| else 10])
  }

  /** The per-package counts add up to `totalPurchases`. */
  lemma PackageCountsSumToTotal(history: seq<Purchase>)
    ensures Tally.Total(GetPackageStatistics(history).popularPackages) == GetPackageStatistics(history).totalPurchases
  {
    Tally.TallyTotal(PackageIds(history));
  }
}

=== FILE: coin_purchase_page.dfy ===
/** The coin purchase flow of the CoinPackages page: the selected catalogue
    package is paid for through the mock payment processor and, on
    success, its coins are credited to the user. */
module CoinPurchasePage {
  import opened Wrappers
  import Text
  import CoinPackages
  import Payment

  datatype Message = Message(kind: string, text: string)

  datatype PageState = PageState(
    selectedPackage: Option<CoinPackages.CoinPackage>,
    showPayment: bool,
    cardNumber: string,
    accountBalance: real,
    coinBalance: int,
    message: Message)

  /** The mock account balance the payment form starts with. */
  const InitialAccountBalance: real := 1000.0

  /** The request `handlePayment` sends for a package: its price and id. */
  function PaymentRequestFor(st: PageState, p: CoinPackages.CoinPackage): (req: Payment.PaymentRequest)
    ensures req.amount == p.price && req.packageId == p.id
    ensures req.cardNumber == st.cardNumber && req.accountBalance == st.accountBalance
  {
    Payment.PaymentRequest(p.price, st.accountBalance, st.cardNumber, p.id)
  }

  const ExceptionMessage := "Payment processing failed. You can file a dispute for refund."

  /** `handlePayment` given what `processPayment` settled with (None: it
      threw). Only a successful result credits coins. */
  function HandlePayment(st: PageState, result: Option<Payment.PaymentResult>): (r: PageState)
    ensures st.selectedPackage.None? ==> r == st
    ensures st.selectedPackage.Some? && result.Some? && result.value.success ==>
      && r.coinBalance == st.coinBalance + st.selectedPackage.value.coins
      && !r.showPayment && r.selectedPackage.None?
      && r.message.kind == "success"
    ensures st.selectedPackage.Some? && result.Some? && !result.value.success ==>
      r == st.(message := Message("error", if result.value.message == "" then "Payment failed" else result.value.message))
    ensures st.selectedPackage.Some? && result.None? ==>
      r == st.(message := Message("error", ExceptionMessage))
    ensures r.coinBalance != st.coinBalance ==> result.Some? && result.value.success
  {
    match st.selectedPackage
    case None => st
    case Some(p) =>
      match result
      case None => st.(message := Message("error", ExceptionMessage))
      case Some(res) =>
        if res.success then
          st.(coinBalance := st.coinBalance + p.coins,
              message := Message("success", "Successfully purchased " + Text.NatToString(p.coins) + " coins!"),
              showPayment := false,
              selectedPackage := None)
        else
          st.(message := Message("error", if res.message == "" then "Payment failed" else res.message))
  }

  /** Paying through the processor the page calls: the user is credited
      exactly when the card is valid, the balance covers the package's
      price, the account looked up under the card text AS TYPED is not
      blocked, and the gateway holds. */
  lemma CreditIffPaymentAccepted(st: PageState, pay: Payment.PaymentState, txId: string, now: int,
                                 gatewayFailure: bool)
    requires st.selectedPackage.Some?
    ensures var p := st.selectedPackage.value;
      var result := Payment.ProcessPaymentAsWritten(pay, PaymentRequestFor(st, p), txId, now, gatewayFailure).1;
      var key := st.cardNumber;
      var r := HandlePayment(st, Some(result));
      var accepted := && Payment.IsValidCardNumber(pay.accounts, st.cardNumber)
                      && st.accountBalance >= p.price
                      && !(key in pay.accounts && pay.accounts[key].status == "blocked")
                      && !gatewayFailure;
      && (r.selectedPackage.None? <==> accepted)
      && r.coinBalance == (if accepted then st.coinBalance + p.coins else st.coinBalance)
  {
  }

  /** The same flow through the corrected processor, which looks the
      account up under the card's digits. */
  lemma CreditIffCorrectedPaymentAccepted(st: PageState, pay: Payment.PaymentState, txId: string, now: int,
                                          gatewayFailure: bool)
    requires st.selectedPackage.Some?
    ensures var p := st.selectedPackage.value;
      var result := Payment.ProcessPayment(pay, PaymentRequestFor(st, p), txId, now, gatewayFailure).1;
      var key := Payment.DigitsOnly(st.cardNumber);
      var r := HandlePayment(st, Some(result));
      var accepted := && Payment.IsValidCardNumber(pay.accounts, st.cardNumber)
                      && st.accountBalance >= p.price
                      && !(key in pay.accounts && pay.accounts[key].status == "blocked")
                      && !gatewayFailure;
      && (r.selectedPackage.None? <==> accepted)
      && r.coinBalance == (if accepted then st.coinBalance + p.coins else st.coinBalance)
  {
  }

  /** As written, the page credits coins bought with the blocked mock
      account when its number is typed in four groups. */
  lemma BlockedGroupedCardCreditedAsWritten(st: PageState, pay: Payment.PaymentState, txId: string, now: int,
                                            a: string, b: string, c: string, d: string)
    requires st.selectedPackage.Some?
    requires Payment.IsDigitGroup(a) && Payment.IsDigitGroup(b) && Payment.IsDigitGroup(c) && Payment.IsDigitGroup(d)
    requires Payment.DigitKeys(pay.accounts)
    requires a + b + c + d in pay.accounts && pay.accounts[a + b + c + d].status == "blocked"
    requires st.cardNumber == Payment.Grouped(a, b, c, d)
    requires st.accountBalance >= st.selectedPackage.value.price
    ensures var p := st.selectedPackage.value;
      var result := Payment.ProcessPaymentAsWritten(pay, PaymentRequestFor(st, p), txId, now, false).1;
      HandlePayment(st, Some(result)).coinBalance == st.coinBalance + p.coins
  {
    var p := st.selectedPackage.value;
    Payment.BlockedAccountBypassAsWritten(pay, a, b, c, d, p.price, st.accountBalance, p.id, txId, now);
  }
}

=== FILE: collection_page.dfy ===
/** The QR scan and collection flow of the GarbageCollection page: a bin is
    read, priced with the coin calculator, and paid for out of the user's
    coin balance. */
module CollectionPage {
  import opened Wrappers
  import Text
  import Pricing
  import BinService

  datatype Message = Message(kind: string, text: string)

  datatype PageState = PageState(
    qrCode: string,
    binData: Option<BinService.Bin>,
    message: Message,
    coinBalance: int,
    collectionHistory: seq<BinService.Collection>,
    serviceHistory: seq<BinService.Collection>)

  /** `handleQrScan`: a blank code is refused before any lookup; the
      lookup itself receives the untrimmed code. */
  function HandleQrScan(st: PageState, bins: seq<BinService.Bin>, variation: real, fillDelta: int, now: int)
    : (r: PageState)
    ensures Text.IsBlank(st.qrCode) ==> r == st.(message := Message("error", "Please enter a QR code"))
    ensures !Text.IsBlank(st.qrCode) ==>
      var read := BinService.GetBinData(bins, st.qrCode, variation, fillDelta, now);
      && (read.Ok? ==> r.binData == Some(read.value) && r.message == Message("success", "Bin data loaded successfully"))
      && (read.Err? ==> r.binData.None? && r.message == Message("error", "Invalid QR code or bin not found"))
    ensures r.coinBalance == st.coinBalance && r.collectionHistory == st.collectionHistory
    ensures r.qrCode == st.qrCode
  {
    Text.TrimEmptyIffBlank(st.qrCode);
    if Text.Trim(st.qrCode) == "" then st.(message := Message("error", "Please enter a QR code"))
    else
      match BinService.GetBinData(bins, st.qrCode, variation, fillDelta, now)
      case Ok(b) => st.(binData := Some(b), message := Message("success", "Bin data loaded successfully"))
      case Err(_) => st.(binData := None, message := Message("error", "Invalid QR code or bin not found"))
  }

  function InsufficientMessage(required: int, available: int): string {
    "Insufficient coins. Required: " + Text.IntToString(required) + ", Available: " + Text.IntToString(available)
  }

  /** `handleCollection`. */
  function HandleCollection(st: PageState, userId: string, collectionId: string, now: int): (r: PageState)
    ensures st.binData.None? ==> r == st
    ensures st.binData.Some? ==>
      var b := st.binData.value;
      var required := Pricing.CalculateCoins(b.wasteType, b.weight);
      && (st.coinBalance < required ==>
            r == st.(message := Message("error", InsufficientMessage(required, st.coinBalance))))
      && (st.coinBalance >= required ==>
            && r.coinBalance == st.coinBalance - required
            && |r.collectionHistory| == |st.collectionHistory| + 1
            && r.collectionHistory[1..] == st.collectionHistory
            && r.collectionHistory[0].coinsDeducted == required
            && r.collectionHistory[0].binId == b.id && r.collectionHistory[0].userId == userId
            && r.collectionHistory[0].weight == b.weight && r.collectionHistory[0].wasteType == b.wasteType
            && r.serviceHistory == BinService.ProcessCollection(st.serviceHistory, r.collectionHistory[0]).0
            && r.qrCode == "" && r.binData.None?)
    ensures st.binData.Some? && st.binData.value.weight >= 0.0 ==> r.coinBalance <= st.coinBalance
    ensures r.coinBalance != st.coinBalance ==> r.coinBalance >= 0
  {
    match st.binData
    case None => st
    case Some(b) =>
      var required := Pricing.CalculateCoins(b.wasteType, b.weight);
      if st.coinBalance < required then
        st.(message := Message("error", InsufficientMessage(required, st.coinBalance)))
      else
        var c := BinService.Collection(collectionId, b.id, userId, b.wasteType, b.weight, required, now, b.location);
        st.(serviceHistory := BinService.ProcessCollection(st.serviceHistory, c).0,
            coinBalance := st.coinBalance - required,
            collectionHistory := [c] + st.collectionHistory,
            message := Message("success", "Collection successful! " + Text.IntToString(required) + " coins deducted."),
            qrCode := "",
            binData := None)
  }

  /** Scanning a known bin and collecting it with enough coins charges at
      least one coin (a reading weighs at least 0.1) and never more than
      the balance. */
  lemma ScannedCollectionCosts(st: PageState, bins: seq<BinService.Bin>, variation: real, fillDelta: int,
                               now: int, userId: string, collectionId: string)
    requires !Text.IsBlank(st.qrCode)
    requires BinService.GetBinData(bins, st.qrCode, variation, fillDelta, now).Ok?
    ensures var s1 := HandleQrScan(st, bins, variation, fillDelta, now);
      var s2 := HandleCollection(s1, userId, collectionId, now);
      && (s2.coinBalance != st.coinBalance ==> s2.coinBalance <= st.coinBalance - 1 && s2.coinBalance >= 0)
      && (s2.coinBalance == st.coinBalance ==> |s2.collectionHistory| == |st.collectionHistory|)
  {
    var s1 := HandleQrScan(st, bins, variation, fillDelta, now);
    var b := s1.binData.value;
    Pricing.PositiveWeightCosts(b.wasteType, b.weight);
  }
}

=== FILE: comments.dfy ===
/** The comment record appended by `addComplaintComment` and
    `addDisputeComment`. */
module Comments {
  datatype Comment = Comment(id: string, text: string, isAdmin: bool, timestamp: int)
}

=== FILE: complaints.dfy ===
/** Complaint service (complaintService), localStorage branch. Every HTTP
    call is taken to have failed, so `createComplaint`, `closeComplaint` and
    `updateComplaintStatus` are their fallback branches; the store is the
    list `this.complaints`, newest first. */
module ComplaintService {
  import opened Wrappers
  import opened Comments
  import Seqs
  import Text
  import Tally

  datatype Complaint = Complaint(
    id: string,
    title: string,
    description: string,
    category: string,
    priority: string,
    status: string,
    userId: string,
    userName: string,
    image: Option<string>,
    createdAt: int,
    updatedAt: int,
    preferredContact: string,
    adminResponse: Option<string>,
    resolvedAt: Option<int>,
    comments: seq<Comment>)

  // ---- Category and status tables ----

  /** Frontend category -> API category. */
  const CategoryToApi: map<string, string> := map[
    "collection" := "Service Delay",
    "payment" := "Payment Issue",
    "service" := "Service Quality",
    "technical" := "Technical Problem",
    "other" := "Other Issue"
  ]

  /** API category -> frontend category ('Other Issue' has no entry). */
  const CategoryFromApi: map<string, string> := map[
    "Service Delay" := "collection",
    "Payment Issue" := "payment",
    "Service Quality" := "service",
    "Technical Problem" := "technical"
  ]

  /** `mapCategoryToApi`: total, with 'Other Issue' as the default. */
  function MapCategoryToApi(frontendCategory: string): (r: string)
    ensures r in CategoryToApi.Values
    ensures frontendCategory !in CategoryToApi ==> r == "Other Issue"
  {
    if frontendCategory in CategoryToApi then CategoryToApi[frontendCategory]
    else assert CategoryToApi["other"] == "Other Issue"; "Other Issue"
  }

  /** `mapCategory`: total, with 'other' as the default. */
  function MapCategory(apiCategory: string): (r: string)
    ensures r in CategoryToApi.Keys
    ensures apiCategory !in CategoryFromApi ==> r == "other"
  {
    if apiCategory in CategoryFromApi then CategoryFromApi[apiCategory] else "other"
  }

  /** The two category tables are inverse to each other on the five
      frontend categories and on the five API categories. */
  lemma CategoryRoundTrip(frontendCategory: string, apiCategory: string)
    ensures frontendCategory in CategoryToApi ==> MapCategory(MapCategoryToApi(frontendCategory)) == frontendCategory
    ensures apiCategory in CategoryToApi.Values ==> MapCategoryToApi(MapCategory(apiCategory)) == apiCategory
  {
  }

  /** `mapStatus` and `mapStatusToApi` share one table: 'OPEN' and 'CLOSE'
      are kept and every other status becomes 'OPEN'. */
  function MapStatus(status: string): (r: string)
    ensures r == "OPEN" || r == "CLOSE"
    ensures r == status <==> status == "OPEN" || status == "CLOSE"
  {
    if status == "OPEN" || status == "CLOSE" then status else "OPEN"
  }

  function MapStatusToApi(status: string): (r: string)
    ensures r == "OPEN" || r == "CLOSE"
    ensures r == status <==> status == "OPEN" || status == "CLOSE"
  {
    if status == "OPEN" || status == "CLOSE" then status else "OPEN"
  }

  /** The admin's 'resolved' and 'in_progress' reach the API as 'OPEN';
      both mappings agree and are idempotent. */
  lemma StatusMappingCollapses(status: string)
    ensures MapStatusToApi("resolved") == "OPEN" && MapStatusToApi("in_progress") == "OPEN"
    ensures MapStatusToApi(status) == MapStatus(status)
    ensures MapStatus(MapStatus(status)) == MapStatus(status)
  {
  }

  // ---- Store operations ----

  /** `findIndex(c => c.id === id)`. */
  function IndexOf(store: seq<Complaint>, id: string): (r: Option<nat>)
    ensures r.Some? ==> r.value < |store| && store[r.value].id == id
    ensures r.Some? ==> forall j :: 0 <= j < r.value ==> store[j].id != id
    ensures r.None? <==> forall j :: 0 <= j < |store| ==> store[j].id != id
  {
    Seqs.FindIndex(store, (c: Complaint) => c.id == id)
  }

  /** Fallback `createComplaint`: the caller's record with a fresh id and
      timestamps and the status forced to 'OPEN', prepended. */
  function CreateComplaint(store: seq<Complaint>, draft: Complaint, id: string, now: int)
    : (r: (seq<Complaint>, Complaint))
    ensures r.1.status == "OPEN" && r.1.id == id && r.1.createdAt == now && r.1.updatedAt == now
    ensures r.1.description == draft.description && r.1.category == draft.category
      && r.1.userId == draft.userId && r.1.comments == draft.comments
    ensures r.1.title == draft.title && r.1.priority == draft.priority && r.1.userName == draft.userName
      && r.1.image == draft.image && r.1.preferredContact == draft.preferredContact
      && r.1.adminResponse == draft.adminResponse && r.1.resolvedAt == draft.resolvedAt
    ensures r.0 == [r.1] + store
  {
    var c := draft.(id := id, createdAt := now, updatedAt := now, status := "OPEN");
    ([c] + store, c)
  }

  /** Fallback `closeComplaint`. */
  function CloseComplaint(store: seq<Complaint>, id: string, now: int): (r: Result<(seq<Complaint>, Complaint)>)
    ensures r.Err? <==> IndexOf(store, id).None?
    ensures r.Err? ==> r.error == "Complaint not found"
    ensures r.Ok? ==> var i := IndexOf(store, id).value;
      && |r.value.0| == |store|
      && r.value.0[i] == r.value.1
      && r.value.1 == store[i].(status := "CLOSE", adminResponse := Some("Complaint has been closed"),
                                updatedAt := now, resolvedAt := Some(now))
      && forall j :: 0 <= j < |store| && j != i ==> r.value.0[j] == store[j]
  {
    match IndexOf(store, id)
    case None => Err("Complaint not found")
    case Some(i) =>
      var c := store[i].(status := "CLOSE", adminResponse := Some("Complaint has been closed"),
                         updatedAt := now, resolvedAt := Some(now));
      Ok((store[i := c], c))
  }

  /** `updateComplaintStatus`: 'CLOSE' is handed to `closeComplaint`; any
      other status is written with the admin's response, and resolvedAt is
      stamped exactly for 'resolved' and 'closed'. */
  function UpdateComplaintStatus(store: seq<Complaint>, id: string, status: string,
                                 adminResponse: string, now: int): (r: Result<(seq<Complaint>, Complaint)>)
    ensures status == "CLOSE" ==> r == CloseComplaint(store, id, now)
    ensures r.Err? <==> IndexOf(store, id).None?
    ensures r.Ok? ==> var i := IndexOf(store, id).value;
      && |r.value.0| == |store|
      && r.value.0[i] == r.value.1
      && (forall j :: 0 <= j < |store| && j != i ==> r.value.0[j] == store[j])
      && (status != "CLOSE" ==>
            && r.value.1.status == status
            && r.value.1.adminResponse == Some(adminResponse)
            && r.value.1.updatedAt == now
            && (r.value.1.resolvedAt.Some? <==> status == "resolved" || status == "closed")
            && r.value.1.resolvedAt == (if status == "resolved" || status == "closed" then Some(now) else None)
            && r.value.1 == store[i].(status := status, adminResponse := Some(adminResponse),
                                      updatedAt := now, resolvedAt := r.value.1.resolvedAt))
  {
    if status == "CLOSE" then CloseComplaint(store, id, now)
    else match IndexOf(store, id)
      case None => Err("Complaint not found")
      case Some(i) =>
        var c := store[i].(status := status, adminResponse := Some(adminResponse), updatedAt := now,
                           resolvedAt := if status == "resolved" || status == "closed" then Some(now) else None);
        Ok((store[i := c], c))
  }

  /** The fields a user's edit (`...updates`) may carry. */
  datatype ComplaintPatch = ComplaintPatch(
    title: Option<string>,
    description: Option<string>,
    category: Option<string>,
    priority: Option<string>,
    image: Option<Option<string>>,
    preferredContact: Option<string>)

  function ApplyPatch(c: Complaint, p: ComplaintPatch, now: int): Complaint {
    c.(title := p.title.GetOr(c.title),
       description := p.description.GetOr(c.description),
       category := p.category.GetOr(c.category),
       priority := p.priority.GetOr(c.priority),
       image := p.image.GetOr(c.image),
       preferredContact := p.preferredContact.GetOr(c.preferredContact),
       updatedAt := now)
  }

  /** A complaint may be edited or deleted only while it exists and is
      'pending'. */
  predicate Editable(store: seq<Complaint>, id: string) {
    IndexOf(store, id).Some? && store[IndexOf(store, id).value].status == "pending"
  }

  /** `updateComplaint`. */
  function UpdateComplaint(store: seq<Complaint>, id: string, patch: ComplaintPatch, now: int)
    : (r: Result<(seq<Complaint>, Complaint)>)
    ensures r.Err? <==> !Editable(store, id)
    ensures IndexOf(store, id).None? ==> r == Err("Complaint not found")
    ensures IndexOf(store, id).Some? && !Editable(store, id) ==>
      r == Err("Cannot update complaint that is already being processed")
    ensures r.Ok? ==> var i := IndexOf(store, id).value;
      && |r.value.0| == |store|
      && r.value.0[i] == r.value.1
      && r.value.1.id == id && r.value.1.status == "pending" && r.value.1.updatedAt == now
      && r.value.1.comments == store[i].comments
      && r.value.1.userId == store[i].userId && r.value.1.userName == store[i].userName
      && r.value.1.createdAt == store[i].createdAt
      && r.value.1.adminResponse == store[i].adminResponse && r.value.1.resolvedAt == store[i].resolvedAt
      && (patch.description.Some? ==> r.value.1.description == patch.description.value)
      && (patch.description.None? ==> r.value.1.description == store[i].description)
      && (patch.title.Some? ==> r.value.1.title == patch.title.value)
      && (patch.title.None? ==> r.value.1.title == store[i].title)
      && (patch.category.Some? ==> r.value.1.category == patch.category.value)
      && (patch.category.None? ==> r.value.1.category == store[i].category)
      && (patch.priority.Some? ==> r.value.1.priority == patch.priority.value)
      && (patch.priority.None? ==> r.value.1.priority == store[i].priority)
      && (patch.image.Some? ==> r.value.1.image == patch.image.value)
      && (patch.image.None? ==> r.value.1.image == store[i].image)
      && (patch.preferredContact.Some? ==> r.value.1.preferredContact == patch.preferredContact.value)
      && (patch.preferredContact.None? ==> r.value.1.preferredContact == store[i].preferredContact)
      && forall j :: 0 <= j < |store| && j != i ==> r.value.0[j] == store[j]
  {
    match IndexOf(store, id)
    case None => Err("Complaint not found")
    case Some(i) =>
      if store[i].status != "pending" then Err("Cannot update complaint that is already being processed")
      else
        var c := ApplyPatch(store[i], patch, now);
        Ok((store[i := c], c))
  }

  /** `deleteComplaint`: removes exactly the first complaint with that id,
      keeping the order of the rest. */
  function DeleteComplaint(store: seq<Complaint>, id: string): (r: Result<(seq<Complaint>, Complaint)>)
    ensures r.Err? <==> !Editable(store, id)
    ensures IndexOf(store, id).None? ==> r == Err("Complaint not found")
    ensures IndexOf(store, id).Some? && !Editable(store, id) ==>
      r == Err("Cannot delete complaint that is already being processed")
    ensures r.Ok? ==> var i := IndexOf(store, id).value;
      && r.value.1 == store[i]
      && r.value.0 == store[..i] + store[i + 1..]
      && |r.value.0| == |store| - 1
  {
    match IndexOf(store, id)
    case None => Err("Complaint not found")
    case Some(i) =>
      if store[i].status != "pending" then Err("Cannot delete complaint that is already being processed")
      else Ok((Seqs.RemoveAt(store, i), store[i]))
  }

  /** A complaint created by the fallback is 'OPEN', never 'pending', so
      right after it is created it can be neither edited nor deleted. */
  lemma CreatedComplaintIsFrozen(store: seq<Complaint>, draft: Complaint, id: string, now: int,
                                 patch: ComplaintPatch, later: int)
    ensures var s := CreateComplaint(store, draft, id, now).0;
      && UpdateComplaint(s, id, patch, later) == Err("Cannot update complaint that is already being processed")
      && DeleteComplaint(s, id) == Err("Cannot delete complaint that is already being processed")
  {
    var s := CreateComplaint(store, draft, id, now).0;
    assert IndexOf(s, id) == Some(0);
  }

  /** A status update decides editability: afterwards the complaint can be
      edited or deleted exactly when the new status is 'pending'. So the
      admin's 'in_progress', 'resolved' and 'CLOSE' keep a created
      complaint frozen, while an update to 'pending' thaws it. */
  lemma StatusUpdateDecidesEditable(store: seq<Complaint>, id: string, status: string,
                                    adminResponse: string, now: int)
    requires IndexOf(store, id).Some?
    ensures var s := UpdateComplaintStatus(store, id, status, adminResponse, now).value.0;
      Editable(s, id) <==> status == "pending"
  {
    var i := IndexOf(store, id).value;
    var s := UpdateComplaintStatus(store, id, status, adminResponse, now).value.0;
    assert s[i].id == id;
    assert forall j :: 0 <= j < i ==> s[j].id != id;
    assert IndexOf(s, id) == Some(i);
  }

  /** `addComplaintComment`: one comment appended to the first complaint
      with that id, whose updatedAt is refreshed. */
  function AddComplaintComment(store: seq<Complaint>, id: string, text: string, isAdmin: bool,
                               commentId: string, now: int): (r: Result<(seq<Complaint>, Comment)>)
    ensures r.Err? <==> IndexOf(store, id).None?
    ensures r.Err? ==> r.error == "Complaint not found"
    ensures r.Ok? ==> var i := IndexOf(store, id).value;
      && r.value.1 == Comment(commentId, text, isAdmin, now)
      && |r.value.0| == |store|
      && r.value.0[i].comments == store[i].comments + [r.value.1]
      && r.value.0[i] == store[i].(comments := r.value.0[i].comments, updatedAt := now)
      && forall j :: 0 <= j < |store| && j != i ==> r.value.0[j] == store[j]
  {
    match IndexOf(store, id)
    case None => Err("Complaint not found")
    case Some(i) =>
      var comment := Comment(commentId, text, isAdmin, now);
      Ok((store[i := store[i].(comments := store[i].comments + [comment], updatedAt := now)], comment))
  }

  // ---- Filters ----

  /** `getUserComplaints`. */
  function GetUserComplaints(store: seq<Complaint>, userId: string): (r: seq<Complaint>)
    ensures forall i :: 0 <= i < |r| ==> r[i].userId == userId && r[i] in store
    ensures forall i :: 0 <= i < |store| ==> (store[i] in r <==> store[i].userId == userId)
  {
    Seqs.Filter(store, (c: Complaint) => c.userId == userId)
  }

  /** `getComplaintsByStatus`. */
  function GetComplaintsByStatus(store: seq<Complaint>, status: string): (r: seq<Complaint>)
    ensures forall i :: 0 <= i < |r| ==> r[i].status == status && r[i] in store
    ensures forall i :: 0 <= i < |store| ==> (store[i] in r <==> store[i].status == status)
  {
    Seqs.Filter(store, (c: Complaint) => c.status == status)
  }

  /** `getComplaintsByCategory`. */
  function GetComplaintsByCategory(store: seq<Complaint>, category: string): (r: seq<Complaint>)
    ensures forall i :: 0 <= i < |r| ==> r[i].category == category && r[i] in store
    ensures forall i :: 0 <= i < |store| ==> (store[i] in r <==> store[i].category == category)
  {
    Seqs.Filter(store, (c: Complaint) => c.category == category)
  }

  /** `getHighPriorityComplaints`: high priority and not yet resolved. */
  function GetHighPriorityComplaints(store: seq<Complaint>): (r: seq<Complaint>)
    ensures forall i :: 0 <= i < |r| ==> r[i].priority == "high" && r[i].status != "resolved"
    ensures forall i :: 0 <= i < |store| ==>
      (store[i] in r <==> store[i].priority == "high" && store[i].status != "resolved")
  {
    Seqs.Filter(store, (c: Complaint) => c.priority == "high" && c.status != "resolved")
  }

  predicate MatchesQuery(c: Complaint, query: string) {
    var q := Text.Lower(query);
    Text.Contains(Text.Lower(c.title), q) || Text.Contains(Text.Lower(c.description), q)
    || Text.Contains(Text.Lower(c.category), q) || Text.Contains(Text.Lower(c.userName), q)
  }

  /** `searchComplaints`: case-insensitive substring match on title,
      description, category or user name. */
  function SearchComplaints(store: seq<Complaint>, query: string): (r: seq<Complaint>)
    ensures forall i :: 0 <= i < |r| ==> MatchesQuery(r[i], query)
    ensures forall i :: 0 <= i < |store| ==> (store[i] in r <==> MatchesQuery(store[i], query))
  {
    Seqs.Filter(store, (c: Complaint) => MatchesQuery(c, query))
  }

  /** The empty query matches every complaint. */
  lemma EmptySearchKeepsAll(store: seq<Complaint>)
    ensures SearchComplaints(store, "") == store
  {
    forall c: Complaint
      ensures MatchesQuery(c, "")
    {
      Text.ContainsEmpty(Text.Lower(c.title));
    }
    Seqs.FilterAll(store, (c: Complaint) => MatchesQuery(c, ""));
  }

  // ---- Statistics ----

  datatype ComplaintStatistics = ComplaintStatistics(
    totalComplaints: nat,
    pendingComplaints: nat,
    inProgressComplaints: nat,
    resolvedComplaints: nat,
    rejectedComplaints: nat,
    complaintsByCategory: Tally.Counts<string>,
    complaintsByPriority: Tally.Counts<string>,
    recentComplaints: seq<Complaint>)

  function Categories(store: seq<Complaint>): (r: seq<string>)
    ensures |r| == |store| && forall i :: 0 <= i < |store| ==> r[i] == store[i].category
  {
    seq(|store|, i requires 0 <= i < |store| => store[i].category)
  }

  function Priorities(store: seq<Complaint>): (r: seq<string>)
    ensures |r| == |store| && forall i :: 0 <= i < |store| ==> r[i] == store[i].priority
  {
    seq(|store|, i requires 0 <= i < |store| => store[i].priority)
  }

  function CountStatus(store: seq<Complaint>, status: string): nat {
    |GetComplaintsByStatus(store, status)|
  }

  /** `getComplaintStatistics`, counts only. */
  function GetComplaintStatistics(store: seq<Complaint>): (s: ComplaintStatistics)
    ensures s.totalComplaints == |store|
    ensures s.pendingComplaints == |GetComplaintsByStatus(store, "pending")|
    ensures s.inProgressComplaints == |GetComplaintsByStatus(store, "in_progress")|
    ensures s.resolvedComplaints == |GetComplaintsByStatus(store, "resolved")|
    ensures s.rejectedComplaints == |GetComplaintsByStatus(store, "rejected")|
    ensures s.pendingComplaints + s.inProgressComplaints + s.resolvedComplaints + s.rejectedComplaints <= s.totalComplaints
    ensures Tally.Distinct(s.complaintsByCategory) && Tally.Distinct(s.complaintsByPriority)
    ensures forall k :: Tally.Lookup(s.complaintsByCategory, k) == multiset(Categories(store))[k]
    ensures forall k :: Tally.Lookup(s.complaintsByPriority, k) == multiset(Priorities(store))[k]
    ensures s.recentComplaints == store[..if |store| < 10 then |store| else 10]
  {
    Seqs.FilterDisjoint4(store,
      (c: Complaint) => c.status == "pending", (c: Complaint) => c.status == "in_progress",
      (c: Complaint) => c.status == "resolved", (c: Complaint) => c.status == "rejected");
    ComplaintStatistics(|store|,
      CountStatus(store, "pending"), CountStatus(store, "in_progress"),
      CountStatus(store, "resolved"), CountStatus(store, "rejected"),
      Tally.Tally(Categories(store)), Tally.Tally(Priorities(store)),
      store[..if |store| < 10 then |store| else 10])
  }

  /** The category and priority breakdowns each count every complaint once. */
  lemma BreakdownsSumToTotal(store: seq<Complaint>)
    ensures Tally.Total(GetComplaintStatistics(store).complaintsByCategory) == |store|
    ensures Tally.Total(GetComplaintStatistics(store).complaintsByPriority) == |store|
  {
    Tally.TallyTotal(Categories(store));
    Tally.TallyTotal(Priorities(store));
  }

  /** Creating a complaint never changes the number of 'pending' ones. */
  lemma CreateKeepsPendingCount(store: seq<Complaint>, draft: Complaint, id: string, now: int)
    ensures CountStatus(CreateComplaint(store, draft, id, now).0, "pending") == CountStatus(store, "pending")
  {
    var c := CreateComplaint(store, draft, id, now).1;
    Seqs.FilterConcat([c], store, (x: Complaint) => x.status == "pending");
  }
}

=== FILE: complaints_page.dfy ===
/** The complaint form and ticket list of the Complaints page. The network
    outcome, the year and the date string are parameters. */
module ComplaintsPage {
  import opened Wrappers
  import Seqs
  import Text

  /** The three category buttons; the form's selection is one of them or
      nothing. */
  datatype CategoryId = MissedPickup | DamagedBin | OtherCategory

  function CategoryName(c: CategoryId, customCategory: string): string {
    match c
    case MissedPickup => "Missed Pickup"
    case DamagedBin => "Damaged Bin"
    case OtherCategory => customCategory
  }

  const MaxDescriptionLength: nat := 500
  const MaxFileSize: nat := 5 * 1024 * 1024
  const AllowedFileTypes: seq<string> := ["image/jpeg", "image/jpg", "image/png", "image/webp"]

  datatype Photo = Photo(mimeType: string, size: nat)

  /** A ticket of the page's list. */
  datatype Ticket = Ticket(
    id: string,
    category: string,
    description: string,
    status: string,
    createdAt: string,
    sla: string,
    hasPhoto: bool,
    syncStatus: string,
    linkedTo: Option<string>)

  datatype Form = Form(
    selectedCategory: Option<CategoryId>,
    customCategory: string,
    description: string,
    attachedPhoto: Option<Photo>,
    validationError: string,
    duplicateTicket: Option<Ticket>)

  const EmptyForm := Form(None, "", "", None, "", None)

  /** `handleCategorySelect`: any choice but 'other' clears the custom
      category. */
  function SelectCategory(form: Form, c: CategoryId): (r: Form)
    ensures r.selectedCategory == Some(c) && r.validationError == ""
    ensures r.customCategory == if c == OtherCategory then form.customCategory else ""
    ensures r.description == form.description && r.attachedPhoto == form.attachedPhoto
  {
    form.(selectedCategory := Some(c), validationError := "",
          customCategory := if c != OtherCategory then "" else form.customCategory)
  }

  /** `handlePhotoUpload`: no file changes nothing; the type is checked
      before the size. */
  function UploadPhoto(form: Form, file: Option<Photo>): (r: Form)
    ensures file.None? ==> r == form
    ensures file.Some? && file.value.mimeType !in AllowedFileTypes ==>
      r == form.(validationError := "Invalid file type. Please upload a JPEG, PNG, or WebP image.")
    ensures file.Some? && file.value.mimeType in AllowedFileTypes && file.value.size > MaxFileSize ==>
      r == form.(validationError := "File size too large. Maximum size is 5MB.")
    ensures file.Some? && file.value.mimeType in AllowedFileTypes && file.value.size <= MaxFileSize ==>
      r == form.(attachedPhoto := file, validationError := "")
    ensures r.attachedPhoto != form.attachedPhoto ==>
      file.Some? && file.value.mimeType in AllowedFileTypes && file.value.size <= MaxFileSize
  {
    match file
    case None => form
    case Some(f) =>
      if f.mimeType !in AllowedFileTypes then
        form.(validationError := "Invalid file type. Please upload a JPEG, PNG, or WebP image.")
      else if f.size > MaxFileSize then
        form.(validationError := "File size too large. Maximum size is 5MB.")
      else form.(attachedPhoto := file, validationError := "")
  }

  /** `validateForm`: the first failing check's message, or None. */
  function ValidateForm(form: Form): (error: Option<string>)
    ensures form.selectedCategory.None? ==> error == Some("Please select a complaint category.")
    ensures form.selectedCategory == Some(OtherCategory) && Text.IsBlank(form.customCategory) ==>
      error == Some("Please specify the category for your complaint.")
    ensures (form.selectedCategory.Some? && !(form.selectedCategory == Some(OtherCategory) && Text.IsBlank(form.customCategory))
             && Text.IsBlank(form.description)) ==>
      error == Some("Please provide a description of your complaint.")
    ensures error.None? <==>
      && form.selectedCategory.Some?
      && !(form.selectedCategory == Some(OtherCategory) && Text.IsBlank(form.customCategory))
      && !Text.IsBlank(form.description)
      && |form.description| <= MaxDescriptionLength
    ensures error == Some("Description is too long. Maximum 500 characters allowed.") <==>
      && form.selectedCategory.Some?
      && !(form.selectedCategory == Some(OtherCategory) && Text.IsBlank(form.customCategory))
      && !Text.IsBlank(form.description)
      && |form.description| > MaxDescriptionLength
  {
    Text.TrimEmptyIffBlank(form.customCategory);
    Text.TrimEmptyIffBlank(form.description);
    if form.selectedCategory.None? then Some("Please select a complaint category.")
    else if form.selectedCategory == Some(OtherCategory) && Text.Trim(form.customCategory) == "" then
      Some("Please specify the category for your complaint.")
    else if Text.Trim(form.description) == "" then Some("Please provide a description of your complaint.")
    else if |form.description| > MaxDescriptionLength then
      Some("Description is too long. Maximum 500 characters allowed.")
    else None
  }

  /** The duplicate test of `checkForDuplicates` for one existing ticket. */
  predicate IsDuplicateOf(t: Ticket, categoryName: string, description: string) {
    && t.category == categoryName
    && (t.status == "Open" || t.status == "In Progress")
    && Text.Contains(Text.Lower(t.description), Text.FirstWord(Text.Lower(description)))
  }

  /** `tickets[i]` is `t`, and no earlier ticket is a duplicate. */
  predicate FirstDuplicateAt(tickets: seq<Ticket>, i: int, t: Ticket, categoryName: string, description: string) {
    && 0 <= i < |tickets| && tickets[i] == t
    && forall j :: 0 <= j < i ==> !IsDuplicateOf(tickets[j], categoryName, description)
  }

  /** `checkForDuplicates`: the first open ticket that matches. */
  function CheckForDuplicates(tickets: seq<Ticket>, form: Form): (r: Option<Ticket>)
    requires form.selectedCategory.Some?
    ensures r.Some? ==> r.value in tickets
    ensures r.Some? ==> IsDuplicateOf(r.value, CategoryName(form.selectedCategory.value, form.customCategory), form.description)
    ensures r.Some? ==> exists i :: FirstDuplicateAt(tickets, i, r.value, CategoryName(form.selectedCategory.value, form.customCategory), form.description)
    ensures r.None? <==> forall i :: 0 <= i < |tickets| ==>
      !IsDuplicateOf(tickets[i], CategoryName(form.selectedCategory.value, form.customCategory), form.description)
  {
    var name := CategoryName(form.selectedCategory.value, form.customCategory);
    match Seqs.FindIndex(tickets, (t: Ticket) => IsDuplicateOf(t, name, form.description))
    case None => None
    case Some(i) =>
      assert FirstDuplicateAt(tickets, i, tickets[i], name, form.description);
      Some(tickets[i])
  }

  /** A description that starts with a space has an empty first word, which
      every description contains: then any open ticket of the same category
      is reported as a duplicate. */
  lemma LeadingSpaceMatchesAnyOpenTicket(t: Ticket, categoryName: string, description: string)
    requires |description| > 0 && description[0] == ' '
    requires t.category == categoryName && (t.status == "Open" || t.status == "In Progress")
    ensures IsDuplicateOf(t, categoryName, description)
  {
    assert Text.FirstWord(Text.Lower(description)) == "";
    Text.ContainsEmpty(Text.Lower(t.description));
  }

  const TicketPrefix := "TKT-"

  /** `TKT-${year}-${String(count + 1).padStart(3, "0")}`. */
  function TicketId(year: nat, count: nat): (r: string)
    ensures |r| >= |TicketPrefix| + |Text.NatToString(year)| + 1 + 3
    ensures r[..|TicketPrefix|] == TicketPrefix
  {
    TicketPrefix + Text.NatToString(year) + "-" + Text.PadStart(Text.NatToString(count + 1), 3, '0')
  }

  /** The serial part of a ticket id: at least three digits denoting the
      new ticket's number. */
  lemma SerialReadsBack(count: nat)
    ensures var serial := Text.PadStart(Text.NatToString(count + 1), 3, '0');
      |serial| >= 3 && Text.AllDigits(serial) && Text.DigitsValue(serial) == count + 1
  {
    Text.NatToStringValue(count + 1);
    Text.ZeroPadValue(Text.NatToString(count + 1), 3);
  }

  /** The ticket id reads back: after "TKT-", the year and a dash come at
      least three digits whose value is the new ticket's number. */
  lemma {:induction false} TicketIdReadsBack(year: nat, count: nat)
    ensures var r := TicketId(year, count);
      var y := Text.NatToString(year);
      var serial := r[|TicketPrefix| + |y| + 1..];
      && r[|TicketPrefix|..|TicketPrefix| + |y|] == y && Text.DigitsValue(y) == year
      && r[|TicketPrefix| + |y|] == '-'
      && |serial| >= 3 && Text.AllDigits(serial) && Text.DigitsValue(serial) == count + 1
  {
    var y := Text.NatToString(year);
    var serial := Text.PadStart(Text.NatToString(count + 1), 3, '0');
    DashedReadsBack(TicketPrefix, y, serial);
    Text.NatToStringValue(year);
    SerialReadsBack(count);
  }

  /** `p + y + "-" + serial` splits back into its parts. */
  lemma DashedReadsBack(p: string, y: string, serial: string)
    ensures var r := p + y + "-" + serial;
      && r[|p|..|p| + |y|] == y
      && r[|p| + |y|] == '-'
      && r[|p| + |y| + 1..] == serial
  {
    var head := p + y + "-";
    var r := head + serial;
    assert r[|head|..] == serial;
    assert r[|p|..|p| + |y|] == head[|p|..|p| + |y|] == y;
    assert r[|p| + |y|] == head[|p| + |y|] == '-';
  }

  /** Different list lengths give different ticket ids for the same year. */
  lemma TicketIdsDistinct(year: nat, count1: nat, count2: nat)
    requires count1 != count2
    ensures TicketId(year, count1) != TicketId(year, count2)
  {
    TicketIdReadsBack(year, count1);
    TicketIdReadsBack(year, count2);
  }

  /** The SLA chosen on a successful submit. */
  function Sla(c: CategoryId): (r: string)
    ensures r == "48 hours" <==> c == MissedPickup
    ensures r == "48 hours" || r == "72 hours"
  {
    if c == MissedPickup then "48 hours" else "72 hours"
  }

  /** `submitComplaint`. The synced record is built only when the network
      call succeeds and, when linking, a duplicate is at hand (reading the
      id of a missing duplicate throws into the catch block); every other
      case queues the pending record. */
  function SubmitComplaint(tickets: seq<Ticket>, form: Form, linkToDuplicate: bool, networkOk: bool,
                           year: nat, today: string): (r: (seq<Ticket>, Ticket))
    requires ValidateForm(form).None?
    ensures r.0 == [r.1] + tickets
    ensures r.1.id == TicketId(year, |tickets|)
    ensures r.1.category == CategoryName(form.selectedCategory.value, form.customCategory)
    ensures r.1.description == form.description && r.1.hasPhoto == form.attachedPhoto.Some?
    ensures r.1.syncStatus == "Synced" <==> networkOk && (linkToDuplicate ==> form.duplicateTicket.Some?)
    ensures r.1.syncStatus == "Synced" ==>
      && r.1.sla == Sla(form.selectedCategory.value)
      && (r.1.status == "Linked" <==> linkToDuplicate)
      && (r.1.linkedTo.Some? <==> linkToDuplicate)
      && (linkToDuplicate ==> r.1.linkedTo == Some(form.duplicateTicket.value.id))
    ensures r.1.syncStatus != "Synced" ==>
      r.1.syncStatus == "Pending Sync" && r.1.status == "Open" && r.1.sla == "72 hours" && r.1.linkedTo.None?
  {
    var id := TicketId(year, |tickets|);
    var c := form.selectedCategory.value;
    var name := CategoryName(c, form.customCategory);
    var hasPhoto := form.attachedPhoto.Some?;
    var t :=
      if networkOk && (linkToDuplicate ==> form.duplicateTicket.Some?) then
        Ticket(id, name, form.description, if linkToDuplicate then "Linked" else "Open", today, Sla(c),
               hasPhoto, "Synced", if linkToDuplicate then Some(form.duplicateTicket.value.id) else None)
      else
        Ticket(id, name, form.description, "Open", today, "72 hours", hasPhoto, "Pending Sync", None);
    ([t] + tickets, t)
  }

  datatype SubmitOutcome =
    | Invalid(message: string)
    | DuplicateFound(duplicate: Ticket)
    | Submitted(tickets: seq<Ticket>, ticket: Ticket)

  /** `handleSubmit`: validation, then the duplicate check, then an
      unlinked submit. */
  function HandleSubmit(tickets: seq<Ticket>, form: Form, networkOk: bool, year: nat, today: string)
    : (r: SubmitOutcome)
    ensures r.Invalid? <==> ValidateForm(form).Some?
    ensures r.Invalid? ==> Some(r.message) == ValidateForm(form)
    ensures r.DuplicateFound? <==> ValidateForm(form).None? && CheckForDuplicates(tickets, form).Some?
    ensures r.DuplicateFound? ==> CheckForDuplicates(tickets, form) == Some(r.duplicate)
    ensures r.DuplicateFound? ==> r.duplicate in tickets && r.duplicate.status != "Linked"
    ensures r.Submitted? <==> ValidateForm(form).None? && CheckForDuplicates(tickets, form).None?
    ensures r.Submitted? ==> |r.tickets| == |tickets| + 1 && r.tickets[1..] == tickets
    ensures r.Submitted? ==> r.ticket.linkedTo.None? && r.ticket.status == "Open"
  {
    match ValidateForm(form)
    case Some(message) => Invalid(message)
    case None =>
      match CheckForDuplicates(tickets, form)
      case Some(d) => DuplicateFound(d)
      case None =>
        var (ts, t) := SubmitComplaint(tickets, form, false, networkOk, year, today);
        Submitted(ts, t)
  }

  /** `resetForm`. */
  function ResetForm(form: Form): (r: Form)
    ensures r.selectedCategory.None? && r.customCategory == "" && r.description == ""
    ensures r.attachedPhoto.None? && r.validationError == "" && r.duplicateTicket.None?
    ensures ValidateForm(r) == Some("Please select a complaint category.")
  {
    EmptyForm
  }

  predicate MatchesQuery(t: Ticket, query: string) {
    var q := Text.Lower(query);
    Text.Contains(Text.Lower(t.id), q) || Text.Contains(Text.Lower(t.category), q)
    || Text.Contains(Text.Lower(t.description), q)
  }

  /** `filteredComplaints`: case-insensitive search on id, category or
      description, in list order. */
  function FilteredComplaints(tickets: seq<Ticket>, query: string): (r: seq<Ticket>)
    ensures forall i :: 0 <= i < |r| ==> MatchesQuery(r[i], query) && r[i] in tickets
    ensures forall i :: 0 <= i < |tickets| ==> (tickets[i] in r <==> MatchesQuery(tickets[i], query))
  {
    Seqs.Filter(tickets, (t: Ticket) => MatchesQuery(t, query))
  }

  /** The empty search keeps every ticket, and the search ignores the
      letter case of the query. */
  lemma SearchProperties(tickets: seq<Ticket>, query: string)
    ensures FilteredComplaints(tickets, "") == tickets
    ensures FilteredComplaints(tickets, Text.Upper(query)) == FilteredComplaints(tickets, Text.Lower(query))
  {
    forall t: Ticket
      ensures MatchesQuery(t, "")
    {
      Text.ContainsEmpty(Text.Lower(t.id));
    }
    Seqs.FilterAll(tickets, (t: Ticket) => MatchesQuery(t, ""));
    Text.LowerOfUpper(query);
    Text.LowerIdempotent(query);
    Seqs.FilterSame(tickets, (t: Ticket) => MatchesQuery(t, Text.Upper(query)),
                    (t: Ticket) => MatchesQuery(t, Text.Lower(query)));
  }
}

=== FILE: disputes.dfy ===
/** Payment-dispute service (disputeService): a list of disputes kept
    newest first. */
module DisputeService {
  import opened Wrappers
  import opened Comments
  import Seqs
  import Text
  import Tally

  /** A dispute; `amount` is the value `parseFloat` reads from the stored
      amount. */
  datatype Dispute = Dispute(
    id: string,
    userId: string,
    transactionId: string,
    amount: real,
    reason: string,
    description: string,
    status: string,
    adminResponse: Option<string>,
    createdAt: int,
    updatedAt: int,
    resolvedAt: Option<int>,
    comments: seq<Comment>)

  /** `createDispute`: the caller's record with the id, both timestamps and
      the status 'pending' forced, prepended. */
  function CreateDispute(store: seq<Dispute>, draft: Dispute, id: string, now: int): (r: (seq<Dispute>, Dispute))
    ensures r.1.status == "pending" && r.1.id == id && r.1.createdAt == now && r.1.updatedAt == now
    ensures r.1.userId == draft.userId && r.1.amount == draft.amount && r.1.reason == draft.reason
      && r.1.transactionId == draft.transactionId && r.1.description == draft.description
    ensures r.1.adminResponse == draft.adminResponse && r.1.resolvedAt == draft.resolvedAt
      && r.1.comments == draft.comments
    ensures r.0 == [r.1] + store
  {
    var d := draft.(id := id, createdAt := now, updatedAt := now, status := "pending");
    ([d] + store, d)
  }

  function IndexOf(store: seq<Dispute>, id: string): (r: Option<nat>)
    ensures r.Some? ==> r.value < |store| && store[r.value].id == id
    ensures r.Some? ==> forall j :: 0 <= j < r.value ==> store[j].id != id
    ensures r.None? <==> forall j :: 0 <= j < |store| ==> store[j].id != id
  {
    Seqs.FindIndex(store, (d: Dispute) => d.id == id)
  }

  /** `updateDisputeStatus`: only the first dispute with that id changes;
      resolvedAt is set exactly when the new status is not 'pending'. */
  function UpdateDisputeStatus(store: seq<Dispute>, id: string, status: string, adminResponse: string, now: int)
    : (r: Result<(seq<Dispute>, Dispute)>)
    ensures r.Err? <==> IndexOf(store, id).None?
    ensures r.Err? ==> r.error == "Dispute not found"
    ensures r.Ok? ==> var i := IndexOf(store, id).value;
      && |r.value.0| == |store|
      && r.value.0[i] == r.value.1
      && r.value.1.status == status && r.value.1.adminResponse == Some(adminResponse)
      && r.value.1.updatedAt == now
      && (r.value.1.resolvedAt.Some? <==> status != "pending")
      && r.value.1.resolvedAt == (if status != "pending" then Some(now) else None)
      && r.value.1.id == id && r.value.1.amount == store[i].amount && r.value.1.userId == store[i].userId
      && r.value.1.createdAt == store[i].createdAt && r.value.1.comments == store[i].comments
      && r.value.1 == store[i].(status := status, adminResponse := Some(adminResponse), updatedAt := now,
                                resolvedAt := r.value.1.resolvedAt)
      && forall j :: 0 <= j < |store| && j != i ==> r.value.0[j] == store[j]
  {
    match IndexOf(store, id)
    case None => Err("Dispute not found")
    case Some(i) =>
      var d := store[i].(status := status, adminResponse := Some(adminResponse), updatedAt := now,
                         resolvedAt := if status != "pending" then Some(now) else None);
      Ok((store[i := d], d))
  }

  /** Index i holds the first dispute with that id. */
  predicate FirstWithId(store: seq<Dispute>, id: string, i: int) {
    0 <= i < |store| && store[i].id == id && forall j :: 0 <= j < i ==> store[j].id != id
  }

  /** `getDisputeById`: `find` returns the first dispute with that id. */
  function GetDisputeById(store: seq<Dispute>, id: string): (r: Result<Dispute>)
    ensures r.Err? <==> forall j :: 0 <= j < |store| ==> store[j].id != id
    ensures r.Err? ==> r.error == "Dispute not found"
    ensures r.Ok? ==> r.value.id == id && r.value in store
    ensures r.Ok? ==> exists i :: 0 <= i < |store| && r.value == store[i] && FirstWithId(store, id, i)
  {
    match IndexOf(store, id)
    case None => Err("Dispute not found")
    case Some(i) =>
      assert FirstWithId(store, id, i);
      Ok(store[i])
  }

  /** `addDisputeComment`: one comment appended to that dispute only. */
  function AddDisputeComment(store: seq<Dispute>, id: string, text: string, isAdmin: bool,
                             commentId: string, now: int): (r: Result<(seq<Dispute>, Comment)>)
    ensures r.Err? <==> IndexOf(store, id).None?
    ensures r.Err? ==> r.error == "Dispute not found"
    ensures r.Ok? ==> var i := IndexOf(store, id).value;
      && r.value.1 == Comment(commentId, text, isAdmin, now)
      && |r.value.0| == |store|
      && r.value.0[i].comments == store[i].comments + [r.value.1]
      && r.value.0[i] == store[i].(comments := r.value.0[i].comments, updatedAt := now)
      && forall j :: 0 <= j < |store| && j != i ==> r.value.0[j] == store[j]
  {
    match IndexOf(store, id)
    case None => Err("Dispute not found")
    case Some(i) =>
      var comment := Comment(commentId, text, isAdmin, now);
      Ok((store[i := store[i].(comments := store[i].comments + [comment], updatedAt := now)], comment))
  }

  /** `getUserDisputes`. */
  function GetUserDisputes(store: seq<Dispute>, userId: string): (r: seq<Dispute>)
    ensures forall i :: 0 <= i < |r| ==> r[i].userId == userId && r[i] in store
    ensures forall i :: 0 <= i < |store| ==> (store[i] in r <==> store[i].userId == userId)
  {
    Seqs.Filter(store, (d: Dispute) => d.userId == userId)
  }

  /** `getDisputesByStatus`. */
  function GetDisputesByStatus(store: seq<Dispute>, status: string): (r: seq<Dispute>)
    ensures forall i :: 0 <= i < |r| ==> r[i].status == status && r[i] in store
    ensures forall i :: 0 <= i < |store| ==> (store[i] in r <==> store[i].status == status)
  {
    Seqs.Filter(store, (d: Dispute) => d.status == status)
  }

  predicate MatchesQuery(d: Dispute, query: string) {
    var q := Text.Lower(query);
    Text.Contains(Text.Lower(d.transactionId), q) || Text.Contains(Text.Lower(d.reason), q)
    || Text.Contains(Text.Lower(d.description), q)
  }

  /** `searchDisputes`: case-insensitive substring match on transaction id,
      reason or description. */
  function SearchDisputes(store: seq<Dispute>, query: string): (r: seq<Dispute>)
    ensures forall i :: 0 <= i < |r| ==> MatchesQuery(r[i], query)
    ensures forall i :: 0 <= i < |store| ==> (store[i] in r <==> MatchesQuery(store[i], query))
  {
    Seqs.Filter(store, (d: Dispute) => MatchesQuery(d, query))
  }

  // ---- Statistics ----

  function SumAmounts(ds: seq<Dispute>): real
  {
    if |ds| == 0 then 0.0 else ds[0].amount + SumAmounts(ds[1..])
  }

  lemma {:induction false} SumAmountsConcat(a: seq<Dispute>, b: seq<Dispute>)
    ensures SumAmounts(a + b) == SumAmounts(a) + SumAmounts(b)
  {
    if |a| == 0 {
      assert a + b == b;
    } else {
      assert (a + b)[1..] == a[1..] + b;
      SumAmountsConcat(a[1..], b);
    }
  }

  /** The refunded total: the amounts of the 'approved' disputes. */
  function TotalRefundAmount(store: seq<Dispute>): real {
    SumAmounts(GetDisputesByStatus(store, "approved"))
  }

  datatype DisputeStatistics = DisputeStatistics(
    totalDisputes: nat,
    pendingDisputes: nat,
    approvedDisputes: nat,
    rejectedDisputes: nat,
    totalRefundAmount: real,
    disputesByReason: Tally.Counts<string>,
    recentDisputes: seq<Dispute>)

  function Reasons(store: seq<Dispute>): (r: seq<string>)
    ensures |r| == |store| && forall i :: 0 <= i < |store| ==> r[i] == store[i].reason
  {
    seq(|store|, i requires 0 <= i < |store| => store[i].reason)
  }

  /** `getDisputeStatistics` without the average resolution time. */
  function GetDisputeStatistics(store: seq<Dispute>): (s: DisputeStatistics)
    ensures s.totalDisputes == |store|
    ensures s.pendingDisputes + s.approvedDisputes + s.rejectedDisputes <= s.totalDisputes
    ensures s.pendingDisputes == |GetDisputesByStatus(store, "pending")|
    ensures s.approvedDisputes == |GetDisputesByStatus(store, "approved")|
    ensures s.rejectedDisputes == |GetDisputesByStatus(store, "rejected")|
    ensures s.totalRefundAmount == TotalRefundAmount(store)
    ensures Tally.Distinct(s.disputesByReason)
    ensures forall k :: Tally.Lookup(s.disputesByReason, k) == multiset(Reasons(store))[k]
    ensures s.recentDisputes == store[..if |store| < 10 then |store| else 10]
  {
    Seqs.FilterDisjoint3(store, (d: Dispute) => d.status == "pending",
      (d: Dispute) => d.status == "approved", (d: Dispute) => d.status == "rejected");
    DisputeStatistics(|store|,
      |GetDisputesByStatus(store, "pending")|, |GetDisputesByStatus(store, "approved")|,
      |GetDisputesByStatus(store, "rejected")|, TotalRefundAmount(store),
      Tally.Tally(Reasons(store)), store[..if |store| < 10 then |store| else 10])
  }

  /** Counting by reason counts every dispute once. */
  lemma ReasonsSumToTotal(store: seq<Dispute>)
    ensures Tally.Total(GetDisputeStatistics(store).disputesByReason) == |store|
  {
    Tally.TallyTotal(Reasons(store));
  }

  function Refunded(d: Dispute): real {
    if d.status == "approved" then d.amount else 0.0
  }

  /** The refunded total is additive over a split of the store. */
  lemma {:induction false} RefundTotalConcat(a: seq<Dispute>, b: seq<Dispute>)
    ensures TotalRefundAmount(a + b) == TotalRefundAmount(a) + TotalRefundAmount(b)
  {
    Seqs.FilterConcat(a, b, (d: Dispute) => d.status == "approved");
    SumAmountsConcat(GetDisputesByStatus(a, "approved"), GetDisputesByStatus(b, "approved"));
  }

  /** A single dispute contributes its amount exactly when it is approved. */
  lemma RefundTotalSingle(d: Dispute)
    ensures TotalRefundAmount([d]) == Refunded(d)
  {
    assert [d][1..] == [];
    if d.status == "approved" {
      assert GetDisputesByStatus([d], "approved") == [d];
      assert SumAmounts([d]) == d.amount + SumAmounts([]);
    } else {
      assert GetDisputesByStatus([d], "approved") == [];
    }
  }

  /** Replacing one dispute changes the refunded total by exactly the
      difference of that dispute's approved amount. */
  lemma {:induction false} RefundTotalAfterReplace(store: seq<Dispute>, i: nat, d: Dispute)
    requires i < |store|
    ensures TotalRefundAmount(store[i := d]) == TotalRefundAmount(store) - Refunded(store[i]) + Refunded(d)
  {
    var pre, post := store[..i], store[i + 1..];
    assert store == (pre + [store[i]]) + post;
    assert store[i := d] == (pre + [d]) + post;
    RefundTotalConcat(pre + [store[i]], post);
    RefundTotalConcat(pre, [store[i]]);
    RefundTotalConcat(pre + [d], post);
    RefundTotalConcat(pre, [d]);
    RefundTotalSingle(store[i]);
    RefundTotalSingle(d);
  }

  /** Approving a dispute that was not yet approved raises the refunded
      total by exactly its amount. */
  lemma ApprovalAddsRefund(store: seq<Dispute>, id: string, adminResponse: string, now: int)
    requires IndexOf(store, id).Some? && store[IndexOf(store, id).value].status != "approved"
    ensures var r := UpdateDisputeStatus(store, id, "approved", adminResponse, now);
      r.Ok? && TotalRefundAmount(r.value.0) == TotalRefundAmount(store) + store[IndexOf(store, id).value].amount
  {
    var i := IndexOf(store, id).value;
    var r := UpdateDisputeStatus(store, id, "approved", adminResponse, now);
    assert r.value.0 == store[i := r.value.1];
    RefundTotalAfterReplace(store, i, r.value.1);
  }

  /** Rejecting an approved dispute lowers the refunded total by exactly
      its amount. */
  lemma RejectionRemovesRefund(store: seq<Dispute>, id: string, adminResponse: string, now: int)
    requires IndexOf(store, id).Some? && store[IndexOf(store, id).value].status == "approved"
    ensures var r := UpdateDisputeStatus(store, id, "rejected", adminResponse, now);
      r.Ok? && TotalRefundAmount(r.value.0) == TotalRefundAmount(store) - store[IndexOf(store, id).value].amount
  {
    var i := IndexOf(store, id).value;
    var r := UpdateDisputeStatus(store, id, "rejected", adminResponse, now);
    assert r.value.0 == store[i := r.value.1];
    RefundTotalAfterReplace(store, i, r.value.1);
  }

  /** A newly created dispute is 'pending', so it adds nothing to the
      refunded total. */
  lemma CreateKeepsRefundTotal(store: seq<Dispute>, draft: Dispute, id: string, now: int)
    ensures TotalRefundAmount(CreateDispute(store, draft, id, now).0) == TotalRefundAmount(store)
  {
    var d := CreateDispute(store, draft, id, now).1;
    Seqs.FilterConcat([d], store, (x: Dispute) => x.status == "approved");
    SumAmountsConcat([], Seqs.Filter(store, (x: Dispute) => x.status == "approved"));
  }
}

=== FILE: feedback.dfy ===
/** Feedback service (feedbackService): a list of feedback items kept
    newest first. Ratings are whole numbers. */
module FeedbackService {
  import opened Wrappers
  import Seqs
  import Text
  import Tally

  datatype Feedback = Feedback(
    id: string,
    userId: string,
    userName: string,
    rating: int,
    comment: string,
    category: string,
    timestamp: int,
    updatedAt: Option<int>)

  /** `submitFeedback`: a fresh id and timestamp override whatever the
      caller sent; the item is prepended. */
  function SubmitFeedback(store: seq<Feedback>, draft: Feedback, id: string, now: int): (r: (seq<Feedback>, Feedback))
    ensures r.1.id == id && r.1.timestamp == now
    ensures r.1.rating == draft.rating && r.1.comment == draft.comment && r.1.category == draft.category
      && r.1.userId == draft.userId && r.1.userName == draft.userName && r.1.updatedAt == draft.updatedAt
    ensures r.0 == [r.1] + store
  {
    var f := draft.(id := id, timestamp := now);
    ([f] + store, f)
  }

  function IndexOf(store: seq<Feedback>, id: string): (r: Option<nat>)
    ensures r.Some? ==> r.value < |store| && store[r.value].id == id
    ensures r.Some? ==> forall j :: 0 <= j < r.value ==> store[j].id != id
    ensures r.None? <==> forall j :: 0 <= j < |store| ==> store[j].id != id
  {
    Seqs.FindIndex(store, (f: Feedback) => f.id == id)
  }

  /** The fields an edit (`...updates`) may carry. */
  datatype FeedbackPatch = FeedbackPatch(rating: Option<int>, comment: Option<string>, category: Option<string>)

  /** `updateFeedback`: merges the patch into that item only and stamps
      updatedAt. */
  function UpdateFeedback(store: seq<Feedback>, id: string, patch: FeedbackPatch, now: int)
    : (r: Result<(seq<Feedback>, Feedback)>)
    ensures r.Err? <==> IndexOf(store, id).None?
    ensures r.Err? ==> r.error == "Feedback not found"
    ensures r.Ok? ==> var i := IndexOf(store, id).value;
      && |r.value.0| == |store|
      && r.value.0[i] == r.value.1
      && r.value.1.id == id && r.value.1.timestamp == store[i].timestamp
      && r.value.1.updatedAt == Some(now)
      && r.value.1.userId == store[i].userId && r.value.1.userName == store[i].userName
      && r.value.1.rating == (if patch.rating.Some? then patch.rating.value else store[i].rating)
      && r.value.1.comment == (if patch.comment.Some? then patch.comment.value else store[i].comment)
      && r.value.1.category == (if patch.category.Some? then patch.category.value else store[i].category)
      && forall j :: 0 <= j < |store| && j != i ==> r.value.0[j] == store[j]
  {
    match IndexOf(store, id)
    case None => Err("Feedback not found")
    case Some(i) =>
      var f := store[i].(rating := patch.rating.GetOr(store[i].rating),
                         comment := patch.comment.GetOr(store[i].comment),
                         category := patch.category.GetOr(store[i].category),
                         updatedAt := Some(now));
      Ok((store[i := f], f))
  }

  /** `deleteFeedback`: removes exactly one item, keeping the order of the
      rest. */
  function DeleteFeedback(store: seq<Feedback>, id: string): (r: Result<(seq<Feedback>, Feedback)>)
    ensures r.Err? <==> IndexOf(store, id).None?
    ensures r.Err? ==> r.error == "Feedback not found"
    ensures r.Ok? ==> var i := IndexOf(store, id).value;
      && r.value.1 == store[i]
      && r.value.0 == store[..i] + store[i + 1..]
      && |r.value.0| == |store| - 1
  {
    match IndexOf(store, id)
    case None => Err("Feedback not found")
    case Some(i) => Ok((Seqs.RemoveAt(store, i), store[i]))
  }

  /** Deleting the item just submitted gives back the store as it was. */
  lemma SubmitThenDelete(store: seq<Feedback>, draft: Feedback, id: string, now: int)
    ensures var (s, f) := SubmitFeedback(store, draft, id, now);
      DeleteFeedback(s, id) == Ok((store, f))
  {
    var (s, f) := SubmitFeedback(store, draft, id, now);
    assert IndexOf(s, id) == Some(0);
    assert s[..0] + s[1..] == store;
  }

  // ---- Filters ----

  /** `getUserFeedback`. */
  function GetUserFeedback(store: seq<Feedback>, userId: string): (r: seq<Feedback>)
    ensures forall i :: 0 <= i < |r| ==> r[i].userId == userId && r[i] in store
    ensures forall i :: 0 <= i < |store| ==> (store[i] in r <==> store[i].userId == userId)
  {
    Seqs.Filter(store, (f: Feedback) => f.userId == userId)
  }

  /** `getFeedbackByCategory`. */
  function GetFeedbackByCategory(store: seq<Feedback>, category: string): (r: seq<Feedback>)
    ensures forall i :: 0 <= i < |r| ==> r[i].category == category && r[i] in store
    ensures forall i :: 0 <= i < |store| ==> (store[i] in r <==> store[i].category == category)
  {
    Seqs.Filter(store, (f: Feedback) => f.category == category)
  }

  /** `getFeedbackByRating`: the items rated within the closed range. */
  function GetFeedbackByRating(store: seq<Feedback>, minRating: int, maxRating: int): (r: seq<Feedback>)
    ensures forall i :: 0 <= i < |r| ==> minRating <= r[i].rating <= maxRating && r[i] in store
    ensures forall i :: 0 <= i < |store| ==> (store[i] in r <==> minRating <= store[i].rating <= maxRating)
  {
    Seqs.Filter(store, (f: Feedback) => minRating <= f.rating <= maxRating)
  }

  predicate MatchesQuery(f: Feedback, query: string) {
    var q := Text.Lower(query);
    Text.Contains(Text.Lower(f.comment), q) || Text.Contains(Text.Lower(f.category), q)
    || Text.Contains(Text.Lower(f.userName), q)
  }

  /** `searchFeedback`: case-insensitive substring match on comment,
      category or user name. */
  function SearchFeedback(store: seq<Feedback>, query: string): (r: seq<Feedback>)
    ensures forall i :: 0 <= i < |r| ==> MatchesQuery(r[i], query)
    ensures forall i :: 0 <= i < |store| ==> (store[i] in r <==> MatchesQuery(store[i], query))
  {
    Seqs.Filter(store, (f: Feedback) => MatchesQuery(f, query))
  }

  // ---- Statistics ----

  /** Number of items rated exactly `k`. */
  function CountRating(store: seq<Feedback>, k: int): nat {
    if |store| == 0 then 0
    else (if store[0].rating == k then 1 else 0) + CountRating(store[1..], k)
  }

  predicate RatingsInRange(store: seq<Feedback>) {
    forall i :: 0 <= i < |store| ==> 1 <= store[i].rating <= 5
  }

  /** `getRatingDistribution`: entry k-1 holds the count of rating k. */
  function GetRatingDistribution(store: seq<Feedback>): (d: seq<nat>)
    ensures |d| == 5
    ensures forall k :: 1 <= k <= 5 ==> d[k - 1] == |GetFeedbackByRating(store, k, k)|
    ensures RatingsInRange(store) ==> d[0] + d[1] + d[2] + d[3] + d[4] == |store|
  {
    var d := [CountRating(store, 1), CountRating(store, 2), CountRating(store, 3),
              CountRating(store, 4), CountRating(store, 5)];
    CountRatingsAreFilters(store);
    DistributionCoversAll(store);
    d
  }

  lemma CountRatingsAreFilters(store: seq<Feedback>)
    ensures forall k :: CountRating(store, k) == |GetFeedbackByRating(store, k, k)|
  {
    forall k: int
      ensures CountRating(store, k) == |GetFeedbackByRating(store, k, k)|
    {
      CountRatingIsFilter(store, k);
    }
  }

  /** The recursive count agrees with the rating-range filter. */
  lemma {:induction false} CountRatingIsFilter(store: seq<Feedback>, k: int)
    ensures CountRating(store, k) == |GetFeedbackByRating(store, k, k)|
  {
    if |store| > 0 {
      CountRatingIsFilter(store[1..], k);
      assert store == [store[0]] + store[1..];
      Seqs.FilterConcat([store[0]], store[1..], (f: Feedback) => k <= f.rating <= k);
    }
  }

  /** With every rating in 1..5 the five counts cover every item. */
  lemma {:induction false} DistributionCoversAll(store: seq<Feedback>)
    ensures RatingsInRange(store) ==>
      (CountRating(store, 1) + CountRating(store, 2) + CountRating(store, 3)
       + CountRating(store, 4) + CountRating(store, 5) == |store|)
  {
    if |store| > 0 && RatingsInRange(store) {
      DistributionCoversAll(store[1..]);
    }
  }

  function Categories(store: seq<Feedback>): (r: seq<string>)
    ensures |r| == |store| && forall i :: 0 <= i < |store| ==> r[i] == store[i].category
  {
    seq(|store|, i requires 0 <= i < |store| => store[i].category)
  }

  /** `getCategoryDistribution`: counts per category, every item once. */
  function GetCategoryDistribution(store: seq<Feedback>): (d: Tally.Counts<string>)
    ensures Tally.Distinct(d)
    ensures forall k :: Tally.Lookup(d, k) == multiset(Categories(store))[k]
    ensures Tally.Total(d) == |store|
  {
    Tally.TallyTotal(Categories(store));
    Tally.Tally(Categories(store))
  }

  function SumRatings(store: seq<Feedback>): int {
    if |store| == 0 then 0 else store[0].rating + SumRatings(store[1..])
  }

  lemma {:induction false} SumRatingsBounds(store: seq<Feedback>)
    requires RatingsInRange(store)
    ensures |store| <= SumRatings(store) <= 5 * |store|
  {
    if |store| > 0 {
      SumRatingsBounds(store[1..]);
    }
  }

  /** Multiplying by a positive factor preserves order both ways. */
  lemma ScaleOrder(a: real, b: real, n: real)
    requires n > 0.0
    ensures a * n <= b * n ==> a <= b
  {
    if a > b {
      assert (a - b) * n > 0.0;
    }
  }

  lemma MeanAtLeastOne(total: real, n: real)
    requires n > 0.0 && n <= total
    ensures 1.0 <= total / n
  {
    var m := total / n;
    assert m * n == total;
    ScaleOrder(1.0, m, n);
  }

  lemma MeanAtMostFive(total: real, n: real)
    requires n > 0.0 && total <= 5.0 * n
    ensures total / n <= 5.0
  {
    var m := total / n;
    assert m * n == total;
    ScaleOrder(m, 5.0, n);
  }

  /** `calculateAverageRating` before rounding to one decimal: 0 for no
      feedback, otherwise the mean, which lies in [1, 5] when every rating
      does. */
  function CalculateAverageRating(store: seq<Feedback>): (avg: real)
    ensures |store| == 0 ==> avg == 0.0
    ensures |store| > 0 ==> avg * (|store| as real) == SumRatings(store) as real
    ensures |store| > 0 && RatingsInRange(store) ==> 1.0 <= avg <= 5.0
  {
    if |store| == 0 then 0.0
    else
      var n := |store| as real;
      var avg := SumRatings(store) as real / n;
      if RatingsInRange(store) then
        SumRatingsBounds(store);
        MeanAtLeastOne(SumRatings(store) as real, n);
        MeanAtMostFive(SumRatings(store) as real, n);
        avg
      else avg
  }

  /** The statistics' three classes of a rating. */
  predicate IsPositive(f: Feedback) { f.rating >= 4 }
  predicate IsNegative(f: Feedback) { f.rating <= 2 }
  predicate IsNeutral(f: Feedback) { f.rating == 3 }

  /** With ratings in 1..5, "positive" (>= 4) is the rating range 4..5. */
  lemma PositiveIsTopRange(store: seq<Feedback>)
    ensures RatingsInRange(store) ==>
      |Seqs.Filter(store, IsPositive)| == |GetFeedbackByRating(store, 4, 5)|
  {
    if RatingsInRange(store) {
      Seqs.FilterSame(store, IsPositive, (f: Feedback) => 4 <= f.rating <= 5);
    }
  }

  /** With ratings in 1..5, "negative" (<= 2) is the rating range 1..2. */
  lemma NegativeIsBottomRange(store: seq<Feedback>)
    ensures RatingsInRange(store) ==>
      |Seqs.Filter(store, IsNegative)| == |GetFeedbackByRating(store, 1, 2)|
  {
    if RatingsInRange(store) {
      Seqs.FilterSame(store, IsNegative, (f: Feedback) => 1 <= f.rating <= 2);
    }
  }

  /** "Neutral" is exactly the rating 3. */
  lemma NeutralIsMiddle(store: seq<Feedback>)
    ensures |Seqs.Filter(store, IsNeutral)| == |GetFeedbackByRating(store, 3, 3)|
  {
    Seqs.FilterSame(store, IsNeutral, (f: Feedback) => 3 <= f.rating <= 3);
  }

  datatype FeedbackStatistics = FeedbackStatistics(
    totalFeedback: nat,
    averageRating: real,
    ratingDistribution: seq<nat>,
    categoryDistribution: Tally.Counts<string>,
    recentFeedback: seq<Feedback>,
    positiveRating: nat,
    negativeRating: nat,
    neutralRating: nat)

  /** `getFeedbackStatistics`: with whole-number ratings every item is
      exactly one of positive (>= 4), negative (<= 2) or neutral (= 3). */
  function GetFeedbackStatistics(store: seq<Feedback>): (s: FeedbackStatistics)
    ensures s.totalFeedback == |store|
    ensures s.positiveRating + s.negativeRating + s.neutralRating == s.totalFeedback
    ensures s.positiveRating == |Seqs.Filter(store, IsPositive)|
    ensures s.negativeRating == |Seqs.Filter(store, IsNegative)|
    ensures s.neutralRating == |GetFeedbackByRating(store, 3, 3)|
    ensures RatingsInRange(store) ==> s.positiveRating == |GetFeedbackByRating(store, 4, 5)|
    ensures RatingsInRange(store) ==> s.negativeRating == |GetFeedbackByRating(store, 1, 2)|
    ensures s.recentFeedback == store[..if |store| < 10 then |store| else 10]
    ensures s.averageRating == CalculateAverageRating(store)
    ensures s.ratingDistribution == GetRatingDistribution(store)
    ensures s.categoryDistribution == GetCategoryDistribution(store)
  {
    Seqs.FilterPartition3(store, IsPositive, IsNegative, IsNeutral);
    PositiveIsTopRange(store);
    NegativeIsBottomRange(store);
    NeutralIsMiddle(store);
    FeedbackStatistics(|store|, CalculateAverageRating(store), GetRatingDistribution(store),
      GetCategoryDistribution(store), store[..if |store| < 10 then |store| else 10],
      |Seqs.Filter(store, IsPositive)|, |Seqs.Filter(store, IsNegative)|, |Seqs.Filter(store, IsNeutral)|)
  }
}

=== FILE: feedback_page.dfy ===
/** The rating form and history of the FeedbackRating page. */
module FeedbackPage {
  import opened Wrappers
  import Seqs
  import FeedbackService

  datatype FeedbackForm = FeedbackForm(rating: int, comment: string, category: string)

  const InitialForm := FeedbackForm(0, "", "general")

  datatype Message = Message(kind: string, text: string)

  datatype PageState = PageState(
    form: FeedbackForm,
    history: seq<FeedbackService.Feedback>,
    message: Message)

  datatype User = User(id: string, username: string)

  /** `handleRatingClick`. */
  function RatingClick(st: PageState, rating: int): (r: PageState)
    ensures r.form == st.form.(rating := rating) && r.history == st.history
  {
    st.(form := st.form.(rating := rating))
  }

  /** `handleSubmit`. A zero rating is refused before the service is
      called. Otherwise the page's own record (its id and timestamp taken
      from the page's clock) heads the page history, the service stores
      the same record under its own id and timestamp, and the form is
      reset. */
  function HandleSubmit(st: PageState, user: User, store: seq<FeedbackService.Feedback>,
                        pageId: string, pageNow: int, serviceId: string, serviceNow: int)
    : (r: (PageState, seq<FeedbackService.Feedback>))
    ensures st.form.rating == 0 ==> r == (st.(message := Message("error", "Please provide a rating")), store)
    ensures st.form.rating != 0 ==>
      && r.0.form == InitialForm
      && |r.0.history| == |st.history| + 1 && r.0.history[1..] == st.history
      && r.0.history[0].rating == st.form.rating && r.0.history[0].comment == st.form.comment
      && r.0.history[0].category == st.form.category && r.0.history[0].userId == user.id
      && r.0.history[0].id == pageId
      && r.0.history[0].userName == user.username && r.0.history[0].timestamp == pageNow
      && r.0.history[0].updatedAt.None?
      && r.0.message == Message("success", "Feedback submitted successfully!")
      && |r.1| == |store| + 1 && r.1[1..] == store
      && r.1[0] == r.0.history[0].(id := serviceId, timestamp := serviceNow)
  {
    if st.form.rating == 0 then (st.(message := Message("error", "Please provide a rating")), store)
    else
      var f := FeedbackService.Feedback(pageId, user.id, user.username, st.form.rating, st.form.comment,
                                        st.form.category, pageNow, None);
      var (store', _) := FeedbackService.SubmitFeedback(store, f, serviceId, serviceNow);
      (PageState(InitialForm, [f] + st.history, Message("success", "Feedback submitted successfully!")), store')
  }

  /** After a submit the form is empty again, so submitting twice in a row
      refuses the second time. */
  lemma NoDoubleSubmit(st: PageState, user: User, store: seq<FeedbackService.Feedback>,
                       pageId: string, pageNow: int, serviceId: string, serviceNow: int)
    requires st.form.rating != 0
    ensures var (s1, store1) := HandleSubmit(st, user, store, pageId, pageNow, serviceId, serviceNow);
      HandleSubmit(s1, user, store1, pageId, pageNow, serviceId, serviceNow).1 == store1
  {
  }

  /** `renderStars`: star `i` (0-based) of the five is filled iff
      `i < rating`. */
  function RenderStars(rating: int): (stars: seq<bool>)
    ensures |stars| == 5
    ensures forall i :: 0 <= i < 5 ==> (stars[i] <==> i < rating)
  {
    Stars(5, rating)
  }

  function Stars(n: nat, rating: int): (stars: seq<bool>)
    ensures |stars| == n
    ensures forall i :: 0 <= i < n ==> (stars[i] <==> i < rating)
  {
    seq(n, i requires 0 <= i < n => i < rating)
  }

  /** Number of filled stars. */
  function CountFilled(stars: seq<bool>): nat {
    if |stars| == 0 then 0 else CountFilled(stars[..|stars| - 1]) + (if stars[|stars| - 1] then 1 else 0)
  }

  function Clamp(x: int, lo: int, hi: int): int
    requires lo <= hi
  {
    if x < lo then lo else if x > hi then hi else x
  }

  lemma {:induction false} StarsFilled(n: nat, rating: int)
    ensures CountFilled(Stars(n, rating)) == Clamp(rating, 0, n)
  {
    if n > 0 {
      var s := Stars(n, rating);
      assert s[..n - 1] == Stars(n - 1, rating);
      StarsFilled(n - 1, rating);
    }
  }

  /** Exactly `rating` stars are filled, clamped to the five drawn. */
  lemma FilledStarCount(rating: int)
    ensures CountFilled(RenderStars(rating)) == Clamp(rating, 0, 5)
    ensures 0 <= rating <= 5 ==> CountFilled(RenderStars(rating)) == rating
  {
    StarsFilled(5, rating);
  }

  /** `getRatingText`. */
  function GetRatingText(rating: int): (text: string)
    ensures text != "" <==> 1 <= rating <= 5
  {
    if rating == 1 then "Very Poor"
    else if rating == 2 then "Poor"
    else if rating == 3 then "Average"
    else if rating == 4 then "Good"
    else if rating == 5 then "Excellent"
    else ""
  }

  /** The five labels are distinct, so the text determines the rating. */
  lemma RatingTextDistinct(a: int, b: int)
    requires GetRatingText(a) != "" && GetRatingText(a) == GetRatingText(b)
    ensures a == b
  {
  }

  /** The "Positive Reviews" figure. */
  function PositiveCount(history: seq<FeedbackService.Feedback>): (n: nat)
    ensures n <= |history|
    ensures n == |Seqs.Filter(history, FeedbackService.IsPositive)|
    ensures FeedbackService.RatingsInRange(history) ==> n == |FeedbackService.GetFeedbackByRating(history, 4, 5)|
  {
    Seqs.FilterSame(history, (f: FeedbackService.Feedback) => f.rating >= 4, FeedbackService.IsPositive);
    FeedbackService.PositiveIsTopRange(history);
    |Seqs.Filter(history, (f: FeedbackService.Feedback) => f.rating >= 4)|
  }

  /** The page's positive count is the service statistic's positiveRating. */
  lemma PositiveCountMatchesService(history: seq<FeedbackService.Feedback>)
    ensures PositiveCount(history) == FeedbackService.GetFeedbackStatistics(history).positiveRating
  {
  }
}

=== FILE: login_page.dfy ===
/** The mock sign-in of the Login page: two hard-coded accounts. */
module LoginPage {
  import opened Wrappers

  datatype UserData = UserData(id: string, username: string, userType: string, coinBalance: nat)

  const ValidCredentials: map<string, string> := map["user" := "password", "admin" := "password"]

  /** `handleSubmit`: the emptiness check comes first, then the credential
      table; the result is the signed-in user or the error shown. */
  function HandleSubmit(username: string, password: string): (r: Result<UserData>)
    ensures (username == "" || password == "") ==> r == Err("Please enter both username and password")
    ensures r.Ok? <==> (username == "user" || username == "admin") && password == "password"
    ensures r.Err? && username != "" && password != "" ==> r.error == "Invalid username or password"
    ensures r.Ok? ==> r.value.username == username
    ensures r.Ok? && username == "admin" ==> r.value == UserData("admin-1", "admin", "admin", 0)
    ensures r.Ok? && username == "user" ==> r.value == UserData("user-1", "user", "user", 100)
  {
    if username == "" || password == "" then Err("Please enter both username and password")
    else if username in ValidCredentials && ValidCredentials[username] == password then
      var isAdmin := username == "admin";
      Ok(UserData(if isAdmin then "admin-1" else "user-1", username,
                  if isAdmin then "admin" else "user", if isAdmin then 0 else 100))
    else Err("Invalid username or password")
  }

  /** Only the two listed accounts can sign in, and the record's type
      decides its id and starting coins. */
  lemma SignedInUserShape(username: string, password: string)
    requires HandleSubmit(username, password).Ok?
    ensures var u := HandleSubmit(username, password).value;
      && (u.userType == "admin" <==> u.id == "admin-1")
      && (u.userType == "admin" <==> u.coinBalance == 0)
      && (u.userType == "user" <==> u.coinBalance == 100)
      && u.username in ValidCredentials && ValidCredentials[u.username] == password
  {
  }
}

=== FILE: packages_page.dfy ===
/** The subscription-package purchase flow of the Packages page. The
    authorisation outcome, the clock and the date string are parameters. */
module PackagesPage {
  import opened Wrappers
  import Text

  datatype Package = Package(id: string, name: string, coins: nat, price: real, popular: bool)

  const Packages: seq<Package> := [
    Package("silver", "Silver", 100, 10.0, false),
    Package("gold", "Gold", 250, 23.0, true),
    Package("diamond", "Diamond", 500, 42.0, false)
  ]

  datatype PurchaseStatus = NoStatus | Success | Declined | Error

  datatype Receipt = Receipt(
    transactionId: string,
    date: string,
    packageName: string,
    coins: nat,
    amount: real,
    paymentMethod: string,
    newBalance: int)

  datatype PageState = PageState(
    selectedPackage: Option<Package>,
    showConfirmation: bool,
    paymentMethod: string,
    purchaseStatus: PurchaseStatus,
    coinBalance: int,
    receiptData: Option<Receipt>,
    showReceipt: bool,
    errorMessage: string)

  const InitialState := PageState(None, false, "credit-card", NoStatus, 150, None, false, "")

  /** `handleSelectPackage`. */
  function SelectPackage(st: PageState, p: Package): (r: PageState)
    ensures r.selectedPackage == Some(p) && r.showConfirmation
    ensures r.purchaseStatus == NoStatus && r.errorMessage == ""
    ensures r.coinBalance == st.coinBalance && r.paymentMethod == st.paymentMethod
  {
    st.(selectedPackage := Some(p), showConfirmation := true, purchaseStatus := NoStatus, errorMessage := "")
  }

  /** `handleCancelPurchase`. */
  function CancelPurchase(st: PageState): (r: PageState)
    ensures r.selectedPackage.None? && !r.showConfirmation && r.paymentMethod == "credit-card"
    ensures r.coinBalance == st.coinBalance && r.purchaseStatus == st.purchaseStatus
  {
    st.(showConfirmation := false, selectedPackage := None, paymentMethod := "credit-card")
  }

  /** What `simulatePaymentAuthorization` resolved to, or that it threw. */
  datatype Authorization = Authorized | NotAuthorized | Threw

  const DeclinedMessage := "Payment was declined. Please try a different payment method or contact your bank."
  const TimeoutMessage := "Connection timeout. Please try again. No charges were made."

  /** `handleConfirmPayment`. Crediting needs a selected package: with
      none, reading its coins throws and the error branch runs. */
  function ConfirmPayment(st: PageState, auth: Authorization, now: nat, date: string): (r: PageState)
    ensures r.purchaseStatus == Success <==> auth == Authorized && st.selectedPackage.Some?
    ensures r.purchaseStatus == Success ==>
      && r.coinBalance == st.coinBalance + st.selectedPackage.value.coins
      && r.receiptData.Some?
      && r.receiptData.value.newBalance == r.coinBalance
      && r.receiptData.value.packageName == st.selectedPackage.value.name
      && r.receiptData.value.coins == st.selectedPackage.value.coins
      && r.receiptData.value.amount == st.selectedPackage.value.price
      && r.receiptData.value.paymentMethod == st.paymentMethod
      && r.receiptData.value.transactionId == "TXN-" + Text.NatToString(now)
      && !r.showConfirmation && r.errorMessage == ""
    ensures r.purchaseStatus != Success ==>
      r.coinBalance == st.coinBalance && r.receiptData == st.receiptData && r.errorMessage != ""
    ensures auth == NotAuthorized ==> r.purchaseStatus == Declined && r.errorMessage == DeclinedMessage
    ensures (auth == Threw || (auth == Authorized && st.selectedPackage.None?)) ==>
      r.purchaseStatus == Error && r.errorMessage == TimeoutMessage
    ensures r.selectedPackage == st.selectedPackage && r.paymentMethod == st.paymentMethod
  {
    match auth
    case Authorized =>
      if st.selectedPackage.None? then st.(purchaseStatus := Error, errorMessage := TimeoutMessage)
      else
        var p := st.selectedPackage.value;
        var newBalance := st.coinBalance + p.coins;
        var receipt := Receipt("TXN-" + Text.NatToString(now), date, p.name, p.coins, p.price,
                               st.paymentMethod, newBalance);
        st.(coinBalance := newBalance, receiptData := Some(receipt), purchaseStatus := Success,
            showConfirmation := false, errorMessage := "")
    case NotAuthorized => st.(purchaseStatus := Declined, errorMessage := DeclinedMessage)
    case Threw => st.(purchaseStatus := Error, errorMessage := TimeoutMessage)
  }

  /** `handleRetryPayment`: clears the status and message only. */
  function RetryPayment(st: PageState): (r: PageState)
    ensures r.purchaseStatus == NoStatus && r.errorMessage == ""
    ensures r.coinBalance == st.coinBalance && r.selectedPackage == st.selectedPackage
    ensures r.receiptData == st.receiptData
  {
    st.(purchaseStatus := NoStatus, errorMessage := "")
  }

  /** `handleBuyAnother`: clears the receipt and the selection. */
  function BuyAnother(st: PageState): (r: PageState)
    ensures r.purchaseStatus == NoStatus && !r.showReceipt
    ensures r.receiptData.None? && r.selectedPackage.None?
    ensures r.coinBalance == st.coinBalance
  {
    st.(purchaseStatus := NoStatus, showReceipt := false, receiptData := None, selectedPackage := None)
  }

  /** A failed attempt followed by a retry leaves nothing behind: the
      state is the one before the attempt apart from the cleared status. */
  lemma FailedAttemptThenRetry(st: PageState, auth: Authorization, now: nat, date: string)
    requires auth != Authorized
    ensures RetryPayment(ConfirmPayment(st, auth, now, date)) == RetryPayment(st)
  {
  }

  /** Buying a package twice credits its coins twice. */
  lemma TwoPurchasesAddUp(st: PageState, p: Package, now1: nat, now2: nat, date: string)
    ensures var s1 := ConfirmPayment(SelectPackage(st, p), Authorized, now1, date);
      var s2 := ConfirmPayment(SelectPackage(BuyAnother(s1), p), Authorized, now2, date);
      s2.coinBalance == st.coinBalance + 2 * p.coins && s2.receiptData.value.newBalance == s2.coinBalance
  {
  }
}

=== FILE: payment.dfy ===
/** Mock payment processor (paymentService): card validation, a fixed
    priority of decline reasons, card masking, a capped transaction log and
    refunds. `Math.random() < 0.1` is the `gatewayFailure` parameter, the
    generated transaction id and `new Date()` are `txId` and `now`. */
module Payment {
  import opened Wrappers
  import Seqs
  import Text

  datatype Account = Account(balance: real, status: string)

  /** The five mock accounts, keyed by their 16-digit card number. */
  const InitialAccounts: map<string, Account> := map[
    "1234567890123456" := Account(1000.0, "active"),
    "9876543210987654" := Account(500.0, "active"),
    "1111222233334444" := Account(2000.0, "active"),
    "5555666677778888" := Account(50.0, "active"),
    "0000111122223333" := Account(0.0, "blocked")
  ]

  /** `s.replace(/\D/g, '')`. */
  function DigitsOnly(s: string): (r: string)
    ensures Text.AllDigits(r) && |r| <= |s|
    ensures Text.AllDigits(s) ==> r == s
  {
    var r := Seqs.Filter(s, Text.IsDigit);
    if Text.AllDigits(s) then Seqs.FilterAll(s, Text.IsDigit); r else r
  }

  lemma DigitsOnlyOfDigits(s: string)
    requires Text.AllDigits(s)
    ensures DigitsOnly(s) == s
  {
    Seqs.FilterAll(s, Text.IsDigit);
  }

  /** `isValidCardNumber`: the raw length must be 13..19, and the digits
      must be a mock account's key or 13..19 digits long. */
  function IsValidCardNumber(accounts: map<string, Account>, cardNumber: string): (r: bool)
    ensures |cardNumber| == 0 ==> !r
    ensures |cardNumber| < 13 || |cardNumber| > 19 ==> !r
    ensures (13 <= |cardNumber| <= 19 && 13 <= |DigitsOnly(cardNumber)| <= 19) ==> r
  {
    if |cardNumber| == 0 || |cardNumber| < 13 || |cardNumber| > 19 then false
    else
      var clean := DigitsOnly(cardNumber);
      clean in accounts || (13 <= |clean| <= 19 && Text.AllDigits(clean))
  }

  /** The mock accounts' keys are 16-digit strings, so the account lookup in
      the validator accepts nothing the digit-count rule would reject. */
  lemma ValidCardIsDigitCount(cardNumber: string)
    ensures IsValidCardNumber(InitialAccounts, cardNumber)
      <==> 13 <= |cardNumber| <= 19 && 13 <= |DigitsOnly(cardNumber)| <= 19
  {
    assert forall k :: k in InitialAccounts ==> |k| == 16;
  }

  /** What `cardNumber.replace(/\d(?=\d{4})/g, '*')` masks: a digit followed
      by four more digits. */
  predicate MaskedByRegex(s: string, i: nat)
    requires i < |s|
  {
    Text.IsDigit(s[i]) && i + 4 < |s| && Text.AllDigits(s[i + 1..i + 5])
  }

  /** The masking as the source writes it. */
  function MaskAsWritten(s: string): (r: string)
    ensures |r| == |s|
    ensures forall i :: 0 <= i < |s| && i + 4 >= |s| ==> r[i] == s[i]
    ensures forall i :: 0 <= i < |s| ==> r[i] == s[i] || (r[i] == '*' && Text.IsDigit(s[i]))
  {
    seq(|s|, i requires 0 <= i < |s| => if MaskedByRegex(s, i) then '*' else s[i])
  }

  /** Digits strictly after position `i`. */
  function DigitsAfter(s: string, i: nat): nat
    requires i < |s|
  {
    |DigitsOnly(s[i + 1..])|
  }

  /** The masking the processor evidently intends: every digit is hidden
      except the last four digits, whatever separators the number carries. */
  function Mask(s: string): (r: string)
    ensures |r| == |s|
    ensures forall i :: 0 <= i < |s| ==> r[i] == s[i] || (r[i] == '*' && Text.IsDigit(s[i]))
    ensures forall i {:trigger DigitsAfter(s, i)} :: 0 <= i < |s| && Text.IsDigit(r[i]) ==> DigitsAfter(s, i) < 4
    ensures forall i {:trigger DigitsAfter(s, i)} :: 0 <= i < |s| && DigitsAfter(s, i) < 4 ==> r[i] == s[i]
    ensures forall i :: 0 <= i < |s| && i + 4 >= |s| ==> r[i] == s[i]
  {
    var r := seq(|s|, i requires 0 <= i < |s| => if Text.IsDigit(s[i]) && DigitsAfter(s, i) >= 4 then '*' else s[i]);
    assert forall i :: 0 <= i < |s| && i + 4 >= |s| ==> r[i] == s[i] by {
      forall i | 0 <= i < |s| && i + 4 >= |s|
        ensures r[i] == s[i]
      {
        assert |s[i + 1..]| < 4;
      }
    }
    r
  }

  /** On an unformatted number both maskings hide position `i` exactly
      when four more characters follow it. */
  lemma MaskAgreesAt(s: string, i: nat)
    requires Text.AllDigits(s) && i < |s|
    ensures Mask(s)[i] == MaskAsWritten(s)[i]
  {
    DigitsOnlyOfDigits(s[i + 1..]);
    assert DigitsAfter(s, i) == |s| - i - 1;
    if i + 4 < |s| {
      assert Text.AllDigits(s[i + 1..i + 5]);
      assert MaskedByRegex(s, i);
    } else {
      assert !MaskedByRegex(s, i);
    }
  }

  /** On an unformatted number the two maskings agree. */
  lemma MaskAgreesOnPlainDigits(s: string)
    requires Text.AllDigits(s)
    ensures Mask(s) == MaskAsWritten(s)
  {
    forall i | 0 <= i < |s|
      ensures Mask(s)[i] == MaskAsWritten(s)[i]
    {
      MaskAgreesAt(s, i);
    }
  }

  lemma DigitsOnlyConcat(a: string, b: string)
    ensures DigitsOnly(a + b) == DigitsOnly(a) + DigitsOnly(b)
  {
    Seqs.FilterConcat(a, b, Text.IsDigit);
  }

  /** Appending a separator and a group of digits appends just the group. */
  lemma DigitsOnlyAppendGroup(x: string, g: string)
    requires Text.AllDigits(g)
    ensures DigitsOnly(x + " " + g) == DigitsOnly(x) + g
  {
    assert DigitsOnly(" ") == [];
    DigitsOnlyConcat(x, " ");
    DigitsOnlyConcat(x + " ", g);
    DigitsOnlyOfDigits(g);
  }

  /** A card number written as four space-separated groups of digits
      validates and is looked up by its digits alone. */
  lemma DigitsOnlyGrouped(a: string, b: string, c: string, d: string)
    requires Text.AllDigits(a) && Text.AllDigits(b) && Text.AllDigits(c) && Text.AllDigits(d)
    ensures DigitsOnly(a + " " + b + " " + c + " " + d) == a + b + c + d
  {
    DigitsOnlyOfDigits(a);
    DigitsOnlyAppendGroup(a, b);
    DigitsOnlyAppendGroup(a + " " + b, c);
    DigitsOnlyAppendGroup(a + " " + b + " " + c, d);
  }

  /** `a b c d`: a card number written as four space-separated groups. */
  function Grouped(a: string, b: string, c: string, d: string): string {
    a + " " + b + " " + c + " " + d
  }

  predicate IsDigitGroup(g: string) {
    |g| == 4 && Text.AllDigits(g)
  }

  /** Any card number written as four groups of four digits is valid, yet
      the source's mask shows its first digit although fifteen digits
      follow it; the intended mask hides it. */
  lemma MaskAsWrittenLeaksGroupedNumber(accounts: map<string, Account>, a: string, b: string, c: string, d: string)
    requires IsDigitGroup(a) && IsDigitGroup(b) && IsDigitGroup(c) && IsDigitGroup(d)
    ensures IsValidCardNumber(accounts, Grouped(a, b, c, d))
    ensures MaskAsWritten(Grouped(a, b, c, d))[0] == a[0]
    ensures DigitsAfter(Grouped(a, b, c, d), 0) == 15
    ensures Mask(Grouped(a, b, c, d))[0] == '*'
  {
    var s := Grouped(a, b, c, d);
    DigitsOnlyGrouped(a, b, c, d);
    assert s[1..] == a[1..] + " " + b + " " + c + " " + d;
    DigitsOnlyGrouped(a[1..], b, c, d);
    assert s[1..5][3] == ' ';
  }

  datatype TxKind =
    | Charge(cardNumber: string, packageId: string)
    | Refund(originalTransactionId: string, reason: string)

  datatype TxStatus = Failed | Completed

  datatype Transaction = Transaction(
    id: string,
    kind: TxKind,
    amount: real,
    timestamp: int,
    status: TxStatus,
    errorMessage: Option<string>,
    refunded: bool,
    refundId: Option<string>)

  datatype PaymentState = PaymentState(accounts: map<string, Account>, history: seq<Transaction>)

  datatype PaymentRequest = PaymentRequest(amount: real, accountBalance: real, cardNumber: string, packageId: string)

  datatype PaymentResult = PaymentResult(success: bool, message: string, transactionId: string, transaction: Option<Transaction>)

  /** Transactions kept in the log. */
  const HistoryCap: nat := 100

  /** `saveTransaction`: prepend and keep the 100 newest. */
  function SaveTransaction(history: seq<Transaction>, t: Transaction): (r: seq<Transaction>)
    ensures |r| == if |history| < HistoryCap then |history| + 1 else HistoryCap
    ensures r[0] == t
    ensures |history| < HistoryCap ==> r == [t] + history
    ensures |history| >= HistoryCap ==> r == [t] + history[..HistoryCap - 1]
    ensures r[1..] == history[..|r| - 1]
  {
    Seqs.PrependCapped(history, t, HistoryCap)
  }

  datatype Decline = InvalidCard | InsufficientFunds | AccountBlocked | GatewayError

  /** The checks of `processPayment`, in their fixed priority: the first
      failing one is reported. */
  function Decide(validCard: bool, sufficientFunds: bool, blocked: bool, gatewayFailure: bool): (d: Option<Decline>)
    ensures d == Some(InvalidCard) <==> !validCard
    ensures d == Some(InsufficientFunds) <==> validCard && !sufficientFunds
    ensures d == Some(AccountBlocked) <==> validCard && sufficientFunds && blocked
    ensures d == Some(GatewayError) <==> validCard && sufficientFunds && !blocked && gatewayFailure
    ensures d == None <==> validCard && sufficientFunds && !blocked && !gatewayFailure
  {
    if !validCard then Some(InvalidCard)
    else if !sufficientFunds then Some(InsufficientFunds)
    else if blocked then Some(AccountBlocked)
    else if gatewayFailure then Some(GatewayError)
    else None
  }

  /** The message resolved to the page. */
  function DeclineMessage(d: Decline): string {
    match d
    case InvalidCard => "Invalid card number"
    case InsufficientFunds => "Insufficient funds in account"
    case AccountBlocked => "Account is blocked"
    case GatewayError => "Payment processing failed. Please try again."
  }

  /** The `errorMessage` stored on the failed transaction. */
  function DeclineLogMessage(d: Decline): string {
    match d
    case InvalidCard => "Invalid card number"
    case InsufficientFunds => "Insufficient funds"
    case AccountBlocked => "Account blocked"
    case GatewayError => "Payment gateway error"
  }

  /** The mock account under `key` exists and is blocked. */
  predicate Blocked(accounts: map<string, Account>, key: string) {
    key in accounts && accounts[key].status == "blocked"
  }

  /** The decision chain and its bookkeeping, given the validator's
      verdict, the masked number to log and the key under which the mock
      account is looked up. */
  function Settle(st: PaymentState, req: PaymentRequest, txId: string, now: int,
                  valid: bool, masked: string, accountKey: string, gatewayFailure: bool)
    : (r: (PaymentState, PaymentResult))
    ensures r.1.success <==> valid && req.accountBalance >= req.amount && !Blocked(st.accounts, accountKey) && !gatewayFailure
    ensures !valid ==> r.1.message == "Invalid card number"
    ensures valid && req.accountBalance < req.amount ==> r.1.message == "Insufficient funds in account"
    ensures valid && req.accountBalance >= req.amount && Blocked(st.accounts, accountKey) ==>
      r.1.message == "Account is blocked"
    ensures valid && req.accountBalance >= req.amount && !Blocked(st.accounts, accountKey) && gatewayFailure ==>
      r.1.message == "Payment processing failed. Please try again."
    ensures r.1.success ==> r.1.message == "Payment processed successfully"
    ensures r.1.transactionId == txId
    ensures |r.0.history| == (if |st.history| < HistoryCap then |st.history| + 1 else HistoryCap)
    ensures r.0.history[1..] == st.history[..|r.0.history| - 1]
    ensures r.0.history[0].id == txId && r.0.history[0].amount == req.amount && r.0.history[0].timestamp == now
    ensures r.0.history[0].kind == Charge(masked, req.packageId)
    ensures r.0.history[0].status == Completed <==> r.1.success
    ensures r.1.success ==> r.1.transaction == Some(r.0.history[0])
    ensures r.1.transaction == (if r.1.success then Some(r.0.history[0]) else None)
    ensures r.0.history[0].timestamp == now && !r.0.history[0].refunded && r.0.history[0].refundId.None?
    ensures r.1.success ==> r.0.history[0].errorMessage.None?
    ensures !valid ==> r.0.history[0].errorMessage == Some("Invalid card number")
    ensures valid && req.accountBalance < req.amount ==> r.0.history[0].errorMessage == Some("Insufficient funds")
    ensures valid && req.accountBalance >= req.amount && Blocked(st.accounts, accountKey) ==>
      r.0.history[0].errorMessage == Some("Account blocked")
    ensures valid && req.accountBalance >= req.amount && !Blocked(st.accounts, accountKey) && gatewayFailure ==>
      r.0.history[0].errorMessage == Some("Payment gateway error")
    ensures r.1.success && accountKey in st.accounts ==>
      r.0.accounts == st.accounts[accountKey := st.accounts[accountKey].(balance := st.accounts[accountKey].balance - req.amount)]
    ensures !r.1.success || accountKey !in st.accounts ==> r.0.accounts == st.accounts
  {
    var blocked := Blocked(st.accounts, accountKey);
    var d := Decide(valid, req.accountBalance >= req.amount, blocked, gatewayFailure);
    match d
    case Some(why) =>
      var tx := Transaction(txId, Charge(masked, req.packageId), req.amount, now, Failed,
                            Some(DeclineLogMessage(why)), false, None);
      (st.(history := SaveTransaction(st.history, tx)),
       PaymentResult(false, DeclineMessage(why), txId, None))
    case None =>
      var tx := Transaction(txId, Charge(masked, req.packageId), req.amount, now, Completed,
                            None, false, None);
      var accounts :=
        if accountKey in st.accounts
        then st.accounts[accountKey := st.accounts[accountKey].(balance := st.accounts[accountKey].balance - req.amount)]
        else st.accounts;
      (PaymentState(accounts, SaveTransaction(st.history, tx)),
       PaymentResult(true, "Payment processed successfully", txId, Some(tx)))
  }

  /** `processPayment` as the source writes it: the number is masked by the
      regex and the mock account is looked up under the RAW number, while the
      validator looks at its digits. */
  function ProcessPaymentAsWritten(st: PaymentState, req: PaymentRequest, txId: string, now: int,
                                   gatewayFailure: bool): (r: (PaymentState, PaymentResult))
    ensures r.1.success <==>
      IsValidCardNumber(st.accounts, req.cardNumber) && req.accountBalance >= req.amount
      && !Blocked(st.accounts, req.cardNumber) && !gatewayFailure
    ensures !IsValidCardNumber(st.accounts, req.cardNumber) ==> r.1.message == "Invalid card number"
    ensures IsValidCardNumber(st.accounts, req.cardNumber) && req.accountBalance < req.amount ==>
      r.1.message == "Insufficient funds in account"
    ensures IsValidCardNumber(st.accounts, req.cardNumber) && req.accountBalance >= req.amount
            && Blocked(st.accounts, req.cardNumber) ==>
      r.1.message == "Account is blocked"
    ensures IsValidCardNumber(st.accounts, req.cardNumber) && req.accountBalance >= req.amount
            && !Blocked(st.accounts, req.cardNumber) && gatewayFailure ==>
      r.1.message == "Payment processing failed. Please try again."
    ensures r.1.success ==> r.1.message == "Payment processed successfully"
    ensures r.1.transactionId == txId
    ensures |r.0.history| == (if |st.history| < HistoryCap then |st.history| + 1 else HistoryCap)
    ensures r.0.history[1..] == st.history[..|r.0.history| - 1]
    ensures r.0.history[0].id == txId && r.0.history[0].amount == req.amount
    ensures r.0.history[0].status == Completed <==> r.1.success
    ensures r.0.history[0].kind == Charge(MaskAsWritten(req.cardNumber), req.packageId)
    ensures r.1.transaction == (if r.1.success then Some(r.0.history[0]) else None)
    ensures r.0.history[0].timestamp == now && !r.0.history[0].refunded && r.0.history[0].refundId.None?
    ensures r.1.success ==> r.0.history[0].errorMessage.None?
    ensures !IsValidCardNumber(st.accounts, req.cardNumber) ==> r.0.history[0].errorMessage == Some("Invalid card number")
    ensures IsValidCardNumber(st.accounts, req.cardNumber) && req.accountBalance < req.amount ==> r.0.history[0].errorMessage == Some("Insufficient funds")
    ensures IsValidCardNumber(st.accounts, req.cardNumber) && req.accountBalance >= req.amount && Blocked(st.accounts, req.cardNumber) ==>
      r.0.history[0].errorMessage == Some("Account blocked")
    ensures IsValidCardNumber(st.accounts, req.cardNumber) && req.accountBalance >= req.amount && !Blocked(st.accounts, req.cardNumber) && gatewayFailure ==>
      r.0.history[0].errorMessage == Some("Payment gateway error")
    ensures var key := req.cardNumber;
      r.1.success && key in st.accounts ==>
        r.0.accounts == st.accounts[key := st.accounts[key].(balance := st.accounts[key].balance - req.amount)]
    ensures !r.1.success || req.cardNumber !in st.accounts ==> r.0.accounts == st.accounts
  {
    Settle(st, req, txId, now, IsValidCardNumber(st.accounts, req.cardNumber), MaskAsWritten(req.cardNumber),
           req.cardNumber, gatewayFailure)
  }

  /** Every mock account is keyed by a string of digits. */
  predicate DigitKeys(accounts: map<string, Account>) {
    forall k :: k in accounts ==> Text.AllDigits(k)
  }

  /** The mock accounts are digit-keyed and one of them is blocked. */
  lemma InitialAccountsShape()
    ensures DigitKeys(InitialAccounts)
    ensures "0000111122223333" in InitialAccounts && InitialAccounts["0000111122223333"].status == "blocked"
  {
    assert InitialAccounts.Keys == {"1234567890123456", "9876543210987654", "1111222233334444",
                                    "5555666677778888", "0000111122223333"};
    assert Text.AllDigits("1234567890123456");
    assert Text.AllDigits("9876543210987654");
    assert Text.AllDigits("1111222233334444");
    assert Text.AllDigits("5555666677778888");
    assert Text.AllDigits("0000111122223333");
  }

  /** A blocked account paid with its number written in groups goes through
      the source's processor, because the block is looked up under the raw
      text; the corrected processor declines it as blocked. */
  lemma BlockedAccountBypassAsWritten(st: PaymentState, a: string, b: string, c: string, d: string,
                                      amount: real, accountBalance: real, packageId: string,
                                      txId: string, now: int)
    requires IsDigitGroup(a) && IsDigitGroup(b) && IsDigitGroup(c) && IsDigitGroup(d)
    requires DigitKeys(st.accounts)
    requires a + b + c + d in st.accounts && st.accounts[a + b + c + d].status == "blocked"
    requires accountBalance >= amount
    ensures var req := PaymentRequest(amount, accountBalance, Grouped(a, b, c, d), packageId);
      && ProcessPaymentAsWritten(st, req, txId, now, false).1.success
      && !ProcessPayment(st, req, txId, now, false).1.success
      && ProcessPayment(st, req, txId, now, false).1.message == "Account is blocked"
  {
    var s := Grouped(a, b, c, d);
    DigitsOnlyGrouped(a, b, c, d);
    assert IsValidCardNumber(st.accounts, s);
    assert s[4] == ' ';
    assert s !in st.accounts;
  }

  /** `processPayment` with the account looked up under the digits the
      validator accepted and the number masked down to its last four digits.
      Every call logs exactly one transaction; it completes only for a valid
      card with enough funds on a non-blocked account, and only then is the
      mock account debited. */
  function ProcessPayment(st: PaymentState, req: PaymentRequest, txId: string, now: int,
                          gatewayFailure: bool): (r: (PaymentState, PaymentResult))
    ensures r.1.success <==>
      IsValidCardNumber(st.accounts, req.cardNumber) && req.accountBalance >= req.amount
      && !Blocked(st.accounts, DigitsOnly(req.cardNumber)) && !gatewayFailure
    ensures !IsValidCardNumber(st.accounts, req.cardNumber) ==> r.1.message == "Invalid card number"
    ensures IsValidCardNumber(st.accounts, req.cardNumber) && req.accountBalance < req.amount ==>
      r.1.message == "Insufficient funds in account"
    ensures IsValidCardNumber(st.accounts, req.cardNumber) && req.accountBalance >= req.amount
            && Blocked(st.accounts, DigitsOnly(req.cardNumber)) ==>
      r.1.message == "Account is blocked"
    ensures IsValidCardNumber(st.accounts, req.cardNumber) && req.accountBalance >= req.amount
            && !Blocked(st.accounts, DigitsOnly(req.cardNumber)) && gatewayFailure ==>
      r.1.message == "Payment processing failed. Please try again."
    ensures r.1.success ==> r.1.message == "Payment processed successfully"
    ensures r.1.transactionId == txId
    ensures |r.0.history| == (if |st.history| < HistoryCap then |st.history| + 1 else HistoryCap)
    ensures r.0.history[1..] == st.history[..|r.0.history| - 1]
    ensures r.0.history[0].id == txId && r.0.history[0].amount == req.amount
    ensures r.0.history[0].status == Completed <==> r.1.success
    ensures r.0.history[0].kind == Charge(Mask(req.cardNumber), req.packageId)
    ensures r.1.transaction == (if r.1.success then Some(r.0.history[0]) else None)
    ensures r.0.history[0].timestamp == now && !r.0.history[0].refunded && r.0.history[0].refundId.None?
    ensures r.1.success ==> r.0.history[0].errorMessage.None?
    ensures !IsValidCardNumber(st.accounts, req.cardNumber) ==> r.0.history[0].errorMessage == Some("Invalid card number")
    ensures IsValidCardNumber(st.accounts, req.cardNumber) && req.accountBalance < req.amount ==> r.0.history[0].errorMessage == Some("Insufficient funds")
    ensures IsValidCardNumber(st.accounts, req.cardNumber) && req.accountBalance >= req.amount && Blocked(st.accounts, DigitsOnly(req.cardNumber)) ==>
      r.0.history[0].errorMessage == Some("Account blocked")
    ensures IsValidCardNumber(st.accounts, req.cardNumber) && req.accountBalance >= req.amount && !Blocked(st.accounts, DigitsOnly(req.cardNumber)) && gatewayFailure ==>
      r.0.history[0].errorMessage == Some("Payment gateway error")
    ensures var key := DigitsOnly(req.cardNumber);
      r.1.success && key in st.accounts ==>
        r.0.accounts == st.accounts[key := st.accounts[key].(balance := st.accounts[key].balance - req.amount)]
    ensures !r.1.success || DigitsOnly(req.cardNumber) !in st.accounts ==> r.0.accounts == st.accounts
  {
    Settle(st, req, txId, now, IsValidCardNumber(st.accounts, req.cardNumber), Mask(req.cardNumber),
           DigitsOnly(req.cardNumber), gatewayFailure)
  }

  /** A payment touches at most the account under the card's digits: the
      set of accounts stays the same and every other account is unchanged. */
  lemma PaymentTouchesOneAccount(st: PaymentState, req: PaymentRequest, txId: string, now: int,
                                 gatewayFailure: bool)
    ensures var r := ProcessPayment(st, req, txId, now, gatewayFailure);
      && r.0.accounts.Keys == st.accounts.Keys
      && forall k :: k in st.accounts && k != DigitsOnly(req.cardNumber) ==>
           k in r.0.accounts && r.0.accounts[k] == st.accounts[k]
  {
    var r := ProcessPayment(st, req, txId, now, gatewayFailure);
    var key := DigitsOnly(req.cardNumber);
    if r.1.success && key in st.accounts {
      UpdateTouchesOneKey(st.accounts, key, st.accounts[key].(balance := st.accounts[key].balance - req.amount));
    }
  }

  /** Updating an existing key keeps the key set and every other entry. */
  lemma UpdateTouchesOneKey(accounts: map<string, Account>, key: string, a: Account)
    requires key in accounts
    ensures accounts[key := a].Keys == accounts.Keys
    ensures forall k :: k in accounts && k != key ==> k in accounts[key := a] && accounts[key := a][k] == accounts[k]
  {
  }

  /** `findIndex(t => t.id === transactionId)`: the first logged position
      holding that id. */
  function TxIndex(history: seq<Transaction>, transactionId: string): (r: Option<nat>)
    ensures r.Some? ==> r.value < |history| && history[r.value].id == transactionId
    ensures r.Some? ==> forall k :: 0 <= k < r.value ==> history[k].id != transactionId
    ensures r.None? <==> forall k :: 0 <= k < |history| ==> history[k].id != transactionId
  {
    Seqs.FindIndex(history, (t: Transaction) => t.id == transactionId)
  }

  /** `getTransaction`: the first logged transaction with that id. */
  function GetTransaction(history: seq<Transaction>, transactionId: string): (r: Result<Transaction>)
    ensures r.Ok? ==> r.value in history && r.value.id == transactionId
    ensures r.Ok? ==> exists i :: 0 <= i < |history| && history[i] == r.value
                       && forall k :: 0 <= k < i ==> history[k].id != transactionId
    ensures r.Err? <==> forall i :: 0 <= i < |history| ==> history[i].id != transactionId
    ensures r.Err? ==> r.error == "Transaction not found"
  {
    match TxIndex(history, transactionId)
    case Some(i) => Ok(history[i])
    case None => Err("Transaction not found")
  }

  /** The refund record logged for `original`. */
  function RefundOf(original: Transaction, transactionId: string, refundId: string, reason: string, now: int): Transaction {
    Transaction(refundId, Refund(transactionId, reason), original.amount, now, Completed, None, false, None)
  }

  /** `original` with its `refunded` flag and `refundId` set. */
  function MarkRefunded(original: Transaction, refundId: string): Transaction {
    original.(refunded := true, refundId := Some(refundId))
  }

  /** The bookkeeping of a refund of `history[j]` as the source writes it:
      the refund is logged, the original is marked in place, and then the
      same marked original is logged again, so it stands both at the head
      and at its old place. */
  function RecordRefundAsWritten(history: seq<Transaction>, j: nat, transactionId: string,
                                 refundId: string, reason: string, now: int)
    : (r: (seq<Transaction>, Transaction))
    requires j < |history|
    ensures r.1 == RefundOf(history[j], transactionId, refundId, reason, now)
    ensures |r.0| == if |history| + 2 <= HistoryCap then |history| + 2 else HistoryCap
    ensures r.0[0] == MarkRefunded(history[j], refundId)
    ensures r.0[1] == r.1
    ensures r.0[2..] == history[j := MarkRefunded(history[j], refundId)][..|r.0| - 2]
  {
    var refund := RefundOf(history[j], transactionId, refundId, reason, now);
    var original := MarkRefunded(history[j], refundId);
    var marked := history[j := original];
    (SaveTransaction(SaveTransaction(marked, refund), original), refund)
  }

  /** The bookkeeping the refund evidently intends: the original is marked
      in place and only the refund is logged. */
  function RecordRefund(history: seq<Transaction>, j: nat, transactionId: string,
                        refundId: string, reason: string, now: int)
    : (r: (seq<Transaction>, Transaction))
    requires j < |history|
    ensures r.1 == RefundOf(history[j], transactionId, refundId, reason, now)
    ensures |r.0| == if |history| < HistoryCap then |history| + 1 else HistoryCap
    ensures r.0[0] == r.1
    ensures r.0[1..] == history[j := MarkRefunded(history[j], refundId)][..|r.0| - 1]
  {
    var refund := RefundOf(history[j], transactionId, refundId, reason, now);
    (SaveTransaction(history[j := MarkRefunded(history[j], refundId)], refund), refund)
  }

  /** `processRefund` as the source writes it: only existence and the
      'completed' status are checked, and the marked original is logged a
      second time. */
  function ProcessRefundAsWritten(history: seq<Transaction>, transactionId: string,
                                  refundId: string, reason: string, now: int)
    : (r: Result<(seq<Transaction>, Transaction)>)
    ensures r.Err? <==> GetTransaction(history, transactionId).Err? || GetTransaction(history, transactionId).value.status != Completed
    ensures GetTransaction(history, transactionId).Err? ==> r == Err("Transaction not found")
    ensures GetTransaction(history, transactionId).Ok? && GetTransaction(history, transactionId).value.status != Completed ==>
      r == Err("Cannot refund non-completed transaction")
    ensures r.Ok? ==> var j := TxIndex(history, transactionId).value;
      var marked := MarkRefunded(history[j], refundId);
      && r.value.1 == RefundOf(history[j], transactionId, refundId, reason, now)
      && |r.value.0| == (if |history| + 2 <= HistoryCap then |history| + 2 else HistoryCap)
      && r.value.0[0] == marked
      && r.value.0[1] == r.value.1
      && r.value.0[2..] == history[j := marked][..|r.value.0| - 2]
  {
    match TxIndex(history, transactionId)
    case None => Err("Transaction not found")
    case Some(j) =>
      if history[j].status != Completed then Err("Cannot refund non-completed transaction")
      else Ok(RecordRefundAsWritten(history, j, transactionId, refundId, reason, now))
  }

  /** The source refunds the same transaction again: after a refund the
      marked original heads the log, still 'completed'. */
  lemma DoubleRefundAsWritten(history: seq<Transaction>, transactionId: string,
                              refundId: string, reason: string, now: int,
                              refundId2: string, reason2: string, now2: int)
    requires ProcessRefundAsWritten(history, transactionId, refundId, reason, now).Ok?
    ensures var h := ProcessRefundAsWritten(history, transactionId, refundId, reason, now).value.0;
      ProcessRefundAsWritten(h, transactionId, refundId2, reason2, now2).Ok?
  {
  }

  /** `processRefund` with the evidently intended behaviour: a transaction
      already marked as refunded is not refunded again, and the marked
      original keeps its single place in the log. */
  function ProcessRefund(history: seq<Transaction>, transactionId: string,
                         refundId: string, reason: string, now: int)
    : (r: Result<(seq<Transaction>, Transaction)>)
    ensures var found := GetTransaction(history, transactionId);
      r.Err? <==> found.Err? || found.value.status != Completed || found.value.refunded
    ensures GetTransaction(history, transactionId).Err? ==> r == Err("Transaction not found")
    ensures GetTransaction(history, transactionId).Ok? && GetTransaction(history, transactionId).value.status != Completed ==>
      r == Err("Cannot refund non-completed transaction")
    ensures GetTransaction(history, transactionId).Ok? && GetTransaction(history, transactionId).value.status == Completed
            && GetTransaction(history, transactionId).value.refunded ==>
      r == Err("Transaction already refunded")
    ensures r.Ok? ==> var j := TxIndex(history, transactionId).value;
      && r.value.1 == RefundOf(history[j], transactionId, refundId, reason, now)
      && |r.value.0| == (if |history| < HistoryCap then |history| + 1 else HistoryCap)
      && r.value.0[0] == r.value.1
      && r.value.0[1..] == history[j := MarkRefunded(history[j], refundId)][..|r.value.0| - 1]
  {
    match TxIndex(history, transactionId)
    case None => Err("Transaction not found")
    case Some(j) =>
      if history[j].status != Completed then Err("Cannot refund non-completed transaction")
      else if history[j].refunded then Err("Transaction already refunded")
      else Ok(RecordRefund(history, j, transactionId, refundId, reason, now))
  }

  /** With the guard, a second refund of the same transaction is rejected,
      given that the refund's generated id differs from the original's. */
  lemma NoDoubleRefund(history: seq<Transaction>, transactionId: string,
                       refundId: string, reason: string, now: int,
                       refundId2: string, reason2: string, now2: int)
    requires ProcessRefund(history, transactionId, refundId, reason, now).Ok?
    requires refundId != transactionId
    ensures var h := ProcessRefund(history, transactionId, refundId, reason, now).value.0;
      ProcessRefund(h, transactionId, refundId2, reason2, now2).Err?
  {
    var h := ProcessRefund(history, transactionId, refundId, reason, now).value.0;
    var j := TxIndex(history, transactionId).value;
    OriginalFoundAfterRefund(history, j, transactionId, refundId, h);
  }

  /** In a log that is a refund followed by the old log with the original
      marked in place, the first entry with the original's id is the marked
      original, unless the cap dropped it. */
  lemma OriginalFoundAfterRefund(history: seq<Transaction>, j: nat, transactionId: string, refundId: string,
                                 h: seq<Transaction>)
    requires TxIndex(history, transactionId) == Some(j)
    requires |h| >= 1 && h[0].id == refundId && refundId != transactionId
    requires |h| - 1 <= |history|
    requires h[1..] == history[j := MarkRefunded(history[j], refundId)][..|h| - 1]
    ensures j + 1 < |h| ==> TxIndex(h, transactionId) == Some(j + 1) && h[j + 1] == MarkRefunded(history[j], refundId)
    ensures j + 1 >= |h| ==> TxIndex(h, transactionId).None?
  {
    assert forall k :: 1 <= k < |h| ==> h[k] == h[1..][k - 1];
    if j + 1 < |h| {
      assert h[j + 1].id == transactionId;
      assert forall k :: 0 <= k < j + 1 ==> h[k].id != transactionId;
    } else {
      assert forall k :: 0 <= k < |h| ==> h[k].id != transactionId;
    }
  }


  function SumAmounts(ts: seq<Transaction>): real {
    if |ts| == 0 then 0.0 else ts[0].amount + SumAmounts(ts[1..])
  }

  predicate IsSale(t: Transaction) {
    t.status == Completed && !t.kind.Refund?
  }

  predicate IsFailure(t: Transaction) {
    t.status == Failed
  }

  predicate IsRefund(t: Transaction) {
    t.kind.Refund?
  }

  datatype PaymentStatistics = PaymentStatistics(
    totalTransactions: nat,
    completedTransactions: nat,
    failedTransactions: nat,
    totalRevenue: real,
    totalRefunds: real,
    recentTransactions: seq<Transaction>)

  /** `getPaymentStatistics`, without the success rate. */
  function GetPaymentStatistics(history: seq<Transaction>): (s: PaymentStatistics)
    ensures s.totalTransactions == |history|
    ensures s.completedTransactions == |Seqs.Filter(history, IsSale)|
    ensures s.failedTransactions == |Seqs.Filter(history, IsFailure)|
    ensures s.totalRevenue == SumAmounts(Seqs.Filter(history, IsSale))
    ensures s.totalRefunds == SumAmounts(Seqs.Filter(history, IsRefund))
    ensures s.completedTransactions + s.failedTransactions <= s.totalTransactions
    ensures s.recentTransactions == history[..if |history| < 10 then |history| else 10]
  {
    var sales := Seqs.Filter(history, IsSale);
    var failures := Seqs.Filter(history, IsFailure);
    var refunds := Seqs.Filter(history, IsRefund);
    Seqs.FilterDisjoint3(history, IsSale, IsFailure, (t: Transaction) => false);
    PaymentStatistics(|history|, |sales|, |failures|, SumAmounts(sales), SumAmounts(refunds),
      history[..if |history| < 10 then |history| else 10])
  }

  /** Refunds are only ever logged as completed. */
  predicate RefundsCompleted(history: seq<Transaction>) {
    forall i :: 0 <= i < |history| && history[i].kind.Refund? ==> history[i].status == Completed
  }

  /** In a log whose refunds are completed, sales, failures and refunds
      account for every entry. */
  lemma StatisticsPartitionLog(history: seq<Transaction>)
    requires RefundsCompleted(history)
    ensures GetPaymentStatistics(history).completedTransactions + GetPaymentStatistics(history).failedTransactions
            + |Seqs.Filter(history, IsRefund)| == |history|
  {
    Seqs.FilterPartition3(history, IsSale, IsFailure, IsRefund);
  }

  /** The sums count each transaction's amount once: revenue over sales,
      refunds over refund records. */
  lemma {:induction false} RevenueSplitsOverLog(a: seq<Transaction>, b: seq<Transaction>)
    ensures GetPaymentStatistics(a + b).totalRevenue == GetPaymentStatistics(a).totalRevenue + GetPaymentStatistics(b).totalRevenue
  {
    Seqs.FilterConcat(a, b, IsSale);
    SumAmountsConcat(Seqs.Filter(a, IsSale), Seqs.Filter(b, IsSale));
  }

  lemma {:induction false} SumAmountsConcat(a: seq<Transaction>, b: seq<Transaction>)
    ensures SumAmounts(a + b) == SumAmounts(a) + SumAmounts(b)
  {
    if |a| == 0 {
      assert a + b == b;
    } else {
      assert (a + b)[1..] == a[1..] + b;
      SumAmountsConcat(a[1..], b);
    }
  }

  /** Replacing one entry by one that a filter treats alike, with the same
      amount, changes neither the filter's size nor its sum. */
  lemma MarkKeepsFilter(s: seq<Transaction>, j: nat, x: Transaction, p: Transaction -> bool)
    requires j < |s| && p(x) == p(s[j]) && x.amount == s[j].amount
    ensures |Seqs.Filter(s[j := x], p)| == |Seqs.Filter(s, p)|
    ensures SumAmounts(Seqs.Filter(s[j := x], p)) == SumAmounts(Seqs.Filter(s, p))
  {
    assert s == s[..j] + [s[j]] + s[j + 1..];
    assert s[j := x] == s[..j] + [x] + s[j + 1..];
    Seqs.FilterConcat(s[..j] + [s[j]], s[j + 1..], p);
    Seqs.FilterConcat(s[..j], [s[j]], p);
    Seqs.FilterConcat(s[..j] + [x], s[j + 1..], p);
    Seqs.FilterConcat(s[..j], [x], p);
    var pre := Seqs.Filter(s[..j], p);
    var post := Seqs.Filter(s[j + 1..], p);
    SumAmountsConcat(pre + Seqs.Filter([s[j]], p), post);
    SumAmountsConcat(pre, Seqs.Filter([s[j]], p));
    SumAmountsConcat(pre + Seqs.Filter([x], p), post);
    SumAmountsConcat(pre, Seqs.Filter([x], p));
  }

  /** The statistics of a log with two entries put in front of it. */
  lemma StatisticsOfTwoMore(a: Transaction, b: Transaction, rest: seq<Transaction>, p: Transaction -> bool)
    ensures Seqs.Filter([a, b] + rest, p)
         == (if p(a) then [a] else []) + (if p(b) then [b] else []) + Seqs.Filter(rest, p)
  {
    assert [a, b] == [a] + [b];
    Seqs.FilterConcat([a, b], rest, p);
    Seqs.FilterConcat([a], [b], p);
    assert Seqs.Filter([a], p) == if p(a) then [a] else [];
    assert Seqs.Filter([b], p) == if p(b) then [b] else [];
  }

  /** In the source, refunding a sale while the log has room leaves the
      marked sale in the log twice: the completed count grows by one and
      the revenue by the sale's amount, on top of the logged refund. */
  lemma RefundCountsSaleTwiceAsWritten(history: seq<Transaction>, transactionId: string,
                                       refundId: string, reason: string, now: int)
    requires GetTransaction(history, transactionId).Ok?
    requires GetTransaction(history, transactionId).value.status == Completed
    requires GetTransaction(history, transactionId).value.kind.Charge?
    requires |history| + 2 <= HistoryCap
    ensures var h := ProcessRefundAsWritten(history, transactionId, refundId, reason, now).value.0;
      var sale := GetTransaction(history, transactionId).value;
      && GetPaymentStatistics(h).completedTransactions == GetPaymentStatistics(history).completedTransactions + 1
      && GetPaymentStatistics(h).totalRevenue == GetPaymentStatistics(history).totalRevenue + sale.amount
  {
    var h := ProcessRefundAsWritten(history, transactionId, refundId, reason, now).value.0;
    var j := TxIndex(history, transactionId).value;
    var m := MarkRefunded(history[j], refundId);
    assert h == [h[0], h[1]] + history[j := m];
    StatisticsOfTwoMore(h[0], h[1], history[j := m], IsSale);
    MarkKeepsFilter(history, j, m, IsSale);
    SumAmountsConcat([m], Seqs.Filter(history[j := m], IsSale));
  }

  /** With the intended bookkeeping a refund, while the log has room,
      leaves the sales count and the revenue alone and adds the refunded
      amount to the refund total. */
  lemma RefundKeepsRevenue(history: seq<Transaction>, transactionId: string,
                           refundId: string, reason: string, now: int)
    requires GetTransaction(history, transactionId).Ok?
    requires GetTransaction(history, transactionId).value.status == Completed
    requires !GetTransaction(history, transactionId).value.refunded
    requires |history| < HistoryCap
    ensures var h := ProcessRefund(history, transactionId, refundId, reason, now).value.0;
      var original := GetTransaction(history, transactionId).value;
      && GetPaymentStatistics(h).completedTransactions == GetPaymentStatistics(history).completedTransactions
      && GetPaymentStatistics(h).totalRevenue == GetPaymentStatistics(history).totalRevenue
      && GetPaymentStatistics(h).totalRefunds == GetPaymentStatistics(history).totalRefunds + original.amount
  {
    var h := ProcessRefund(history, transactionId, refundId, reason, now).value.0;
    var j := TxIndex(history, transactionId).value;
    var m := MarkRefunded(history[j], refundId);
    assert h == [h[0]] + history[j := m];
    assert h[1..] == history[j := m];
    MarkKeepsFilter(history, j, m, IsSale);
    MarkKeepsFilter(history, j, m, IsRefund);
    SumAmountsConcat([h[0]], Seqs.Filter(history[j := m], IsRefund));
  }
}

=== FILE: pricing.dfy ===
/** Waste pricing (coinCalculationService): a factory picks a per-kilogram
    strategy from a case-insensitive waste-type tag, and the charge is the
    weight times the strategy's rate, rounded up to whole coins. Unknown
    tags fall back to the organic rate of 2. Weights and rates are exact
    rationals here. */
module Pricing {
  import opened Wrappers
  import Text

  /** `Math.ceil`: the least integer at or above `x`. */
  function Ceil(x: real): (r: int)
    ensures (r - 1) as real < x <= r as real
  {
    -((-x).Floor)
  }

  /** The five concrete strategy classes. */
  datatype Strategy = Organic | Plastic | Paper | Glass | Metal

  /** The multiplier hard-wired into each strategy's `calculateCoins`. */
  function StrategyRate(s: Strategy): real {
    match s
    case Organic => 2.0
    case Plastic => 3.0
    case Paper => 1.5
    case Glass => 2.5
    case Metal => 4.0
  }

  /** Rate used when the factory rejects the tag. */
  const DefaultRate: real := 2.0

  /** `getSupportedWasteTypes()`. */
  const SupportedWasteTypes: seq<string> := ["organic", "plastic", "paper", "glass", "metal"]

  /** `WasteCalculationStrategyFactory.createStrategy`: switch on the
      lower-cased tag, throw for anything else. */
  function CreateStrategy(wasteType: string): (r: Result<Strategy>)
    ensures r.Ok? <==> Text.Lower(wasteType) in SupportedWasteTypes
    ensures r.Err? ==> r.error == "Unknown waste type: " + wasteType
  {
    var t := Text.Lower(wasteType);
    if t == "organic" then Ok(Organic)
    else if t == "plastic" then Ok(Plastic)
    else if t == "paper" then Ok(Paper)
    else if t == "glass" then Ok(Glass)
    else if t == "metal" then Ok(Metal)
    else Err("Unknown waste type: " + wasteType)
  }

  /** Every supported tag is accepted by the factory, under its own strategy. */
  lemma SupportedTypesAccepted()
    ensures CreateStrategy("organic") == Ok(Organic)
    ensures CreateStrategy("plastic") == Ok(Plastic)
    ensures CreateStrategy("paper") == Ok(Paper)
    ensures CreateStrategy("glass") == Ok(Glass)
    ensures CreateStrategy("metal") == Ok(Metal)
    ensures forall i :: 0 <= i < |SupportedWasteTypes| ==> CreateStrategy(SupportedWasteTypes[i]).Ok?
  {
    assert Text.Lower("organic") == "organic";
    assert Text.Lower("plastic") == "plastic";
    assert Text.Lower("paper") == "paper";
    assert Text.Lower("glass") == "glass";
    assert Text.Lower("metal") == "metal";
  }

  datatype TypeInfo = TypeInfo(rate: real, description: string)

  /** `getWasteTypeInfo()`: the rate table as published to the pages. */
  const WasteTypeInfo: map<string, TypeInfo> := map[
    "organic" := TypeInfo(2.0, "Biodegradable waste"),
    "plastic" := TypeInfo(3.0, "Recyclable plastic materials"),
    "paper" := TypeInfo(1.5, "Paper and cardboard"),
    "glass" := TypeInfo(2.5, "Glass containers and materials"),
    "metal" := TypeInfo(4.0, "Metal cans and materials")
  ]

  /** `CoinCalculationService.calculateCoins`: the strategy's charge, or
      `ceil(weight * 2)` when the factory throws. */
  function CalculateCoins(wasteType: string, weight: real): (r: int)
    ensures var k := Text.Lower(wasteType);
      var rate := if k in WasteTypeInfo then WasteTypeInfo[k].rate else DefaultRate;
      (r - 1) as real < weight * rate <= r as real
  {
    match CreateStrategy(wasteType)
    case Ok(s) => Ceil(weight * StrategyRate(s))
    case Err(_) => Ceil(weight * DefaultRate)
  }

  /** A tag the factory accepts is charged at its strategy's rate. */
  lemma StrategyCharge(wasteType: string, s: Strategy, weight: real)
    requires CreateStrategy(wasteType) == Ok(s)
    ensures CalculateCoins(wasteType, weight) == Ceil(weight * StrategyRate(s))
  {
  }

  /** The five published rates, as charged. */
  lemma PublishedRates(weight: real)
    ensures CalculateCoins("organic", weight) == Ceil(weight * 2.0)
    ensures CalculateCoins("plastic", weight) == Ceil(weight * 3.0)
    ensures CalculateCoins("paper", weight) == Ceil(weight * 1.5)
    ensures CalculateCoins("glass", weight) == Ceil(weight * 2.5)
    ensures CalculateCoins("metal", weight) == Ceil(weight * 4.0)
  {
    SupportedTypesAccepted();
    StrategyCharge("organic", Organic, weight);
    StrategyCharge("plastic", Plastic, weight);
    StrategyCharge("paper", Paper, weight);
    StrategyCharge("glass", Glass, weight);
    StrategyCharge("metal", Metal, weight);
  }

  /** Matching is case-insensitive. */
  lemma CaseInsensitive(wasteType: string, weight: real)
    ensures CalculateCoins(wasteType, weight) == CalculateCoins(Text.Lower(wasteType), weight)
  {
    Text.LowerIdempotent(wasteType);
  }

  /** An unknown tag does not fail: it is charged at the default rate. */
  lemma UnknownTypeFallsBack(wasteType: string, weight: real)
    requires Text.Lower(wasteType) !in SupportedWasteTypes
    ensures CalculateCoins(wasteType, weight) == Ceil(weight * 2.0)
  {
  }

  /** For a fixed tag the charge never decreases with the weight, and
      nothing weighs nothing. */
  lemma Monotone(wasteType: string, w1: real, w2: real)
    requires w1 <= w2
    ensures CalculateCoins(wasteType, w1) <= CalculateCoins(wasteType, w2)
    ensures CalculateCoins(wasteType, 0.0) == 0
  {
    var k := Text.Lower(wasteType);
    var rate := if k in WasteTypeInfo then WasteTypeInfo[k].rate else DefaultRate;
    assert rate > 0.0;
    assert w1 * rate <= w2 * rate;
  }

  /** Any positive weight costs at least one coin. */
  lemma PositiveWeightCosts(wasteType: string, weight: real)
    requires weight > 0.0
    ensures CalculateCoins(wasteType, weight) >= 1
  {
  }

  datatype CalculationDetails = CalculationDetails(
    wasteType: string,
    weight: real,
    coinsRequired: int,
    ratePerKg: real,
    description: string)

  /** `getCalculationDetails`: the charge plus the table entry for the tag. */
  function GetCalculationDetails(wasteType: string, weight: real): (d: CalculationDetails)
    ensures d.wasteType == wasteType && d.weight == weight
    ensures d.description == "Unknown waste type" <==> Text.Lower(wasteType) !in SupportedWasteTypes
  {
    var coins := CalculateCoins(wasteType, weight);
    var k := Text.Lower(wasteType);
    if k in WasteTypeInfo then
      CalculationDetails(wasteType, weight, coins, WasteTypeInfo[k].rate, WasteTypeInfo[k].description)
    else
      CalculationDetails(wasteType, weight, coins, 2.0, "Unknown waste type")
  }

  /** The details agree with the charge: the published rate is the one the
      strategy classes apply (2 for unknown tags), and the coins are the
      charge at that rate. */
  lemma DetailsAgreeWithCharge(wasteType: string, weight: real)
    ensures var d := GetCalculationDetails(wasteType, weight);
      && d.coinsRequired == CalculateCoins(wasteType, weight)
      && d.coinsRequired == Ceil(weight * d.ratePerKg)
      && (CreateStrategy(wasteType).Ok? ==> d.ratePerKg == StrategyRate(CreateStrategy(wasteType).value))
      && (CreateStrategy(wasteType).Err? ==> d.ratePerKg == DefaultRate)
  {
  }
}

=== FILE: reviews_page.dfy ===
/** The review form of the Reviews page. The feedback API's answer (or its
    failure), the clock and the date string are parameters. */
module ReviewsPage {
  import opened Wrappers
  import Text

  /** One of the page's recent collections; `hasReview` is the flag the
      page sets in place once a review of it is synced. */
  datatype CollectionRef = CollectionRef(id: string, collectionType: string, hasReview: bool)

  datatype SubmitMode = Normal | General

  datatype ReviewForm = ReviewForm(
    selectedCollection: Option<CollectionRef>,
    showReviewForm: bool,
    rating: int,
    comment: string,
    validationError: string,
    networkError: bool,
    submitMode: SubmitMode)

  /** `handleSelectCollection`: opens a fresh form for one collection. */
  function SelectCollection(form: ReviewForm, c: CollectionRef): (r: ReviewForm)
    ensures r.selectedCollection == Some(c) && r.showReviewForm && r.submitMode == Normal
    ensures r.rating == 0 && r.comment == "" && r.validationError == "" && !r.networkError
    ensures ValidateSubmission(r.rating, r.comment).Some?
  {
    ReviewForm(Some(c), true, 0, "", "", false, Normal)
  }

  /** A click on a collection card: a reviewed collection ignores the
      click, any other opens the form for it. */
  function ClickCollection(form: ReviewForm, c: CollectionRef): (r: ReviewForm)
    ensures c.hasReview ==> r == form
    ensures !c.hasReview ==> r.selectedCollection == Some(c) && r.showReviewForm && r.rating == 0
  {
    if c.hasReview then form else SelectCollection(form, c)
  }

  /** `handleGeneralFeedback`: opens a fresh form tied to no collection. */
  function GeneralFeedback(form: ReviewForm): (r: ReviewForm)
    ensures r.selectedCollection.None? && r.showReviewForm && r.submitMode == General
    ensures r.rating == 0 && r.comment == "" && r.validationError == "" && !r.networkError
    ensures ValidateSubmission(r.rating, r.comment).Some?
  {
    ReviewForm(None, true, 0, "", "", false, General)
  }

  const MaxCommentLength: nat := 500

  /** `validateSubmission`: the rating is checked before the comment length. */
  function ValidateSubmission(rating: int, comment: string): (error: Option<string>)
    ensures !(1 <= rating <= 5) ==> error == Some("Please select a rating between 1 and 5 stars.")
    ensures 1 <= rating <= 5 && |comment| > MaxCommentLength ==>
      error == Some("Comment is too long. Maximum 500 characters allowed.")
    ensures error.None? <==> 1 <= rating <= 5 && |comment| <= MaxCommentLength
  {
    if rating < 1 || rating > 5 then Some("Please select a rating between 1 and 5 stars.")
    else if |comment| > MaxCommentLength then Some("Comment is too long. Maximum 500 characters allowed.")
    else None
  }

  /** The body sent to the feedback API. */
  datatype FeedbackRequest = FeedbackRequest(feedbackDate: string, rating: int, comment: string)

  /** `comment || default`: the empty string is the only falsy string. */
  function OrDefault(s: string, default: string): (r: string)
    ensures r == s || (s == "" && r == default)
    ensures r != "" <==> s != "" || default != ""
  {
    if s == "" then default else s
  }

  function BuildRequest(rating: int, comment: string, today: string): (r: FeedbackRequest)
    ensures r.rating == rating && r.feedbackDate == today
    ensures r.comment == if comment == "" then "Great service, would recommend!" else comment
  {
    FeedbackRequest(today, rating, OrDefault(comment, "Great service, would recommend!"))
  }

  datatype ResponseContent = ResponseContent(
    feedbackId: string,
    feedbackDate: string,
    rating: int,
    comment: string,
    createdAt: string,
    isAnonymous: bool)

  /** What `publishFeedback` produced: an answer, or a thrown error. */
  datatype ApiOutcome = Answered(statusCode: string, content: ResponseContent) | Threw

  datatype Review = Review(
    id: string,
    collectionId: string,
    date: string,
    rating: int,
    comment: string,
    collectionType: string,
    status: string,
    createdAt: Option<string>,
    isAnonymous: Option<bool>)

  function CollectionId(c: Option<CollectionRef>): (r: string)
    ensures c.None? ==> r == "GENERAL"
  {
    if c.Some? then OrDefault(c.value.id, "GENERAL") else "GENERAL"
  }

  function CollectionType(c: Option<CollectionRef>): (r: string)
    ensures c.None? ==> r == "General Feedback"
  {
    if c.Some? then OrDefault(c.value.collectionType, "General Feedback") else "General Feedback"
  }

  predicate Accepted(api: ApiOutcome) {
    api.Answered? && api.statusCode == "02"
  }

  datatype SubmitOutcome =
    | Invalid(message: string)
    | Recorded(history: seq<Review>, review: Review, collections: seq<CollectionRef>)

  /** `selectedCollection.hasReview = true`: the selected object is one of
      the recent collections (ids are distinct), so the entry with its id is
      the one marked. */
  function MarkReviewed(collections: seq<CollectionRef>, id: string): (r: seq<CollectionRef>)
    ensures |r| == |collections|
    ensures forall i :: 0 <= i < |collections| ==>
      && r[i] == collections[i].(hasReview := r[i].hasReview)
      && (r[i].hasReview <==> collections[i].hasReview || collections[i].id == id)
  {
    seq(|collections|, i requires 0 <= i < |collections| =>
      if collections[i].id == id then collections[i].(hasReview := true) else collections[i])
  }

  /** `handleSubmit`: a valid form always records exactly one review at the
      head of the history; it is 'Synced' and built from the API's answer
      only for status code "02", and otherwise it is the locally built
      'Pending Sync' review with id `REV<now>`. Only a synced review of a
      selected collection marks that collection reviewed. */
  function HandleSubmit(history: seq<Review>, collections: seq<CollectionRef>, form: ReviewForm,
                        api: ApiOutcome, now: nat, today: string)
    : (r: SubmitOutcome)
    ensures r.Invalid? <==> ValidateSubmission(form.rating, form.comment).Some?
    ensures r.Invalid? ==> Some(r.message) == ValidateSubmission(form.rating, form.comment)
    ensures r.Recorded? ==> r.history == [r.review] + history
    ensures r.Recorded? ==> |r.collections| == |collections|
    ensures r.Recorded? ==> forall i :: 0 <= i < |collections| ==>
      && r.collections[i] == collections[i].(hasReview := r.collections[i].hasReview)
      && (r.collections[i].hasReview <==>
            || collections[i].hasReview
            || (Accepted(api) && form.selectedCollection.Some?
                && collections[i].id == form.selectedCollection.value.id))
    ensures r.Recorded? ==>
      && r.review.collectionId == CollectionId(form.selectedCollection)
      && r.review.collectionType == CollectionType(form.selectedCollection)
    ensures r.Recorded? ==> (r.review.status == "Synced" <==> Accepted(api))
    ensures r.Recorded? && Accepted(api) ==>
      && r.review.id == api.content.feedbackId && r.review.rating == api.content.rating
      && r.review.comment == api.content.comment && r.review.date == api.content.feedbackDate
    ensures r.Recorded? && !Accepted(api) ==>
      && r.review.status == "Pending Sync"
      && r.review.id == "REV" + Text.NatToString(now)
      && r.review.rating == form.rating && r.review.date == today
      && r.review.comment == (if form.comment == "" then "No comment provided" else form.comment)
  {
    match ValidateSubmission(form.rating, form.comment)
    case Some(message) => Invalid(message)
    case None =>
      var review :=
        if Accepted(api) then
          Review(api.content.feedbackId, CollectionId(form.selectedCollection), api.content.feedbackDate,
                 api.content.rating, api.content.comment, CollectionType(form.selectedCollection), "Synced",
                 Some(api.content.createdAt), Some(api.content.isAnonymous))
        else
          Review("REV" + Text.NatToString(now), CollectionId(form.selectedCollection), today, form.rating,
                 OrDefault(form.comment, "No comment provided"), CollectionType(form.selectedCollection),
                 "Pending Sync", None, None);
      var marked :=
        if Accepted(api) && form.selectedCollection.Some? then MarkReviewed(collections, form.selectedCollection.value.id)
        else collections;
      Recorded([review] + history, review, marked)
  }

  /** A synced review locks its collection: afterwards a click on it leaves
      the form as it is. A review that is only pending sync does not. */
  lemma SyncedReviewLocksCollection(history: seq<Review>, collections: seq<CollectionRef>, form: ReviewForm,
                                    api: ApiOutcome, now: nat, today: string, k: nat, next: ReviewForm)
    requires k < |collections| && form.selectedCollection == Some(collections[k])
    requires ValidateSubmission(form.rating, form.comment).None?
    ensures var r := HandleSubmit(history, collections, form, api, now, today);
      && r.Recorded?
      && (Accepted(api) ==> ClickCollection(next, r.collections[k]) == next)
      && (!Accepted(api) && !collections[k].hasReview ==>
            ClickCollection(next, r.collections[k]).selectedCollection == Some(collections[k]))
  {
  }

  /** An empty comment goes to the API as the canned praise but is kept
      locally, when the call fails, as "No comment provided". */
  lemma EmptyCommentDefaults(history: seq<Review>, form: ReviewForm, now: nat, today: string)
    requires 1 <= form.rating <= 5 && form.comment == ""
    ensures BuildRequest(form.rating, form.comment, today).comment == "Great service, would recommend!"
    ensures var r := HandleSubmit(history, [], form, Threw, now, today);
      r.Recorded? && r.review.comment == "No comment provided" && r.review.status == "Pending Sync"
  {
  }
}

=== FILE: seqs.dfy ===
/** Generic list operations shared by the in-memory stores: `Array.filter`,
    `Array.findIndex`, `unshift` followed by a cap, and `splice(i, 1)`. */
module Seqs {
  import opened Wrappers

  /** `s.filter(p)`: the elements that satisfy `p`, in their stored order. */
  function Filter<T>(s: seq<T>, p: T -> bool): (r: seq<T>)
    ensures |r| <= |s|
    ensures forall i :: 0 <= i < |r| ==> p(r[i]) && r[i] in s
    ensures forall i :: 0 <= i < |s| ==> (s[i] in r <==> p(s[i]))
  {
    if |s| == 0 then []
    else if p(s[0]) then [s[0]] + Filter(s[1..], p)
    else Filter(s[1..], p)
  }

  /** Filtering distributes over concatenation: the order of the kept
      elements is the stored order. */
  lemma {:induction false} FilterConcat<T>(a: seq<T>, b: seq<T>, p: T -> bool)
    ensures Filter(a + b, p) == Filter(a, p) + Filter(b, p)
  {
    if |a| == 0 {
      assert a + b == b;
    } else {
      assert (a + b)[1..] == a[1..] + b;
      FilterConcat(a[1..], b, p);
    }
  }

  /** One step of the filter, read from position `k` of the sequence. */
  lemma FilterStep<T>(s: seq<T>, k: nat, p: T -> bool)
    requires k < |s|
    ensures Filter(s[k..], p) == (if p(s[k]) then [s[k]] else []) + Filter(s[k + 1..], p)
  {
    assert s[k..][1..] == s[k + 1..];
  }

  /** A filter that rejects nothing is the identity. */
  lemma {:induction false} FilterAll<T>(s: seq<T>, p: T -> bool)
    requires forall i :: 0 <= i < |s| ==> p(s[i])
    ensures Filter(s, p) == s
  {
    if |s| > 0 {
      FilterAll(s[1..], p);
    }
  }

  /** Filters by two predicates that agree on every element coincide. */
  lemma {:induction false} FilterSame<T>(s: seq<T>, p: T -> bool, q: T -> bool)
    requires forall i :: 0 <= i < |s| ==> p(s[i]) == q(s[i])
    ensures Filter(s, p) == Filter(s, q)
  {
    if |s| > 0 {
      FilterSame(s[1..], p, q);
    }
  }

  /** Counts of three pairwise exclusive filters never exceed the length. */
  lemma {:induction false} FilterDisjoint3<T>(s: seq<T>, p: T -> bool, q: T -> bool, o: T -> bool)
    requires forall i :: 0 <= i < |s| ==> !(p(s[i]) && q(s[i])) && !(p(s[i]) && o(s[i])) && !(q(s[i]) && o(s[i]))
    ensures |Filter(s, p)| + |Filter(s, q)| + |Filter(s, o)| <= |s|
  {
    if |s| > 0 {
      FilterDisjoint3(s[1..], p, q, o);
    }
  }

  /** Counts of four pairwise exclusive filters never exceed the length. */
  lemma {:induction false} FilterDisjoint4<T>(s: seq<T>, p: T -> bool, q: T -> bool, o: T -> bool, w: T -> bool)
    requires forall i :: 0 <= i < |s| ==>
      (p(s[i]) ==> !q(s[i]) && !o(s[i]) && !w(s[i])) && (q(s[i]) ==> !o(s[i]) && !w(s[i])) && (o(s[i]) ==> !w(s[i]))
    ensures |Filter(s, p)| + |Filter(s, q)| + |Filter(s, o)| + |Filter(s, w)| <= |s|
  {
    if |s| > 0 {
      FilterDisjoint4(s[1..], p, q, o, w);
    }
  }

  /** Counts of three filters that partition the elements add up to the length. */
  lemma {:induction false} FilterPartition3<T>(s: seq<T>, p: T -> bool, q: T -> bool, o: T -> bool)
    requires forall i :: 0 <= i < |s| ==> !(p(s[i]) && q(s[i])) && !(p(s[i]) && o(s[i])) && !(q(s[i]) && o(s[i]))
    requires forall i :: 0 <= i < |s| ==> p(s[i]) || q(s[i]) || o(s[i])
    ensures |Filter(s, p)| + |Filter(s, q)| + |Filter(s, o)| == |s|
  {
    if |s| > 0 {
      FilterPartition3(s[1..], p, q, o);
    }
  }

  /** `s.findIndex(p)`, with -1 rendered as `None`: the FIRST index that satisfies `p`. */
  function FindIndex<T>(s: seq<T>, p: T -> bool): (r: Option<nat>)
    ensures r.Some? ==> r.value < |s| && p(s[r.value])
    ensures r.Some? ==> forall j :: 0 <= j < r.value ==> !p(s[j])
    ensures r.None? <==> forall j :: 0 <= j < |s| ==> !p(s[j])
  {
    if |s| == 0 then None
    else if p(s[0]) then Some(0)
    else match FindIndex(s[1..], p)
      case None => None
      case Some(k) => Some(k + 1)
  }

  /** `unshift(x)` followed by `if (length > cap) slice(0, cap)`. */
  function PrependCapped<T>(s: seq<T>, x: T, cap: nat): (r: seq<T>)
    requires cap >= 1
    ensures |r| == if |s| + 1 <= cap then |s| + 1 else cap
    ensures r[0] == x
    ensures forall i :: 1 <= i < |r| ==> r[i] == s[i - 1]
  {
    var grown := [x] + s;
    if |grown| > cap then grown[..cap] else grown
  }

  /** A store that respects its cap keeps respecting it, and one that is not
      yet full loses nothing. */
  lemma PrependCappedKeeps<T>(s: seq<T>, x: T, cap: nat)
    requires cap >= 1
    ensures |PrependCapped(s, x, cap)| <= cap
    ensures |s| < cap ==> PrependCapped(s, x, cap) == [x] + s
  {
  }

  /** `splice(i, 1)`: drop one position, keep the order of the rest. */
  function RemoveAt<T>(s: seq<T>, i: nat): (r: seq<T>)
    requires i < |s|
    ensures |r| == |s| - 1
    ensures forall j :: 0 <= j < i ==> r[j] == s[j]
    ensures forall j :: i <= j < |r| ==> r[j] == s[j + 1]
  {
    s[..i] + s[i + 1..]
  }
}

=== FILE: tally.dfy ===
/** `xs.reduce((acc, k) => { acc[k] = (acc[k] || 0) + 1; return acc }, {})`:
    an object from key to number of occurrences. The model keeps the keys
    in first-occurrence order; a JavaScript object enumerates integer-like
    keys in ascending numeric order first, a difference no contract here
    depends on. Used for every "by category / by priority / by reason"
    breakdown of the dashboard. */
module Tally {

  type Counts<K> = seq<(K, nat)>

  /** No key appears twice. */
  predicate Distinct<K(==)>(t: Counts<K>) {
    forall i, j :: 0 <= i < j < |t| ==> t[i].0 != t[j].0
  }

  /** `acc[k] || 0`. */
  function Lookup<K(==)>(t: Counts<K>, k: K): nat {
    if |t| == 0 then 0 else if t[0].0 == k then t[0].1 else Lookup(t[1..], k)
  }

  /** The sum of all counts, `Object.values(acc)` added up. */
  function Total<K>(t: Counts<K>): nat {
    if |t| == 0 then 0 else t[0].1 + Total(t[1..])
  }

  /** One step of the reduce: increment `k`, or append it with count 1. */
  function Bump<K(==,!new)>(t: Counts<K>, k: K): (r: Counts<K>)
    requires Distinct(t)
    ensures Distinct(r)
    ensures Lookup(r, k) == Lookup(t, k) + 1
    ensures forall x :: x != k ==> Lookup(r, x) == Lookup(t, x)
    ensures Total(r) == Total(t) + 1
    ensures forall i :: 0 <= i < |r| ==> r[i].0 == k || exists j :: 0 <= j < |t| && t[j].0 == r[i].0
  {
    if |t| == 0 then [(k, 1)]
    else if t[0].0 == k then [(k, t[0].1 + 1)] + t[1..]
    else [t[0]] + Bump(t[1..], k)
  }

  /** The whole reduce over `keys`, left to right. */
  function Tally<K(==,!new)>(keys: seq<K>): (t: Counts<K>)
    ensures Distinct(t)
    ensures forall x :: Lookup(t, x) == multiset(keys)[x]
    ensures forall i :: 0 <= i < |t| ==> t[i].0 in keys
  {
    if |keys| == 0 then []
    else
      var init := keys[..|keys| - 1];
      assert keys == init + [keys[|keys| - 1]];
      Bump(Tally(init), keys[|keys| - 1])
  }

  /** The counts of a breakdown add up to the number of items counted. */
  lemma {:induction false} TallyTotal<K(!new)>(keys: seq<K>)
    ensures Total(Tally(keys)) == |keys|
  {
    if |keys| > 0 {
      TallyTotal(keys[..|keys| - 1]);
    }
  }
}

=== FILE: text.dfy ===
/** The string primitives the dashboard leans on, restricted to ASCII:
    `toLowerCase`/`toUpperCase`, `trim`, `includes`, `split(" ")[0]`,
    `String(n)` for a natural number and `padStart`. */
module Text {

  predicate IsDigit(c: char) {
    '0' <= c <= '9'
  }

  predicate AllDigits(s: string) {
    forall i :: 0 <= i < |s| ==> IsDigit(s[i])
  }

  function LowerChar(c: char): char {
    if 'A' <= c <= 'Z' then (c as int + 32) as char else c
  }

  function UpperChar(c: char): char {
    if 'a' <= c <= 'z' then (c as int - 32) as char else c
  }

  /** ASCII `toLowerCase`: same length, letters folded position by position. */
  function Lower(s: string): (r: string)
    ensures |r| == |s|
    ensures forall i :: 0 <= i < |s| ==> r[i] == LowerChar(s[i])
  {
    seq(|s|, i requires 0 <= i < |s| => LowerChar(s[i]))
  }

  /** ASCII `toUpperCase`. */
  function Upper(s: string): (r: string)
    ensures |r| == |s|
    ensures forall i :: 0 <= i < |s| ==> r[i] == UpperChar(s[i])
  {
    seq(|s|, i requires 0 <= i < |s| => UpperChar(s[i]))
  }

  /** Folding twice is folding once, which makes a lookup on the folded key
      insensitive to the case of its argument. */
  lemma LowerIdempotent(s: string)
    ensures Lower(Lower(s)) == Lower(s)
    ensures forall i :: 0 <= i < |s| ==> !('A' <= Lower(s)[i] <= 'Z')
  {
  }

  lemma UpperIdempotent(s: string)
    ensures Upper(Upper(s)) == Upper(s)
    ensures forall i :: 0 <= i < |s| ==> !('a' <= Upper(s)[i] <= 'z')
  {
  }

  /** Lower-casing forgets any earlier upper-casing. */
  lemma LowerOfUpper(s: string)
    ensures Lower(Upper(s)) == Lower(s)
  {
  }

  /** The white space and line terminators `trim` removes: tab, line feed,
      vertical tab, form feed, carriage return, the space separators of
      Unicode category Zs, the byte order mark, and U+2028/U+2029. */
  predicate IsSpace(c: char) {
    c == ' ' || c == '\t' || c == '\n' || c == '\r' || c == '\U{000B}' || c == '\U{000C}'
    || c == '\U{00A0}' || c == '\U{1680}' || ('\U{2000}' <= c <= '\U{200A}')
    || c == '\U{2028}' || c == '\U{2029}' || c == '\U{202F}' || c == '\U{205F}'
    || c == '\U{3000}' || c == '\U{FEFF}'
  }

  predicate IsBlank(s: string) {
    forall i :: 0 <= i < |s| ==> IsSpace(s[i])
  }

  function TrimStart(s: string): (r: string)
    ensures |r| <= |s| && r == s[|s| - |r|..]
    ensures |r| > 0 ==> !IsSpace(r[0])
    ensures IsBlank(s[..|s| - |r|])
  {
    if |s| > 0 && IsSpace(s[0]) then TrimStart(s[1..]) else s
  }

  function TrimEnd(s: string): (r: string)
    ensures |r| <= |s| && r == s[..|r|]
    ensures |r| > 0 ==> !IsSpace(r[|r| - 1])
    ensures IsBlank(s[|r|..])
  {
    if |s| > 0 && IsSpace(s[|s| - 1]) then TrimEnd(s[..|s| - 1]) else s
  }

  /** `s.trim()`. */
  function Trim(s: string): string {
    TrimEnd(TrimStart(s))
  }

  /** `!s.trim()` holds exactly of the strings made of white space only. */
  lemma TrimEmptyIffBlank(s: string)
    ensures Trim(s) == "" <==> IsBlank(s)
  {
    var t := TrimStart(s);
    if Trim(s) == "" {
      assert IsBlank(t[0..]);
      assert s == s[..|s| - |t|] + t;
    }
  }

  predicate OccursAt(haystack: string, needle: string, i: nat) {
    i + |needle| <= |haystack| && haystack[i..i + |needle|] == needle
  }

  /** `haystack.includes(needle)`. */
  predicate Contains(haystack: string, needle: string) {
    exists i: nat | i <= |haystack| :: OccursAt(haystack, needle, i)
  }

  lemma ContainsEmpty(haystack: string)
    ensures Contains(haystack, "")
  {
    assert OccursAt(haystack, "", 0);
  }

  lemma ContainsSelf(s: string)
    ensures Contains(s, s)
  {
    assert OccursAt(s, s, 0);
  }

  /** `s.split(" ")[0]`: everything before the first space. */
  function FirstWord(s: string): (r: string)
    ensures |r| <= |s| && r == s[..|r|]
    ensures ' ' !in r
    ensures |r| < |s| ==> s[|r|] == ' '
  {
    if |s| == 0 || s[0] == ' ' then "" else [s[0]] + FirstWord(s[1..])
  }

  function DigitChar(d: nat): (c: char)
    requires d < 10
    ensures IsDigit(c)
  {
    ('0' as int + d) as char
  }

  function DigitValue(c: char): nat
    requires IsDigit(c)
  {
    c as int - '0' as int
  }

  /** The number a string of decimal digits denotes. */
  function DigitsValue(s: string): nat
    requires AllDigits(s)
  {
    if |s| == 0 then 0 else DigitsValue(s[..|s| - 1]) * 10 + DigitValue(s[|s| - 1])
  }

  /** `String(n)` for a natural number: its decimal rendering. */
  function NatToString(n: nat): (r: string)
    ensures |r| >= 1 && AllDigits(r)
    ensures |r| > 1 ==> r[0] != '0'
    decreases n
  {
    if n < 10 then [DigitChar(n)] else NatToString(n / 10) + [DigitChar(n % 10)]
  }

  /** `String(n)` for an integer. */
  function IntToString(n: int): (r: string)
    ensures n >= 0 ==> r == NatToString(n)
    ensures n < 0 ==> r == "-" + NatToString(-n)
  {
    if n < 0 then "-" + NatToString(-n) else NatToString(n)
  }

  /** Rendering and reading back a number is the identity. */
  lemma {:induction false} NatToStringValue(n: nat)
    ensures DigitsValue(NatToString(n)) == n
    decreases n
  {
    if n >= 10 {
      NatToStringValue(n / 10);
      var r := NatToString(n);
      assert r[..|r| - 1] == NatToString(n / 10);
    }
  }

  /** `k` copies of `c`. */
  function Repeat(c: char, k: nat): (r: string)
    ensures |r| == k
    ensures forall i :: 0 <= i < k ==> r[i] == c
  {
    if k == 0 then [] else [c] + Repeat(c, k - 1)
  }

  /** `s.padStart(width, c)`: `c` is prepended until the width is reached. */
  function PadStart(s: string, width: nat, c: char): (r: string)
    ensures |r| == if |s| >= width then |s| else width
    ensures r[|r| - |s|..] == s
    ensures forall i :: 0 <= i < |r| - |s| ==> r[i] == c
  {
    if |s| >= width then s else Repeat(c, width - |s|) + s
  }

  /** A leading zero does not change the value of a digit string. */
  lemma {:induction false} LeadingZeroValue(s: string)
    requires AllDigits(s)
    ensures AllDigits(['0'] + s) && DigitsValue(['0'] + s) == DigitsValue(s)
    decreases |s|
  {
    if |s| > 0 {
      var z := ['0'] + s;
      assert z[..|z| - 1] == ['0'] + s[..|s| - 1];
      LeadingZeroValue(s[..|s| - 1]);
    }
  }

  /** Leading zeros do not change the value of a digit string. */
  lemma {:induction false} LeadingZerosValue(k: nat, s: string)
    requires AllDigits(s)
    ensures AllDigits(Repeat('0', k) + s) && DigitsValue(Repeat('0', k) + s) == DigitsValue(s)
    decreases k
  {
    if k == 0 {
      assert Repeat('0', k) + s == s;
    } else {
      LeadingZerosValue(k - 1, s);
      assert Repeat('0', k) + s == ['0'] + (Repeat('0', k - 1) + s);
      LeadingZeroValue(Repeat('0', k - 1) + s);
    }
  }

  /** Zero-padding a digit string keeps its value. */
  lemma ZeroPadValue(s: string, width: nat)
    requires AllDigits(s)
    ensures AllDigits(PadStart(s, width, '0'))
    ensures DigitsValue(PadStart(s, width, '0')) == DigitsValue(s)
  {
    if |s| < width {
      LeadingZerosValue(width - |s|, s);
    }
  }
}

=== FILE: wrappers.dfy ===
/** Failure-carrying results used by every service of the model.
    A rejected promise of the dashboard becomes `Err(message)`. */
module Wrappers {

  datatype Option<+T> = None | Some(value: T) {
    function GetOr(default: T): T {
      match this
      case Some(v) => v
      case None => default
    }
  }

  datatype Result<+T> = Ok(value: T) | Err(error: string)
}
